=== FILE: README.md ===
# Consortium bidding desk — a Dafny model of its pure logic

The bidding desk is a PySide6 tool for Korean public-procurement bids. It
searches an Excel company register, assembles joint-venture ("협정",
consortium) line-ups, and checks them against the rules of a notice. It
keeps saved line-ups and writes notice and consortium messages. It also
stores per-site login accounts in an encrypted file.

This project models the parts of the tool that are plain logic, as pure
Dafny functions over sequences, maps and strings:

- **Register search.** Text cleaning, freshness labels read from cell
  colours, credit-rating normalisation, and the nine-stage filter
  pipeline (`SearchLogic`).
- **Consortium entry.** Member selection, share entry, the regional
  duty-ratio check, the duplicate guard and role→row mapping. It also
  covers the bid amount, the performance target, the guided-copy chunks
  and the pre-check. This is `ConsortiumEntry` for the 행안부 view; the
  조달청 view differs in the parts held in `JodalView`.
- **Review panel.** Freshness warnings, the credit display, and the
  share, score and capacity reports (`Review`).
- **Saved results.** Move up and down, duplicate, delete, and the
  message builders (`ResultList`).
- **The consortium board** in the current dialog (`ConsortiumManager`)
  and in the earlier one (`ExDialog`). The earlier dialog's
  `get_company_info` (ex.py:47-59) and `get_results` (ex.py:221-231) do
  the same as the current dialog's, so `ExDialog` reuses
  `ConsortiumManager.GetCompanyInfo` and `ConsortiumManager.GetResults`. This covers the name-and-share
  entry, drop positions, delete, edit, results and the recalculation
  guard.
- **Loading saved files.** The filter, the sort, the choice lists and
  the selection (`LoadPopup`).
- **The guided-copy step machine** (`GuidedCopy`).
- **Search detail view.** Excel quoting, live comma grouping, and the
  status and danger colours (`SearchView`).
- **The notice-message generator** and its API fill target
  (`MessageGenerator`).
- **The credential store.** Load, save, update and migration
  (`Credentials`), and the account-edit dialog (`AccountEdit`).
- **The notice-search popup.** Keyword cut, price parse and reply
  handling (`ApiPopup`).
- **The minimal requirements export** (`Requirements`).

Shared helpers model Python's built-ins on strings and lists, each stated
with its own contract:

- `Base`: list comprehensions, `insert`, `remove`, `index`, `sum`;
- `Text`: `strip`, `split`, `join`, `find`, `replace`, `lower`, `upper`;
- `Numbers`: `int`, `str`, `f"{n:,}"`;
- `Ordering`: Python's string order, `sorted(set(...))`, the descending
  sort.

Records that the engine and the register produce are in `Records`.

Three kinds of thing that are not part of this model become parameters:

- the scoring engine's answers;
- the amount parser `utils.parse_amount`, Python's `float()`, and the
  `%g` and `str()` renderings (the record `Records.Externals`);
- the user's replies to confirmation boxes.

## Model

| member | source | states |
|---|---|---|
| SearchLogic.CleanText | search_logic.py:8-13 | the result is the runs of characters the regex does not match, joined by single spaces: every whitespace/control run between two of them becomes exactly one space, and runs at either end vanish; so no control character remains and every unmatched character is kept, in order |
| SearchLogic.CleanValue | search_logic.py:10-11 | a value that is not text comes back unchanged; text comes back as its cleaned text |
| SearchLogic.CleanTextIdempotent | search_logic.py:12-13 | cleaning an already cleaned string gives it back |
| SearchLogic.CleanFixed | search_logic.py:12-13 | every clean string is a fixed point of the cleaning |
| SearchLogic.CleanAllJunk | search_logic.py:12-13 | a string made only of whitespace and control characters cleans to the empty string |
| SearchLogic.NulNameCleansEmpty | search_logic.py:53-56 | a lone NUL passes the header's non-blank test yet cleans to an empty company name |
| SearchLogic.StatusFromColor | search_logic.py:15-27 | the label is one of the four freshness labels, and anything that is not a colour, or is a colour of another type, is "미지정" |
| SearchLogic.ThemeLabels | search_logic.py:18-21 | theme 6 ⇔ "최신", theme 3 ⇔ "1년 경과", theme 0 or 1 ⇔ "1년 이상 경과" |
| SearchLogic.RgbCaseAndDefault | search_logic.py:22-26 | rgb codes are compared regardless of letter case, and a missing code counts as "00000000", an old colour |
| SearchLogic.RgbLabels | search_logic.py:22-26 | for every rgb code: "최신" iff its upper case is FFE2EFDA, "1년 경과" iff FFDDEBF7, "1년 이상 경과" iff it is empty or FFFFFFFF, 00000000 or FFFDEDEC, and "미지정" for every other code |
| SearchLogic.UpperIdempotent | search_logic.py:23 | upper-casing a code twice is upper-casing it once |
| SearchLogic.NormalizeCredit | search_logic.py:72-79 | with the stripped text's words w: no words give "", one word gives it, and two or more give w[0], a newline, and the rest joined by single spaces; hence at most one newline, after the first word |
| SearchLogic.CreditShape | search_logic.py:77-79 | for any list of space-free words, turning the first space of their space-join into a newline gives that shape |
| SearchLogic.ProcessValue | search_logic.py:64-83 | a field value is absent iff the cell is; ratios held as numbers are scaled by 100; ratings keep at most one newline; other text is cleaned |
| SearchLogic.Stored | search_logic.py:84 | an absent value is stored as a value, and a present one is stored as is |
| SearchLogic.ExtractCompany | search_logic.py:56-96 | every offset field gets exactly one value and one status; a row inside the sheet gives the stored processed value of the cell at that offset and the label of its fill colour; a row past the sheet gives "N/A" and "범위 초과"; an empty cell is stored as "" |
| SearchLogic.RowCompanies | search_logic.py:49-96 | a header row yields one company per name column (text that is not blank, from column 2 on), in column order, the k-th being the record extracted at the k-th name column under its cleaned name |
| SearchLogic.SheetCompanies | search_logic.py:43-98 | every company read from a sheet has a clean name and exactly the offset fields |
| SearchLogic.BookCompanies | search_logic.py:38-98 | every company read from the workbook is well formed |
| SearchLogic.BookCompaniesNone | search_logic.py:38-98 | the workbook yields no company iff none of its sheets does |
| SearchLogic.BookCompaniesAppend | search_logic.py:38-39 | sheets are read in order: the companies of a + b are those of a followed by those of b |
| SearchLogic.BookHasEveryNameColumn | search_logic.py:43-96 | every name column (from column 2 on) of every header row (first cell containing "회사명" after stripping) of every sheet yields its extracted company |
| SearchLogic.BookHasOnlyNameColumns | search_logic.py:43-96 | every company of the workbook is the one extracted at some name column of some header row of some sheet |
| SearchLogic.StagesFilter | search_logic.py:104-124 | running the first n filter stages keeps exactly the records that pass those n stages, in order |
| SearchLogic.StageStep | search_logic.py:104-124 | one more stage filters the survivors of the earlier stages |
| SearchLogic.PassesAllMatches | search_logic.py:105-124 | passing all nine stages is the reference condition (name, manager, region, three min/max ranges) |
| SearchLogic.MatchesPasses | search_logic.py:104-124 | a company meeting the reference condition survives every stage that runs |
| SearchLogic.PassesMatch | search_logic.py:104-124 | a company surviving every stage that runs meets the reference condition |
| SearchLogic.PipelineIsReference | search_logic.py:104-124 | the staged pipeline equals one filter by the reference condition |
| SearchLogic.FindAndFilter | search_logic.py:30-129 | an open error iff the file cannot be opened; "no companies" iff the opened workbook yields none; results are found iff some company matches, and they are then exactly the matching companies in register order; a no-match error means companies exist but none matched |
| ConsortiumEntry.InitialSlots | ui_pyside/consortium_view_haeng.py:190-206 | the table opens with the five roles, no company data and no members |
| ConsortiumEntry.Members | ui_pyside/consortium_view_haeng.py:321-322 | the members are, in order, exactly the rows with company data and share > 0 |
| ConsortiumEntry.OnShareChanged | ui_pyside/consortium_view_haeng.py:489-496 | only an edit in column 4 changes anything, and only its own row's share: text/100 when the text parses, 0 otherwise |
| ConsortiumEntry.RegionalShareCounts | ui_pyside/consortium_view_haeng.py:918-921 | the regional sum adds each member whose region contains the limit, and no other |
| ConsortiumEntry.CheckRegional | ui_pyside/consortium_view_haeng.py:905-941 | passes outright under "전체" or a blank ratio; fails on a non-numeric ratio; otherwise passes iff sum×100 ≥ ratio or the user accepts the shortfall |
| ConsortiumEntry.RegionalEqualityPasses | ui_pyside/consortium_view_haeng.py:929 | a regional share exactly at the duty ratio passes without asking |
| ConsortiumEntry.Validate | ui_pyside/consortium_view_haeng.py:314-373 | the inputs are accepted iff the date was set, some member exists, a rule is chosen and the estimate parses to a non-zero amount |
| ConsortiumEntry.AddResult | ui_pyside/consortium_view_haeng.py:394-440 | after the input and regional checks pass, a member already used by a listed result is reported as a duplicate (naming exactly the shared members) iff there is one; otherwise the engine's answer is appended with the title and number, every earlier result kept, and only a missing answer is an engine failure |
| ConsortiumEntry.AddTwiceIsDuplicate | ui_pyside/consortium_view_haeng.py:405-421 | adding the same line-up again right after it was added is refused as a duplicate |
| ConsortiumEntry.AddedKeepsNamesApart | ui_pyside/consortium_view_haeng.py:405-421 | after an accepted add, none of the new result's companies appears in an earlier result |
| ConsortiumEntry.RemoveResult | ui_pyside/consortium_view_haeng.py:899-903 | removing a listed result drops exactly one copy of it; an unlisted one changes nothing |
| ConsortiumEntry.DeleteSingleResult | ui_pyside/consortium_view_haeng.py:507-517 | a declined delete changes nothing; a confirmed one drops exactly one copy |
| ConsortiumEntry.RoleOffset | ui_pyside/consortium_view_haeng.py:599-603 | the lead, and any role that is not "구성사…", map to offset 0 |
| ConsortiumEntry.RoleOffsetMember | ui_pyside/consortium_view_haeng.py:873-878 | "구성사 N" maps back to N for every N |
| ConsortiumEntry.RoleOffsetRoles | ui_pyside/consortium_view_haeng.py:873-878 | each of the five table roles maps back to its own row |
| ConsortiumEntry.RoleOffsetUnnumbered | ui_pyside/consortium_view_haeng.py:876-878 | "구성사 ?" has no row and is skipped |
| ConsortiumEntry.TuchalAmount | ui_pyside/consortium_view_haeng.py:280-296 | non-numeric rates give the error; otherwise the amount is non-negative, positive iff base, rate and 사정률 are all positive, and then equal to base × rate/100 × 사정률/100 |
| ConsortiumEntry.TuchalSymmetric | ui_pyside/consortium_view_haeng.py:289-293 | swapping the rate and the 사정률 leaves the outcome unchanged |
| ConsortiumEntry.TuchalAtMostBase | ui_pyside/consortium_view_haeng.py:289-293 | with both rates numeric and at most 100, the amount is at most the base (at most 0 for a base that is not positive) |
| ConsortiumEntry.PerformanceTarget | ui_pyside/consortium_view_haeng.py:270-276 | the target is the parsed price (0 when none) times the multiplier (1 when none); no parsed price gives 0; with a non-zero multiplier the target is non-zero iff the price is |
| ConsortiumEntry.PerformanceTargetDefault | ui_pyside/consortium_view_haeng.py:274-276 | without a multiplier the target is the price itself |
| ConsortiumEntry.PerformanceTargetScales | ui_pyside/consortium_view_haeng.py:274-276 | a rule's multiplier scales the plain target |
| ConsortiumEntry.RowTexts | ui_pyside/consortium_view_haeng.py:670-673 | one text per column in the range, "" for a missing cell |
| ConsortiumEntry.StartCellRow | ui_pyside/consortium_view_haeng.py:656-665 | the paste cell is the block's column followed by the row number 3 + index |
| ConsortiumEntry.CopyChunks | ui_pyside/consortium_view_haeng.py:655-677 | one chunk per fixed block, each the tab-join of its row texts |
| ConsortiumEntry.ChunkRoundTrip | ui_pyside/consortium_view_haeng.py:677 | splitting a chunk at tabs gives back its cell texts when no cell holds a tab |
| ConsortiumEntry.AnyProblemExists | ui_pyside/consortium_view_haeng.py:716 | `any(is_problem)` holds iff some result is a problem |
| ConsortiumEntry.RunPreCheck | ui_pyside/consortium_view_haeng.py:682-719 | the check runs iff the rule is a 30억이상 rule, the bid amount is positive, members exist and the regional check passes; then it passes iff no result is a problem |
| JodalView.PerformanceTarget | ui_pyside/consortium_view_jodal.py:232-264 | no rule chosen leaves the target empty (0); otherwise it is the parsed notice base amount (0 when none) times the multiplier (1 when none), so with a non-zero multiplier it is non-zero iff a rule is chosen and the base is non-zero |
| JodalView.TargetScales | ui_pyside/consortium_view_jodal.py:250-264 | once a rule is chosen, its multiplier scales the plain target read from the notice base amount |
| JodalView.TargetIgnoresEstimate | ui_pyside/consortium_view_jodal.py:252-260 | the estimated price plays no part in this view's target |
| JodalView.MemberLine | ui_pyside/consortium_view_jodal.py:758-771 | a line starts with the name; the lead's line is exactly name, share and "%", and every other member's adds the bracketed registration number |
| JodalView.MessageLines | ui_pyside/consortium_view_jodal.py:754-778 | number and title lines, a blank, one line per member in order, a blank, and "입찰참여 부탁드립니다" iff there is exactly one member |
| JodalView.MessageRoundTrip | ui_pyside/consortium_view_jodal.py:780 | the message splits back into its lines when no field holds a newline |
| JodalView.AllMessages | ui_pyside/consortium_view_jodal.py:741-786 | no results give no text; a single result gives its own message |
| JodalView.AllMessagesAppend | ui_pyside/consortium_view_jodal.py:780-786 | one more result adds the dashed separator and that result's message at the end |
| JodalView.DeleteSingleResultAsWritten | ui_pyside/consortium_view_jodal.py:491-498 | as written, the list keeps every copy of the result whatever the reply |
| JodalView.ConfirmedDeleteKeepsResult | ui_pyside/consortium_view_jodal.py:491-498 | a confirmed delete leaves the result listed and the list as long as before |
| JodalView.CorrectedDeleteRemoves | ui_pyside/consortium_view_haeng.py:507-517 | the corrected delete removes exactly one copy of the confirmed result |
| Review.AllCurrent | ui_pyside/review_dialog.py:128-131 | the data counts as current iff every listed field's status is "최신" |
| Review.StaleIsNotCurrent | ui_pyside/review_dialog.py:286-287 | the report's "outdated" test is the negation of the card's "current" test |
| Review.ManagementWarning | ui_pyside/review_dialog.py:125-130 | the warning shows iff 부채비율 or 유동비율 is not "최신" |
| Review.PerformanceWarning | ui_pyside/review_dialog.py:126-133 | the warning shows iff 시평, 3년 실적 or 5년 실적 is not "최신" |
| Review.MissingStatusWarns | ui_pyside/review_dialog.py:128 | a field with no recorded status counts as "미지정" and warns |
| Review.CreditLine | ui_pyside/review_dialog.py:152-156 | "유효" shows the score, "기간만료" and "형식오류" their labels, and no status shows "자료 없음" |
| Review.TotalColour | ui_pyside/review_dialog.py:146-149 | green iff the basis is 신용평가; blue iff not, and the total is within 0.001 of 15 |
| Review.SharesOk | ui_pyside/review_dialog.py:266-270 | the share total is reported met iff it lies within 0.01 of 100% |
| Review.SharesOkOrderFree | ui_pyside/review_dialog.py:176-177 | the share verdict does not depend on the order of the members |
| Review.BusinessReport | ui_pyside/review_dialog.py:272-277 | full iff within 0.001 of 15; otherwise the deduction is 15 − score, and the listed members are, in order, exactly those with a total below 15 |
| Review.PerformanceReport | ui_pyside/review_dialog.py:279-283 | full iff within 0.001 of 15; otherwise the score and ratio are shown |
| Review.HasPossible | ui_pyside/review_dialog.py:239-242 | set iff some member can bid alone |
| Review.SoloLines | ui_pyside/review_dialog.py:240-246 | one line per member, in order, by whether it can bid alone |
| Review.SoloSummary | ui_pyside/review_dialog.py:237-249 | no members give "참여 업체 없음"; otherwise the "정상" header comes first iff no member can bid alone, followed by the member lines |
| Review.AllPassed | ui_pyside/review_dialog.py:256 | set iff every capacity check passed |
| Review.CheckLines | ui_pyside/review_dialog.py:259-263 | a verdict line and a note line per check, in order |
| Review.CapacityReport | ui_pyside/review_dialog.py:255-263 | no checks give no lines; otherwise an all-passed header, then the check lines |
| Review.LimitBlock | ui_pyside/review_dialog.py:294-300 | the limit block shows iff there is a result whose message is not "시평액 제한 없음" |
| Review.ManagementOutdated | ui_pyside/review_dialog.py:286-289 | the listed members are, in order, exactly those whose card warns about management data |
| Review.PerformanceOutdated | ui_pyside/review_dialog.py:287-291 | the listed members are, in order, exactly those whose card warns about performance data |
| Review.BaseKeyLabel | ui_pyside/review_dialog.py:198-200 | labelled "기초금액" iff the key is notice_base_amount, and "추정가격" otherwise |
| Review.BaseAmount | ui_pyside/review_dialog.py:198-199 | the key defaults to estimation_price, and a missing price shows 0 |
| Review.CapacitySumAppend | ui_pyside/review_dialog.py:187 | the capacity sum adds up over any split of the members |
| Review.AsWrittenIsHundredth | ui_pyside/review_dialog.py:188 | the figure shown is always a hundredth of the share-weighted capacity |
| Review.RatioCounterexample | ui_pyside/review_dialog.py:188 | a sole member with full share and capacity 1,000,000 shows 10,000 |
| Review.SoleMemberRatio | ui_pyside/review_dialog.py:100-101 | with the decimal share, a sole member holding the whole share carries its full capacity |
| ResultList.MoveUp | ui_pyside/result_management_dialog.py:182-190 | the rows are a permutation; the selected row swaps with the one above, everything else stays; at the top nothing moves |
| ResultList.MoveDown | ui_pyside/result_management_dialog.py:192-200 | the rows are a permutation; the selected row swaps with the one below, everything else stays; at the bottom nothing moves |
| ResultList.MoveUpThenDown | ui_pyside/result_management_dialog.py:188-198 | moving a row up and back down restores the list |
| ResultList.MoveDownThenUp | ui_pyside/result_management_dialog.py:188-198 | moving a row down and back up restores the list |
| ResultList.Duplicate | ui_pyside/result_management_dialog.py:169-179 | a copy of the row goes right after it; the rest is kept in place and the multiset grows by that one copy |
| ResultList.Delete | ui_pyside/result_management_dialog.py:158-165 | a confirmed delete removes exactly the selected row; otherwise nothing changes |
| ResultList.ListRows | ui_pyside/result_management_dialog.py:117-130 | one row per result: its number, the lead's name or "N/A", the member count and the score |
| ResultList.ListRowsFollowMoveUp | ui_pyside/result_management_dialog.py:188-189 | after a move up, the row above shows what the moved row showed |
| ResultList.MemberLine | ui_pyside/result_management_dialog.py:310-323 | a line is name and share, then a comma iff it is not the last member, then for every member but the lead " [registration number]" and nothing else |
| ResultList.MessageLines | ui_pyside/result_management_dialog.py:306-331 | heading, blank, the member lines in order, blank, and the closing line for that number of members |
| ResultList.AllMessages | ui_pyside/result_management_dialog.py:294-336 | no results give no text; one result gives its own message |
| ResultList.AllMessagesAppend | ui_pyside/result_management_dialog.py:331-336 | one more result adds the dashed separator and that result's message at the end |
| ResultList.MessageRoundTrip | ui_pyside/result_management_dialog.py:331 | a message splits back into its lines when no field holds a newline |
| ConsortiumManager.GetCompanyInfo | consortium_manager.py:143-155 | blank text gives nothing; one word is a name with share 0; otherwise the last word is the share and the words before it form the name |
| ConsortiumManager.GetCompanyInfoRoundTrip | consortium_manager.py:146-153 | writing a name and a share token as one line reads back that name and that token's share |
| ConsortiumManager.IsRegional | consortium_manager.py:286-288 | a card with company data is regional iff the limit is not "전체" and occurs in its region; one without data iff the limit is blank |
| ConsortiumManager.DropIndex | consortium_manager.py:295-305 | the drop goes before the first card whose midpoint is below it, or at the end |
| ConsortiumManager.DropIndexMonotone | consortium_manager.py:297-299 | a higher drop never lands further down |
| ConsortiumManager.DropIndexSorted | consortium_manager.py:297-299 | with cards in vertical order, every card from the drop index on lies below the drop |
| ConsortiumManager.AddCard | consortium_manager.py:285-310 | the card joins one layout at the drop index, or at the end; the other layouts are kept; recalculation iff it is a consortium layout |
| ConsortiumManager.Locate | consortium_manager.py:343-351 | the first layout holding the card, consortium columns first, then standby; none iff no layout holds it |
| ConsortiumManager.FirstHolding | consortium_manager.py:345-351 | the first consortium column holding the card, none iff no column holds it |
| ConsortiumManager.RemoveCard | consortium_manager.py:353 | a card not in the list leaves it unchanged; otherwise the list loses exactly one card and gains none |
| ConsortiumManager.DeleteCard | consortium_manager.py:342-358 | an unknown card changes nothing; otherwise the layout holding it loses exactly that card and every other layout is untouched; recalculation iff that layout is a consortium column |
| ConsortiumManager.AddThenDelete | consortium_manager.py:285-358 | deleting a card just added under a new identity gives the board back |
| ConsortiumManager.FinishEditing | consortium_manager.py:115-124 | ends editing and touches nothing but the share; when an edit is open and the text parses, the share becomes text/100 and an update is announced; otherwise nothing changes |
| ConsortiumManager.FinishEditingTwice | consortium_manager.py:115-116 | ending an edit a second time changes nothing |
| ConsortiumManager.UpdateCard | consortium_manager.py:360-377 | an unknown card changes nothing; otherwise the layout holding it keeps its cards in order, now holds the card with the new dictionary, and every other card and layout is untouched; recalculation iff that layout is a consortium column |
| ConsortiumManager.UpdateTwice | consortium_manager.py:360-377 | updating a card twice is updating it once with the later dictionary |
| ConsortiumManager.GetResults | consortium_manager.py:379-388 | one list per consortium column, in order, holding the cards' data in order |
| ConsortiumManager.NoRecalcKeepsResults | consortium_manager.py:309-310 | when an addition, a deletion or an edit of a card does not recalculate, the consortium columns and so the results are unchanged |
| ConsortiumManager.AddExtendsResults | consortium_manager.py:305-310 | appending to consortium i appends the card's data to result i only |
| ConsortiumManager.RecalcSingle | consortium_manager.py:392-418 | an empty consortium gives no result without consulting the engine; otherwise the engine's answer on that column |
| ConsortiumManager.EmptyIgnoresEngine | consortium_manager.py:401-403 | an empty consortium scores alike whatever the engine does |
| ConsortiumManager.PopupEntry | consortium_manager.py:434-438 | a picked company enters as "구성사 ?" with share 0, its own data, and its 5-year record parsed or 0 |
| ConsortiumManager.OnCompanySelected | consortium_manager.py:431-438 | the picked company joins the end of the standby list; the columns are untouched and nothing is recalculated |
| ConsortiumManager.UnplacedHasNoRow | ui_pyside/consortium_view_haeng.py:876-878 | a popup-added member has no table row |
| ExDialog.Build | ex.py:139-153 | the dialog opens with one list per consortium holding its companies in order, and an empty standby list |
| ExDialog.BuildResults | ex.py:221-231 | reading a freshly opened dialog gives back the data it was opened on |
| ExDialog.AddToList | ex.py:182-202 | the card goes in at the row under the drop, or at the end; no other list changes |
| ExDialog.DeleteItem | ex.py:213-219 | the card leaves the first list holding it; every other list is kept; a card in no list changes nothing |
| ExDialog.DeleteAsManager | ex.py:213-219 | the earlier dialog deletes exactly as the current one does |
| ExDialog.AddThenDeleteItem | ex.py:182-219 | deleting a card just added gives the dialog back |
| ExDialog.HandleAddCompany | ex.py:204-211 | a valid entry joins the end of the standby list; a blank one changes nothing |
| ExDialog.AddCompanyKeepsResults | ex.py:204-231 | adding a company never changes the results |
| LoadPopup.ScanAndRead | ui_pyside/load_consortium_popup.py:23-42 | a missing folder gives nothing; the kept files are exactly the readable ".json" dictionaries, each tagged with its file name |
| LoadPopup.ScanAppend | ui_pyside/load_consortium_popup.py:29-41 | reading a listing in two parts reads each part in turn |
| LoadPopup.TypesShown | ui_pyside/load_consortium_popup.py:49 | a type is shown iff some file shows it, with "기타" for a file without one |
| LoadPopup.RegionsShown | ui_pyside/load_consortium_popup.py:54 | a region is shown iff some file shows it, with "전체" for a file without one |
| LoadPopup.TypeChoices | ui_pyside/load_consortium_popup.py:47-50 | "전체 공사", then the distinct types shown ("기타" for none), strictly increasing |
| LoadPopup.RegionChoices | ui_pyside/load_consortium_popup.py:52-55 | "전체 지역", then the distinct regions shown ("전체" for none), strictly increasing |
| LoadPopup.ChoicesIgnoreOrder | ui_pyside/load_consortium_popup.py:49-54 | the choice lists depend only on which files there are, not on their order |
| LoadPopup.AsWrittenChoiceListsNothing | ui_pyside/load_consortium_popup.py:94-95 | a file without a type offers "기타"; choosing it lists nothing as written and lists the file once corrected |
| LoadPopup.DatePart | ui_pyside/load_consortium_popup.py:100 | the date part is the text before the first space |
| LoadPopup.DatePartOfDay | ui_pyside/load_consortium_popup.py:100 | "day time" and "day" both show "day" |
| LoadPopup.FilterNonIncreasing | ui_pyside/load_consortium_popup.py:91-97 | filtering a list sorted newest first keeps it sorted |
| LoadPopup.PopulateList | ui_pyside/load_consortium_popup.py:84-115 | the rows are exactly the files whose own type and region equal the choices (or the choice is "전체 …"), newest first, each with its display text and background |
| LoadPopup.PopulateListCorrected | ui_pyside/load_consortium_popup.py:47-55 | the intended list: the same, compared on the type and region each file shows in the choices |
| LoadPopup.EveryTypeChoiceLists | ui_pyside/load_consortium_popup.py:47-50 | with the corrected filter every type offered lists some file |
| LoadPopup.EveryRegionChoiceLists | ui_pyside/load_consortium_popup.py:52-55 | with the corrected filter every region offered lists some file |
| LoadPopup.Unchecked | ui_pyside/load_consortium_popup.py:108-109 | every row starts unchecked |
| LoadPopup.OnLoad | ui_pyside/load_consortium_popup.py:117-128 | no checked row gives no selection; otherwise the selection holds, in list order, the data of each checked row and nothing else |
| LoadPopup.OnLoadAppend | ui_pyside/load_consortium_popup.py:119-122 | rows are gathered in order: loading a + b gives the selection of a followed by that of b |
| LoadPopup.FreshListLoadsNothing | ui_pyside/load_consortium_popup.py:109-126 | a freshly filled list loads nothing until a row is checked |
| GuidedCopy.Open | ui_pyside/guided_copy_popup.py:8-24 | the dialog opens at step 0 iff there is a chunk |
| GuidedCopy.Next | ui_pyside/guided_copy_popup.py:38-41 | below the last step, the step advances by one; at the last step it accepts instead; the step stays in range |
| GuidedCopy.PressFromOpen | ui_pyside/guided_copy_popup.py:11-41 | after k presses the step is min(k, n−1), and the dialog is accepted iff k ≥ n |
| GuidedCopy.PressFrom | ui_pyside/guided_copy_popup.py:38-41 | from any step, k presses advance by k up to the last step, accepting once they go past it |
| GuidedCopy.PressAccepted | ui_pyside/guided_copy_popup.py:41 | once accepted, further presses change nothing |
| GuidedCopy.FinishButtonAccepts | ui_pyside/guided_copy_popup.py:30-31 | the button reads "완료 ✔" iff the next press accepts |
| GuidedCopy.StepLabelNumbers | ui_pyside/guided_copy_popup.py:28 | the label's second and fourth words read back as step + 1 and the chunk count |
| GuidedCopy.CopyFollowsSteps | ui_pyside/guided_copy_popup.py:27-35 | after k presses the copy holds chunk k's data, and the label its instruction |
| SearchView.DoubleQuotes | ui_pyside/search_view.py:44 | newlines are kept, and text without a quote is unchanged |
| SearchView.UndoubleDouble | ui_pyside/search_view.py:44 | undoubling the doubled quotes gives the text back |
| SearchView.FormatForExcel | ui_pyside/search_view.py:38-45 | text with no newline and no quote is unchanged; otherwise it is quoted with inner quotes doubled |
| SearchView.FormatForExcelRoundTrip | ui_pyside/search_view.py:38-45 | reading a formatted cell back gives the text |
| SearchView.CopyAll | ui_pyside/search_view.py:47-63 | nothing to copy iff the first value is empty; when no value holds a carriage return, the copy splits at CR LF into one piece per value, each reading back as its value |
| SearchView.CopyAllStartsWithFirst | ui_pyside/search_view.py:58-63 | a copy starts with the first value's formatted text |
| SearchView.FormatPrice | ui_pyside/search_view.py:391-419 | text without digits is left alone; a rewrite is the comma grouping of the digits' value, and the cursor moves by the change in length, or to 0 when that would fall before the start |
| SearchView.FormatPriceIdempotent | ui_pyside/search_view.py:411 | grouped text is left alone |
| SearchView.FormatPriceKeepsNumber | ui_pyside/search_view.py:400-405 | the rewrite denotes the same number |
| SearchView.StatusBackground | ui_pyside/search_view.py:305 | white iff the status is unspecified or unknown |
| SearchView.FieldBackground | ui_pyside/search_view.py:339-341 | a field without a status is white |
| SearchView.StatusBackgroundDistinct | ui_pyside/search_view.py:305 | the three known freshness labels get distinct colours |
| SearchView.IsDanger | ui_pyside/search_view.py:325-332 | danger iff a numeric 부채비율 exceeds its threshold or a numeric 유동비율 is at most its threshold |
| SearchView.DangerMonotone | ui_pyside/search_view.py:330-331 | a higher debt ratio, or a lower current ratio, is never less dangerous |
| Numbers.WithCommasPieces | ui_pyside/search_view.py:405 | the comma-separated pieces of `f"{n:,}"` are exactly the digit groups |
| Ordering.SortedUnique | ui_pyside/load_consortium_popup.py:49 | `sorted(set(xs))` is strictly increasing and holds exactly the values of xs |
| Ordering.SortedUniqueCanonical | ui_pyside/load_consortium_popup.py:49 | two lists with the same values give the same sorted list |
| Ordering.SortDesc | ui_pyside/load_consortium_popup.py:91 | the descending sort is a permutation in non-increasing key order |
| MessageGenerator.LastBlank | ui_pyside/message_generator_view.py:93-104 | the bottom-most blank title, none iff every title is filled |
| MessageGenerator.TargetRow | ui_pyside/message_generator_view.py:93-104 | a new row iff every title is filled; otherwise a blank row with only filled rows below it |
| MessageGenerator.FillMovesUp | ui_pyside/message_generator_view.py:93-104 | after a fill, the next target is a new row or lies strictly higher |
| MessageGenerator.Collect | ui_pyside/message_generator_view.py:166-186 | one announcement per row with a non-blank title, in row order, each read from its row; every title non-empty; nothing collected iff every title is blank |
| MessageGenerator.CollectAppend | ui_pyside/message_generator_view.py:166-186 | rows are read in order: collecting a + b gives the announcements of a followed by those of b |
| MessageGenerator.PriceText | ui_pyside/message_generator_view.py:215-221 | the price ends in "원", and a price that does not parse shows "0원" |
| MessageGenerator.PriceTextReadsBack | ui_pyside/message_generator_view.py:215-221 | the digits before "원" read back as the truncated price |
| MessageGenerator.RegionNames | ui_pyside/message_generator_view.py:189-192 | the region splits at "/" into region1 and region2 when region2 is non-empty and different, and is region1 otherwise |
| MessageGenerator.ClosingCount | ui_pyside/message_generator_view.py:237-241 | the count appears, and reads back, iff there is more than one announcement |
| MessageGenerator.BlockIsLines | ui_pyside/message_generator_view.py:207-229 | a block is its heading line and indented continuation lines joined by newlines |
| MessageGenerator.Deadlines | ui_pyside/message_generator_view.py:231-234 | the deadlines listed are strictly increasing and are exactly the announcements' deadlines |
| MessageGenerator.Generate | ui_pyside/message_generator_view.py:163-260 | no announcement iff every title is blank; the company error iff something is listed and the company is blank |
| MessageGenerator.MessageLines | ui_pyside/message_generator_view.py:207-260 | three lines per announcement, one per deadline, seven fixed lines, and one more iff there is a manager |
| MessageGenerator.PartsAreLines | ui_pyside/message_generator_view.py:245-262 | joining the message's parts is joining its lines |
| MessageGenerator.MessageReadsBack | ui_pyside/message_generator_view.py:163-262 | when no input holds a newline, the message splits back into exactly its lines |
| Credentials.Template | credentials_manager.py:21-33 | every corporation, the separator included, maps every site to an empty account, and nothing else is present |
| Credentials.LoadAndDecrypt | credentials_manager.py:12-51 | success iff the file is missing or decrypts to a store; a missing file starts the template under the password; a decryption failure clears data and password; content that decrypts but is not JSON raises and leaves the manager as it was |
| Credentials.EncryptAndSave | credentials_manager.py:53-70 | a save happens iff data and password are set and the write goes through, and it writes exactly them |
| Credentials.LoadThenSave | credentials_manager.py:12-70 | after a successful load, a save writes what was loaded under the same password |
| Credentials.FailedLoadCannotSave | credentials_manager.py:41-57 | after a failed load nothing can be saved |
| Credentials.UnparsableKeepsEarlierLoad | credentials_manager.py:41-46 | after such a raise, a save still writes the earlier store under the earlier password |
| Credentials.UpdateCredential | credentials_manager.py:76-85 | success iff the cell exists; a failure changes nothing; the password and site list are kept |
| Credentials.UpdateReadsBack | credentials_manager.py:81-84 | after an update only that cell holds the new account; every other cell and the set of cells are as before |
| Credentials.UpdateTwice | credentials_manager.py:81-84 | updating a cell twice keeps only the second account |
| Credentials.FreshStoreAcceptsListed | credentials_manager.py:21-33 | on a fresh store, exactly the listed corporations and sites can be updated, the separator among them |
| Credentials.Migrate | update_credentials.py:28-40 | the sites become the new list; the corporations are exactly the new list; listed ones keep their whole old row and new ones get an empty row |
| Credentials.RunMigration | update_credentials.py:12-46 | migration runs iff the load returns success with data; a load that fails or raises stops it |
| Credentials.MigrateIdempotent | update_credentials.py:28-40 | migrating twice is migrating once |
| Credentials.FreshStoreMigratesToItself | update_credentials.py:28-40 | a store created blank migrates to itself |
| AccountEdit.Open | ui_pyside/account_edit_popup.py:20-33 | the password edit shows the stored password, and for the certificate the other two stay empty |
| AccountEdit.Payload | ui_pyside/account_edit_popup.py:54-61 | the certificate saves only "pw"; other sites save "id", "pw" and "cert_pw" |
| AccountEdit.RecoveredSiteAsWritten | ui_pyside/account_edit_popup.py:52 | the recovered name never holds a quote |
| AccountEdit.RecoveredKeepsTail | ui_pyside/account_edit_popup.py:52 | for ordinary names the recovered name is the site followed by " 정보 수정" |
| AccountEdit.AcceptAsWritten | ui_pyside/account_edit_popup.py:50-62 | as written, the saved account carries the edited password |
| AccountEdit.AsWrittenCertificateGetsThreeFields | ui_pyside/account_edit_popup.py:52-61 | as written, the certificate is saved with all three keys |
| AccountEdit.CertificateCounterexample | ui_pyside/account_edit_popup.py:52-61 | as written, 아람이엔테크's certificate with password 1234 is saved as id "", pw 1234 and cert_pw "" |
| AccountEdit.Accept | ui_pyside/account_edit_popup.py:54-61 | corrected: only the certificate saves the single "pw" key |
| AccountEdit.SaveUnedited | ui_pyside/account_edit_popup.py:20-61 | saving an unedited form writes back the stored fields |
| AccountEdit.ReopenShowsSaved | ui_pyside/account_edit_popup.py:20-61 | reopening on a saved form shows that form |
| ApiPopup.CleanKeyword | ui_pyside/api_popup.py:76-78 | the keyword is the prefix before the first '-', or all of the text when it has none |
| ApiPopup.CleanKeywordIsFirstPiece | ui_pyside/api_popup.py:78 | the keyword is the first piece of `split('-')` |
| ApiPopup.CleanKeywordIdempotent | ui_pyside/api_popup.py:76-80 | cleaning twice is cleaning once |
| ApiPopup.OnKeywordChanged | ui_pyside/api_popup.py:74-87 | the box is rewritten iff it holds a '-', to the cleaned text with the cursor at its end |
| ApiPopup.KeywordSettles | ui_pyside/api_popup.py:80-83 | a rewritten box is not rewritten again |
| ApiPopup.ParsePrice | ui_pyside/api_popup.py:142-143 | text that is not all digits after dropping one '.' reads as 0 |
| ApiPopup.ParsePriceDecimal | ui_pyside/api_popup.py:143 | "whole.fraction" reads as the whole part of its value |
| ApiPopup.ParsePriceWhole | ui_pyside/api_popup.py:143 | plain digits read as their value |
| ApiPopup.ParsePriceRejectsComma | ui_pyside/api_popup.py:143 | a grouped price reads as 0 |
| ApiPopup.ItemsAsList | ui_pyside/api_popup.py:132-133 | a single item becomes a list of one |
| ApiPopup.OnListSearchFinished | ui_pyside/api_popup.py:118-153 | non-JSON text is rejected first; then a failed decode iff the decoding fails; a service error, with its message, iff the result code is not "00"; no results iff the code is "00" with no items; otherwise one row per item |
| ApiPopup.AcceptedReplyLists | ui_pyside/api_popup.py:128-136 | an accepted reply lists results iff it has items, and a single item is treated as a list of one |
| ApiPopup.ResultCodeText | ui_pyside/api_popup.py:128-129 | "00" is accepted, while "0" and a missing code are API errors |
| ApiPopup.AfterSearch | ui_pyside/api_popup.py:118-151 | a reply that is not JSON, does not decode or reports a service error leaves the stored results and the table as they were; a reply without items empties the table and keeps the stored results; results replace both; the table always shows one row per stored result or nothing |
| ApiPopup.OnSelect | ui_pyside/api_popup.py:155-161 | nothing is selected iff no row is current; otherwise the selection is the stored result behind the current row, the one that row shows |
| ApiPopup.SelectedRowShowsItem | ui_pyside/api_popup.py:139-160 | after a search that lists results, selecting a row gives the item that row shows |
| ApiPopup.FailedReplyKeepsSelection | ui_pyside/api_popup.py:118-161 | after a failing reply every row selectable before still gives the same, earlier item |
| ApiPopup.EmptyReplyLeavesNoRow | ui_pyside/api_popup.py:136 | after a reply without items no row is left to select |
| Requirements.FirstPin | generate_requirements.py:20-23 | the first line that pins the package, none iff no line does |
| Requirements.Pinned | generate_requirements.py:20-23 | a package contributes nothing iff no line pins it, and otherwise exactly its first pinning line, stripped |
| Requirements.Minimal | generate_requirements.py:15-23 | at most one line per package, each a stripped line pinning one of the packages |
| Requirements.MinimalHasEachPinned | generate_requirements.py:19-23 | every package some line pins is represented, by its first pinning line |
| Requirements.MinimalCount | generate_requirements.py:19-23 | the number of lines kept is the number of packages that have a pinned line |
| Requirements.MinimalAppend | generate_requirements.py:19-23 | packages are handled in order: the lines kept for a + b are those for a followed by those for b |
| Requirements.ExportMinimal | generate_requirements.py:25-26 | the file ends in a newline |
| Requirements.ExportReadsBack | generate_requirements.py:25-26 | the file splits back into the kept lines and an empty last piece |

## Left out

- The scoring engine (`calculation_logic`) is not part of this model. Its results, and the share-limit check's problem flags, are inputs.
- `utils.parse_amount`, `config` (the offset table, the rule sets, the ratio thresholds) and `config.load_config` are not part of this model. They are parameters: `Records.Externals`, the offsets map, multiplier options and threshold maps.
- Qt widgets, signals, drag pixmaps and message boxes are left out. A user's reply, a checked state, a drop row or a drop height is an explicit input.
- File, JSON, Excel, clipboard and network I/O are left out, and so are the `QThread` workers and `subprocess` pip freeze. File contents, the decryption and parse outcome, the decoded API reply and the write outcome are inputs.
- Encryption (`encryption.py`) is left out: foreign cryptography.
- Floating point is modelled by `real`: rounding, `:.2%`, `:.4f`, `:,.0f` and `%g` are left out. `%g` and `str()` of a number are the opaque `showG` and `showNum`.
- ApiPopup.ParsePrice: `int(float(x))` is exact truncation of the decimal value, so float rounding of very long digit strings is not modelled.
- Python's `str.lower`, `str.upper`, `str.isdigit` and `str.isspace` are modelled on ASCII (and the ASCII and Unicode space characters in `Text.IsSpace`). Other Unicode digits and case pairs are not.
- `int()` of text with underscores is not accepted by `Numbers.ParseInt`.
- The regex name cleaning and manager extraction in the consortium views are left out: Unicode regular expressions over Korean text.
- `recalculate_and_refresh_all` and the scoreboard texts are left out: they only re-run the engine and render its scores.
- `_handle_add_company` in the current dialog opens the company search popup. Only its callback, `ConsortiumManager.OnCompanySelected`, is modelled.
- The tuchal label parse in both views is not modelled. Both views strip `<b>` from a label written as `<b style=...>`. That happens in the 행안부 view at ui_pyside/consortium_view_haeng.py:351, 692 and 1149, and in the 조달청 view at ui_pyside/consortium_view_jodal.py:344 and 658. The outcome depends on `parse_amount`.
- `fill_from_api` is modelled only as far as its target row. The field and region combo mapping and the date parsing are left out.
- ApiPopup.AfterSearch: an exception raised while the rows are being filled (caught at ui_pyside/api_popup.py:152-153) would leave a partly filled table; items are maps of strings here, so that case is not modelled.
- SearchView.CopyAll: the copied text is pinned down by reading it back only when no value holds a carriage return. A quoted value with a CR LF inside would be split by a plain CR LF split, and how Excel parses such a paste is not modelled.
- Credentials.LoadAndDecrypt: the decrypted JSON is taken to have the `sites` and `corporations` shape; a store of another shape is not modelled.
- Ordering.SortDesc: stability (files with equal dates keeping their listing order) is not stated in its contract.
- `QPoint(0, 0)` being falsy as a drop position in `add_company_to_layout` is not modelled: a drop is either present or absent.
- Dictionary order is not modelled. Maps are unordered, and every list the model builds from a map, such as the migration's corporation list, is built from the source's own list.
- Non-text JSON values in API items and stored accounts are not modelled: both are maps of strings.

## Findings

| source | as written | input that shows it | evidently intended | confidence | as-written member | corrected member |
|---|---|---|---|---|---|---|
| ui_pyside/consortium_view_jodal.py:491-498 | a confirmed `delete_single_result` asks, then removes nothing | any listed result, reply Yes | remove the result, as the 행안부 view does at ui_pyside/consortium_view_haeng.py:507-517 | high; not executed | JodalView.DeleteSingleResultAsWritten, JodalView.ConfirmedDeleteKeepsResult | ConsortiumEntry.DeleteSingleResult, JodalView.CorrectedDeleteRemoves |
| ui_pyside/review_dialog.py:188 | the capacity ratio divides the decimal share by 100 again | one member, share 1.0, capacity 1,000,000: shows 10,000 | capacity × decimal share, 1,000,000 | high; not executed | Review.CapacityRatioAsWritten, Review.RatioCounterexample | Review.CapacityRatio, Review.SoleMemberRatio |
| ui_pyside/load_consortium_popup.py:94-95 | the filter compares the raw `project_type` / `region_limit`, while the choices show "기타" / "전체" for a missing key | a file without `project_type`, type choice "기타": nothing is listed | compare the shown value, so every offered choice lists its files | medium; not executed | LoadPopup.PopulateList, LoadPopup.AsWrittenChoiceListsNothing | LoadPopup.PopulateListCorrected, LoadPopup.EveryTypeChoiceLists |
| ui_pyside/account_edit_popup.py:52 | the site is recovered as the text after " - " with quotes removed, which keeps " 정보 수정" | corporation 아람이엔테크, site 공인인증서: saved with id, pw and cert_pw | recover the site name itself, so the certificate saves only "pw" | high; not executed | AccountEdit.AcceptAsWritten, AccountEdit.CertificateCounterexample | AccountEdit.Accept, AccountEdit.ReopenShowsSaved |

=== FILE: account_edit.dfy ===
/** The dialog that edits one corporation's account at one site: the
    window title names both, the form shows the stored fields, and saving
    builds the account to store — only the password for the certificate
    entry, the login, password and certificate password for a site. */
module AccountEdit {
  import opened Base
  import opened Text
  import Credentials

  /** The entry whose account is just the certificate password. */
  const Certificate := "공인인증서"

  /** The window title. */
  function Title(corp: string, site: string): string {
    "'" + corp + " - " + site + "' 정보 수정"
  }

  /** The texts of the three line edits. The certificate entry shows only
      the password edit; the other two stay empty. */
  datatype Form = Form(id: string, pw: string, certPw: string)

  /** `dict.get(key, "")`. */
  function Field(current: Credentials.Account, key: string): string {
    if key in current then current[key] else ""
  }

  /** The form as the dialog opens on the stored account. */
  function Open(site: string, current: Credentials.Account): (f: Form)
    ensures f.pw == Field(current, "pw")
    ensures site == Certificate ==> f.id == "" && f.certPw == ""
  {
    if site == Certificate then Form("", Field(current, "pw"), "")
    else Form(Field(current, "id"), Field(current, "pw"), Field(current, "cert_pw"))
  }

  /** The account a form is saved as, for a given entry name. */
  function Payload(site: string, f: Form): (a: Credentials.Account)
    ensures site == Certificate ==> a.Keys == {"pw"}
    ensures site != Certificate ==> a.Keys == {"id", "pw", "cert_pw"}
    ensures a["pw"] == f.pw
  {
    if site == Certificate then map["pw" := f.pw]
    else map["id" := f.id, "pw" := f.pw, "cert_pw" := f.certPw]
  }

  // ---------------------------------------------------------------------
  // as written: the entry name read back out of the window title

  /** `accept_and_save`'s recovery of the entry name: the second piece of
      the title split on " - ", with every single quote removed; `None`
      where the source would fail on a title without " - ". */
  function RecoveredSiteAsWritten(title: string): (r: Option<string>)
    ensures r.Some? ==> '\'' !in r.value
  {
    var parts := Split(title, " - ");
    if |parts| < 2 then None else Some(RemoveChar(parts[1], '\''))
  }

  /** `accept_and_save` as written: the payload for the recovered name. */
  function AcceptAsWritten(title: string, f: Form): (a: Option<Credentials.Account>)
    ensures a.Some? ==> "pw" in a.value && a.value["pw"] == f.pw
  {
    match RecoveredSiteAsWritten(title)
    case None => None
    case Some(site) => Some(Payload(site, f))
  }

  /** For names without hyphens or quotes, the recovered name keeps the
      title's tail: it is the entry name followed by " 정보 수정". */
  lemma RecoveredKeepsTail(corp: string, site: string)
    requires '-' !in corp && '\'' !in corp && '-' !in site && '\'' !in site
    ensures RecoveredSiteAsWritten(Title(corp, site)) == Some(site + " 정보 수정")
  {
    var rest := site + "' 정보 수정";
    TitleFind(corp, site);
    TailHasNoDash(site);
    NoDashNoSplit(rest);
    var title := Title(corp, site);
    assert title[|corp| + 4..] == rest;
    assert Split(title, " - ") == [title[..|corp| + 1]] + Split(rest, " - ");
    RemoveQuoteTail(site);
  }

  lemma TitleFind(corp: string, site: string)
    requires '-' !in corp
    ensures Find(Title(corp, site), " - ") == Some(|corp| + 1)
  {
    var title := Title(corp, site);
    var head := "'" + corp;
    assert title == head + " - " + (site + "' 정보 수정");
    var i := |head|;
    assert OccursAt(title, " - ", i) by {
      assert title[i..i + 3] == " - ";
    }
    forall j: nat | j < i ensures !OccursAt(title, " - ", j) {
      if j + 1 < i {
        assert title[j + 1] == head[j + 1] == corp[j];
        assert corp[j] in corp;
      } else {
        assert title[j + 1] == ' ';
      }
      assert title[j..j + 3][1] == title[j + 1];
    }
    FindFirst(title, " - ", i);
  }

  lemma TailHasNoDash(site: string)
    requires '-' !in site
    ensures '-' !in site + "' 정보 수정"
  {
    var tail := "' 정보 수정";
    assert '-' !in tail;
    var rest := site + tail;
    assert forall k :: 0 <= k < |rest| ==> rest[k] == if k < |site| then site[k] else tail[k - |site|];
  }

  lemma NoDashNoSplit(rest: string)
    requires '-' !in rest
    ensures Split(rest, " - ") == [rest]
  {
    forall j: nat | j <= |rest| ensures !OccursAt(rest, " - ", j) {
      if j + 3 <= |rest| {
        assert rest[j..j + 3][1] == rest[j + 1];
        assert rest[j + 1] in rest;
      }
    }
  }

  lemma RemoveQuoteTail(site: string)
    requires '\'' !in site
    ensures RemoveChar(site + "' 정보 수정", '\'') == site + " 정보 수정"
  {
    RemoveCharAppend(site, "' 정보 수정", '\'');
    assert "' 정보 수정" == "'" + " 정보 수정";
    RemoveCharAppend("'", " 정보 수정", '\'');
    assert '\'' !in " 정보 수정";
  }

  /** So the recovered name is never the certificate entry, and saving the
      certificate entry writes the three-field account, not the password
      alone. */
  lemma AsWrittenCertificateGetsThreeFields(corp: string, f: Form)
    requires '-' !in corp && '\'' !in corp
    ensures AcceptAsWritten(Title(corp, Certificate), f).Some?
    ensures AcceptAsWritten(Title(corp, Certificate), f).value.Keys == {"id", "pw", "cert_pw"}
  {
    assert '-' !in Certificate && '\'' !in Certificate;
    RecoveredKeepsTail(corp, Certificate);
  }

  /** A concrete instance: the first listed corporation's certificate. */
  lemma CertificateCounterexample()
    ensures AcceptAsWritten(Title("아람이엔테크", Certificate), Form("", "1234", "")).Some?
    ensures AcceptAsWritten(Title("아람이엔테크", Certificate), Form("", "1234", "")).value
            == map["id" := "", "pw" := "1234", "cert_pw" := ""]
  {
    AsWrittenCertificateGetsThreeFields("아람이엔테크", Form("", "1234", ""));
    RecoveredKeepsTail("아람이엔테크", Certificate);
  }

  // ---------------------------------------------------------------------
  // corrected: the dialog keeps the entry name it was opened for

  /** `accept_and_save` with the entry name the dialog was opened for. */
  function Accept(site: string, f: Form): (a: Credentials.Account)
    ensures site == Certificate <==> a.Keys == {"pw"}
  {
    Payload(site, f)
  }

  /** Saving without editing stores the fields the form showed: the stored
      password, and for a site also the stored login and certificate
      password, each empty where nothing was stored. */
  lemma SaveUnedited(site: string, current: Credentials.Account)
    ensures var a := Accept(site, Open(site, current));
            a["pw"] == Field(current, "pw")
            && (site != Certificate ==> a["id"] == Field(current, "id") && a["cert_pw"] == Field(current, "cert_pw"))
  {
  }

  /** The saved account, opened again, shows the same form: saving and
      reopening lose nothing that the form can show. */
  lemma ReopenShowsSaved(site: string, f: Form)
    requires site == Certificate ==> f.id == "" && f.certPw == ""
    ensures Open(site, Accept(site, f)) == f
  {
  }
}

=== FILE: api_popup.dfy ===
/** The announcement lookup dialog: the announcement-number box keeps only
    the part before the first hyphen, and a reply from the public
    procurement service is checked, its items normalised to a list, and
    each item shown as a result row. The HTTP request and the JSON decoding
    are outside the model: the decoded reply is an input. */
module ApiPopup {
  import opened Base
  import opened Text
  import opened Numbers
  import opened Records

  // ---------------------------------------------------------------------
  // the announcement-number box

  /** The text before the first '-', or the whole text when it has none. */
  function CleanKeyword(text: string): (r: string)
    ensures '-' !in r
    ensures StartsWith(text, r)
    ensures '-' !in text ==> r == text
    ensures '-' in text ==> |r| < |text| && text[|r|] == '-'
  {
    match IndexOf(text, '-')
    case None => text
    case Some(i) => text[..i]
  }

  /** Cleaning is `text.split('-')[0]`: the first piece of the split. */
  lemma CleanKeywordIsFirstPiece(text: string)
    ensures CleanKeyword(text) == Split(text, "-")[0]
  {
    assert "-" == ['-'];
    forall j: nat | j <= |text| ensures OccursAt(text, "-", j) <==> (j < |text| && text[j] == '-') {
      if j < |text| {
        assert text[j..j + 1] == [text[j]];
      }
    }
    match IndexOf(text, '-')
    case None =>
      NotContainsChar(text, '-');
    case Some(i) =>
      FindFirst(text, "-", i);
  }

  /** Cleaning twice is cleaning once. */
  lemma CleanKeywordIdempotent(text: string)
    ensures CleanKeyword(CleanKeyword(text)) == CleanKeyword(text)
  {
  }

  /** The box after a change: the new text and the cursor at its end. */
  datatype BoxEdit = BoxEdit(text: string, cursor: nat)

  /** `on_keyword_changed`: rewrites the box, cursor at the end, only when
      cleaning changes the text; `None` when the text is left alone. */
  function OnKeywordChanged(text: string): (r: Option<BoxEdit>)
    ensures r.None? <==> '-' !in text
    ensures r.Some? ==> r.value.text == CleanKeyword(text) && r.value.cursor == |r.value.text|
  {
    var cleaned := CleanKeyword(text);
    if '-' in text && text != cleaned then Some(BoxEdit(cleaned, |cleaned|)) else None
  }

  /** The rewritten text raises no further rewrite, so the signal cannot
      loop. */
  lemma KeywordSettles(text: string)
    requires OnKeywordChanged(text).Some?
    ensures OnKeywordChanged(OnKeywordChanged(text).value.text).None?
  {
  }

  // ---------------------------------------------------------------------
  // the estimated price column

  function Pow10(n: nat): (r: nat)
    ensures r >= 1
  {
    if n == 0 then 1 else 10 * Pow10(n - 1)
  }

  lemma {:induction false} DigitsBelowPow(s: string)
    requires AllDigits(s)
    ensures DigitsToNat(s) < Pow10(|s|)
    decreases |s|
  {
    if s != [] {
      DigitsBelowPow(s[..|s| - 1]);
    }
  }

  /** `int(float(price_str))` when the text is digits with at most one '.'
      removed, otherwise 0. */
  function ParsePrice(priceText: string): (r: nat)
    ensures !(RemoveFirst(priceText, '.') != [] && AllDigits(RemoveFirst(priceText, '.'))) ==> r == 0
  {
    var d := RemoveFirst(priceText, '.');
    if d != [] && AllDigits(d) then
      match IndexOf(priceText, '.')
      case None => DigitsToNat(priceText)
      case Some(i) =>
        assert priceText[..i] == d[..i];
        assert forall k :: 0 <= k < i ==> priceText[..i][k] == d[k];
        DigitsToNat(priceText[..i])
    else 0
  }

  /** The value of a decimal written as whole digits, a point and fraction
      digits. */
  function DecimalValue(whole: string, fraction: string): real
    requires AllDigits(whole) && AllDigits(fraction)
  {
    DigitsToNat(whole) as real + DigitsToNat(fraction) as real / Pow10(|fraction|) as real
  }

  /** A price with a decimal point is the whole part of its value. */
  lemma ParsePriceDecimal(whole: string, fraction: string)
    requires AllDigits(whole) && AllDigits(fraction) && whole + fraction != []
    ensures ParsePrice(whole + "." + fraction) == Trunc(DecimalValue(whole, fraction))
  {
    ParsePricePoint(whole, fraction);
    TruncDecimal(whole, fraction);
  }

  lemma ParsePricePoint(whole: string, fraction: string)
    requires AllDigits(whole) && AllDigits(fraction) && whole + fraction != []
    ensures ParsePrice(whole + "." + fraction) == DigitsToNat(whole)
  {
    var s := whole + "." + fraction;
    RemoveFirstPoint(whole, fraction);
    assert s[..|whole|] == whole;
  }

  lemma RemoveFirstPoint(whole: string, fraction: string)
    requires AllDigits(whole) && AllDigits(fraction)
    ensures IndexOf(whole + "." + fraction, '.') == Some(|whole|)
    ensures RemoveFirst(whole + "." + fraction, '.') == whole + fraction
    ensures AllDigits(whole + fraction)
  {
    var s := whole + "." + fraction;
    assert s[|whole|] == '.';
    assert '.' !in whole by {
      assert forall k :: 0 <= k < |whole| ==> IsDigit(whole[k]);
    }
    assert s[..|whole|] == whole;
    IndexOfAt(s, |whole|, '.');
    assert s[|whole| + 1..] == fraction;
    assert forall k :: 0 <= k < |whole + fraction| ==>
             (whole + fraction)[k] == if k < |whole| then whole[k] else fraction[k - |whole|];
  }

  lemma TruncDecimal(whole: string, fraction: string)
    requires AllDigits(whole) && AllDigits(fraction)
    ensures Trunc(DecimalValue(whole, fraction)) == DigitsToNat(whole)
  {
    DigitsBelowPow(fraction);
    FractionBelowOne(DigitsToNat(fraction) as real, Pow10(|fraction|) as real);
  }

  lemma FractionBelowOne(n: real, p: real)
    requires 0.0 <= n < p
    ensures 0.0 <= n / p < 1.0
  {
    var f := n / p;
    assert f * p == n;
  }

  /** A price without a point is its digits' value. */
  lemma ParsePriceWhole(digits: string)
    requires digits != [] && AllDigits(digits)
    ensures ParsePrice(digits) == DigitsToNat(digits)
  {
    assert '.' !in digits by {
      assert forall k :: 0 <= k < |digits| ==> IsDigit(digits[k]);
    }
  }

  /** A grouped price (with a comma) is not read: it shows as 0. */
  lemma ParsePriceRejectsComma(priceText: string, k: nat)
    requires k < |priceText| && priceText[k] == ','
    ensures ParsePrice(priceText) == 0
  {
    var d := RemoveFirst(priceText, '.');
    var j := KeptAfterRemoval(priceText, k);
    assert !IsDigit(d[j]);
  }

  /** A comma survives the removal of the first point. */
  lemma KeptAfterRemoval(s: string, k: nat) returns (j: nat)
    requires k < |s| && s[k] == ','
    ensures j < |RemoveFirst(s, '.')| && RemoveFirst(s, '.')[j] == ','
  {
    match IndexOf(s, '.')
    case None =>
      j := k;
    case Some(i) =>
      var d := RemoveAt(s, i);
      assert RemoveFirst(s, '.') == d;
      if k < i {
        CommaBefore(s, d, i, k);
        j := k;
      } else {
        CommaAfter(s, d, i, k);
        j := k - 1;
      }
  }

  /** A position before the removed one keeps its character. */
  lemma CommaBefore(s: string, d: string, i: nat, k: nat)
    requires i < |s| && |d| == |s| - 1 && d[..i] == s[..i] && k < i
    ensures d[k] == s[k]
  {
    assert d[..i][k] == s[..i][k];
  }

  /** A position after the removed one moves down by one. */
  lemma CommaAfter(s: string, d: string, i: nat, k: nat)
    requires i < |s| && |d| == |s| - 1 && d[i..] == s[i + 1..] && i < k < |s|
    ensures d[k - 1] == s[k]
  {
    assert d[i..][k - 1 - i] == s[i + 1..][k - 1 - i];
  }

  // ---------------------------------------------------------------------
  // the reply

  /** One announcement of the reply, as its string fields. */
  type Item = map<string, string>

  /** `dict.get(key, default)`. */
  function Get(item: Item, key: string, default: string): string {
    if key in item then item[key] else default
  }

  /** The reply body's `items`: a list, a single object, or missing or
      empty. */
  datatype Items = ItemList(list: seq<Item>) | SingleItem(item: Item) | NoItems

  /** The decoded reply: the header's result code and message, and the
      items. */
  datatype Reply = Reply(resultCode: Value, resultMsg: string, items: Items)

  /** A result row: announcement number and order, title, agency, the
      price grouped with commas, the closing date. */
  datatype ResultRow = ResultRow(fullNo: string, title: string, agency: string, price: string, deadline: string)

  /** What `on_list_search_finished` shows. */
  datatype Outcome =
    | NotJson          // the text is empty or does not start with '{'
    | Undecodable      // the JSON decoding failed
    | ApiError(msg: string)
    | NoResults
    | Results(items: seq<Item>, rows: seq<ResultRow>)

  /** The items as a list: a single object becomes a list of one. */
  function ItemsAsList(items: Items): (r: seq<Item>)
    ensures items.ItemList? ==> r == items.list
    ensures items.SingleItem? ==> r == [items.item]
    ensures items.NoItems? ==> r == []
  {
    match items
    case ItemList(list) => list
    case SingleItem(item) => [item]
    case NoItems => []
  }

  /** The row shown for an item. */
  function RowOf(item: Item): ResultRow {
    ResultRow(
      Get(item, "bidNtceNo", "") + "-" + Get(item, "bidNtceOrd", ""),
      Get(item, "bidNtceNm", ""),
      Get(item, "ntceInsttNm", ""),
      WithCommas(ParsePrice(Get(item, "presmptPrce", "0"))),
      Get(item, "bidClseDt", ""))
  }

  /** `on_list_search_finished`: `decoded` is the JSON decoding of `text`
      (`None` when it fails). */
  function OnListSearchFinished(text: string, decoded: Option<Reply>, ext: Externals): (o: Outcome)
    ensures (text == [] || !StartsWith(Strip(text), "{")) <==> o == NotJson
    ensures o.Results? ==> decoded.Some? && Str(decoded.value.resultCode, ext) == "00"
    ensures o.Results? ==> o.items == ItemsAsList(decoded.value.items) && |o.rows| == |o.items| && o.items != []
    ensures o.Results? ==> forall k :: 0 <= k < |o.rows| ==> o.rows[k] == RowOf(o.items[k])
    ensures o.Undecodable? <==> text != [] && StartsWith(Strip(text), "{") && decoded.None?
    ensures o.ApiError? <==> text != [] && StartsWith(Strip(text), "{") && decoded.Some?
                             && Str(decoded.value.resultCode, ext) != "00"
    ensures o.ApiError? ==> o.msg == decoded.value.resultMsg
    ensures o.NoResults? <==> text != [] && StartsWith(Strip(text), "{") && decoded.Some?
                              && Str(decoded.value.resultCode, ext) == "00"
                              && ItemsAsList(decoded.value.items) == []
  {
    if text == [] || !StartsWith(Strip(text), "{") then NotJson
    else match decoded
      case None => Undecodable
      case Some(reply) =>
        if Str(reply.resultCode, ext) != "00" then ApiError(reply.resultMsg)
        else
          var items := ItemsAsList(reply.items);
          if items == [] then NoResults
          else Results(items, seq(|items|, k requires 0 <= k < |items| => RowOf(items[k])))
  }

  /** A reply accepted by the service lists its items: results exactly when
      there is at least one item, and a single object is shown as the
      same one-row list a one-element list gives. */
  lemma AcceptedReplyLists(text: string, code: Value, msg: string, items: Items, ext: Externals)
    requires text != [] && StartsWith(Strip(text), "{") && Str(code, ext) == "00"
    ensures var o := OnListSearchFinished(text, Some(Reply(code, msg, items)), ext);
            (o.Results? <==> ItemsAsList(items) != []) && (o.NoResults? <==> ItemsAsList(items) == [])
    ensures items.SingleItem? ==>
              OnListSearchFinished(text, Some(Reply(code, msg, items)), ext)
              == OnListSearchFinished(text, Some(Reply(code, msg, ItemList([items.item]))), ext)
  {
  }

  /** The result code is compared as text: "00" is accepted, while "0" and
      a missing code (`str(None)`) are service errors. */
  lemma ResultCodeText(text: string, msg: string, items: Items, ext: Externals)
    requires text != [] && StartsWith(Strip(text), "{")
    ensures !OnListSearchFinished(text, Some(Reply(VStr("00"), msg, items)), ext).ApiError?
    ensures OnListSearchFinished(text, Some(Reply(VStr("0"), msg, items)), ext) == ApiError(msg)
    ensures OnListSearchFinished(text, Some(Reply(VNone, msg, items)), ext) == ApiError(msg)
  {
  }

  /** What the popup holds between searches: the stored search results
      and the rows its table shows. */
  datatype Shown = Shown(results: seq<Item>, rows: seq<ResultRow>)

  /** The popup as it opens: nothing stored, nothing shown. */
  const Opened: Shown := Shown([], [])

  /** The table is empty, or shows one row per stored result. */
  predicate Consistent(s: Shown) {
    s.rows == [] || (|s.rows| == |s.results| && forall k :: 0 <= k < |s.rows| ==> s.rows[k] == RowOf(s.results[k]))
  }

  /** The popup after a search: a reply that is not JSON, does not decode
      or reports a service error returns before touching anything, so the
      previous search stays listed; a reply without items empties the table
      but keeps the stored results; results replace both. */
  function AfterSearch(s: Shown, o: Outcome): (r: Shown)
    requires o.Results? ==> |o.rows| == |o.items| && forall k :: 0 <= k < |o.rows| ==> o.rows[k] == RowOf(o.items[k])
    ensures o.NotJson? || o.Undecodable? || o.ApiError? ==> r == s
    ensures o.NoResults? ==> r.rows == [] && r.results == s.results
    ensures o.Results? ==> r.results == o.items && r.rows == o.rows
    ensures Consistent(s) ==> Consistent(r)
  {
    match o
    case Results(items, rows) => Shown(items, rows)
    case NoResults => Shown(s.results, [])
    case _ => s
  }

  /** `on_select`: the stored result behind the current row of the table,
      `None` when no row is current (Qt's `currentRow()` is -1 or a row of
      the table). */
  function OnSelect(s: Shown, currentRow: int): (r: Option<Item>)
    requires Consistent(s) && currentRow < |s.rows|
    ensures r.None? <==> currentRow < 0
    ensures r.Some? ==> r.value == s.results[currentRow] && s.rows[currentRow] == RowOf(r.value)
  {
    if currentRow < 0 then None else Some(s.results[currentRow])
  }

  /** After a search that lists results, selecting a row gives the item
      that row shows. */
  lemma SelectedRowShowsItem(s: Shown, text: string, decoded: Option<Reply>, ext: Externals, row: nat)
    requires Consistent(s)
    requires OnListSearchFinished(text, decoded, ext).Results?
    requires row < |OnListSearchFinished(text, decoded, ext).rows|
    ensures var o := OnListSearchFinished(text, decoded, ext);
            var after := AfterSearch(s, o);
            row < |after.rows| && OnSelect(after, row) == Some(o.items[row]) && o.rows[row] == RowOf(o.items[row])
  {
  }

  /** A failing reply leaves the previous search on screen: whatever row
      was selectable before still gives the same item. */
  lemma FailedReplyKeepsSelection(s: Shown, text: string, decoded: Option<Reply>, ext: Externals, row: int)
    requires Consistent(s) && row < |s.rows|
    requires !OnListSearchFinished(text, decoded, ext).Results?
    requires !OnListSearchFinished(text, decoded, ext).NoResults?
    ensures var after := AfterSearch(s, OnListSearchFinished(text, decoded, ext));
            row < |after.rows| && OnSelect(after, row) == OnSelect(s, row)
  {
  }

  /** A reply without items leaves nothing to select. */
  lemma EmptyReplyLeavesNoRow(s: Shown, text: string, decoded: Option<Reply>, ext: Externals)
    requires OnListSearchFinished(text, decoded, ext).NoResults?
    ensures AfterSearch(s, OnListSearchFinished(text, decoded, ext)).rows == []
  {
  }
}

=== FILE: base.dfy ===
/** Small general-purpose definitions shared by every other module: an
    optional value, order-preserving filtering, sums, and the handful of
    list edits (insert, remove, remove-first) that the Python code performs
    with `list.insert`, `list.pop`, `del` and `list.remove`. */
module Base {

  /** A value that may be absent: Python's `None` versus a real value. */
  datatype Option<T> = None | Some(value: T) {
    /** Python's `x or default` for a value whose only falsy form is `None`. */
    function GetOr(default: T): T {
      match this
      case Some(v) => v
      case None => default
    }
  }

  /** `a` can be obtained from `b` by deleting elements: order is kept. */
  predicate Subseq<T(==)>(a: seq<T>, b: seq<T>)
    decreases |b|
  {
    if a == [] then true
    else if b == [] then false
    else if a[0] == b[0] then Subseq(a[1..], b[1..])
    else Subseq(a, b[1..])
  }

  /** A Python list comprehension `[x for x in s if p(x)]`. */
  function Filter<T>(p: T -> bool, s: seq<T>): (r: seq<T>)
    ensures |r| <= |s|
    ensures forall i :: 0 <= i < |r| ==> r[i] in s && p(r[i])
    ensures forall i :: 0 <= i < |s| && p(s[i]) ==> s[i] in r
  {
    if s == [] then []
    else if p(s[0]) then [s[0]] + Filter(p, s[1..])
    else Filter(p, s[1..])
  }

  lemma {:induction false} FilterIsSubseq<T>(p: T -> bool, s: seq<T>)
    ensures Subseq(Filter(p, s), s)
    decreases |s|
  {
    if s != [] {
      FilterIsSubseq(p, s[1..]);
      var rest := Filter(p, s[1..]);
      if p(s[0]) {
        assert Filter(p, s) == [s[0]] + rest;
        assert ([s[0]] + rest)[1..] == rest;
      } else {
        SubseqDropHead(rest, s);
      }
    }
  }

  /** Dropping the head of `b` keeps `a` a subsequence when `a` already is
      one of `b[1..]`. */
  lemma {:induction false} SubseqDropHead<T>(a: seq<T>, b: seq<T>)
    requires b != [] && Subseq(a, b[1..])
    ensures Subseq(a, b)
    decreases |a| + |b|
  {
    if a != [] && a[0] == b[0] {
      SubseqTail(a, b[1..]);
    }
  }

  /** A subsequence stays one after losing its first element. */
  lemma {:induction false} SubseqTail<T>(a: seq<T>, b: seq<T>)
    requires a != [] && Subseq(a, b)
    ensures Subseq(a[1..], b)
    decreases |a| + |b|
  {
    if a[0] == b[0] {
      if a[1..] != [] {
        SubseqDropHead(a[1..], b);
      }
    } else {
      SubseqTail(a, b[1..]);
      if a[1..] != [] {
        SubseqDropHead(a[1..], b);
      }
    }
  }

  /** Two successive comprehensions keep exactly what a comprehension on
      the conjunction of their conditions keeps. */
  lemma {:induction false} FilterFilter<T>(p: T -> bool, q: T -> bool, both: T -> bool, s: seq<T>)
    requires forall i :: 0 <= i < |s| ==> both(s[i]) == (p(s[i]) && q(s[i]))
    ensures Filter(q, Filter(p, s)) == Filter(both, s)
    decreases |s|
  {
    if s != [] {
      FilterFilter(p, q, both, s[1..]);
      if p(s[0]) {
        assert Filter(p, s) == [s[0]] + Filter(p, s[1..]);
        assert Filter(p, s)[1..] == Filter(p, s[1..]);
      }
    }
  }

  /** Filtering a concatenation filters each part in turn. */
  lemma {:induction false} FilterAppend<T>(p: T -> bool, a: seq<T>, b: seq<T>)
    ensures Filter(p, a + b) == Filter(p, a) + Filter(p, b)
    decreases |a|
  {
    if a == [] {
      assert a + b == b;
    } else {
      assert (a + b)[1..] == a[1..] + b;
      FilterAppend(p, a[1..], b);
    }
  }

  /** Comprehensions whose conditions agree on the list keep the same elements. */
  lemma {:induction false} FilterCongruent<T>(p: T -> bool, q: T -> bool, s: seq<T>)
    requires forall i :: 0 <= i < |s| ==> p(s[i]) == q(s[i])
    ensures Filter(p, s) == Filter(q, s)
    decreases |s|
  {
    if s != [] {
      FilterCongruent(p, q, s[1..]);
    }
  }

  /** Python's `sum(...)` over real numbers. */
  function Sum(xs: seq<real>): real {
    if xs == [] then 0.0 else xs[0] + Sum(xs[1..])
  }

  /** `sum(f(x) for x in s)`. */
  function SumOf<T>(f: T -> real, s: seq<T>): real {
    if s == [] then 0.0 else f(s[0]) + SumOf(f, s[1..])
  }

  /** Sums add up over a split of the list. */
  lemma {:induction false} SumOfAppend<T>(f: T -> real, a: seq<T>, b: seq<T>)
    ensures SumOf(f, a + b) == SumOf(f, a) + SumOf(f, b)
    decreases |a|
  {
    if a == [] {
      assert a + b == b;
    } else {
      assert (a + b)[0] == a[0] && (a + b)[1..] == a[1..] + b;
      SumOfAppend(f, a[1..], b);
    }
  }

  /** Summing over the elements a comprehension keeps is summing, over the
      whole list, a contribution that is zero for the elements it drops. */
  lemma {:induction false} SumOfFilter<T>(f: T -> real, p: T -> bool, g: T -> real, s: seq<T>)
    requires forall i :: 0 <= i < |s| ==> g(s[i]) == (if p(s[i]) then f(s[i]) else 0.0)
    ensures SumOf(f, Filter(p, s)) == SumOf(g, s)
    decreases |s|
  {
    if s != [] {
      SumOfFilter(f, p, g, s[1..]);
      if p(s[0]) {
        assert Filter(p, s) == [s[0]] + Filter(p, s[1..]);
        assert Filter(p, s)[1..] == Filter(p, s[1..]);
      }
    }
  }

  /** The numbers from `lo` to `hi` that satisfy `p`, in increasing order. */
  function Positions(p: nat -> bool, lo: nat, hi: nat): (ps: seq<nat>)
    ensures forall k :: 0 <= k < |ps| ==> lo <= ps[k] <= hi && p(ps[k])
    ensures forall k, l :: 0 <= k < l < |ps| ==> ps[k] < ps[l]
    ensures forall c: nat :: lo <= c <= hi && p(c) ==> c in ps
    decreases hi + 1 - lo
  {
    if lo > hi then [] else (if p(lo) then [lo] else []) + Positions(p, lo + 1, hi)
  }

  /** `[f(x) for x in xs]`. */
  function Map<A, B>(f: A -> B, xs: seq<A>): (ys: seq<B>)
    ensures |ys| == |xs|
  {
    if xs == [] then [] else [f(xs[0])] + Map(f, xs[1..])
  }

  /** Mapping after appending is appending after mapping. */
  lemma {:induction false} MapAppend<A, B>(f: A -> B, a: seq<A>, b: seq<A>)
    ensures Map(f, a + b) == Map(f, a) + Map(f, b)
    decreases |a|
  {
    if a == [] {
      assert a + b == b;
    } else {
      assert (a + b)[0] == a[0] && (a + b)[1..] == a[1..] + b;
      MapAppend(f, a[1..], b);
    }
  }

  /** Each element of the mapped list is the image of the element at the
      same place. */
  lemma {:induction false} MapAt<A, B>(f: A -> B, xs: seq<A>, k: nat)
    requires k < |xs|
    ensures Map(f, xs)[k] == f(xs[k])
    decreases k
  {
    if k > 0 {
      assert xs[1..][k - 1] == xs[k];
      MapAt(f, xs[1..], k - 1);
    }
  }

  /** Each element's image is in the mapped list. */
  lemma {:induction false} MapIn<A, B>(f: A -> B, xs: seq<A>, k: nat)
    requires k < |xs|
    ensures f(xs[k]) in Map(f, xs)
    decreases k
  {
    if k > 0 {
      assert xs[1..][k - 1] == xs[k];
      MapIn(f, xs[1..], k - 1);
    }
  }

  /** The lists `f(x)` for `x` in `xs`, one after another. */
  function FlatMap<A, B>(f: A -> seq<B>, xs: seq<A>): seq<B> {
    if xs == [] then [] else f(xs[0]) + FlatMap(f, xs[1..])
  }

  lemma {:induction false} FlatMapAppend<A, B>(f: A -> seq<B>, a: seq<A>, b: seq<A>)
    ensures FlatMap(f, a + b) == FlatMap(f, a) + FlatMap(f, b)
    decreases |a|
  {
    if a == [] {
      assert a + b == b;
    } else {
      assert (a + b)[0] == a[0] && (a + b)[1..] == a[1..] + b;
      FlatMapAppend(f, a[1..], b);
    }
  }

  /** What one element contributes is in the whole. */
  lemma {:induction false} FlatMapIn<A, B>(f: A -> seq<B>, xs: seq<A>, i: nat, y: B)
    requires i < |xs| && y in f(xs[i])
    ensures y in FlatMap(f, xs)
    decreases i
  {
    if i > 0 {
      assert xs[1..][i - 1] == xs[i];
      FlatMapIn(f, xs[1..], i - 1, y);
    }
  }

  /** Everything in the whole came from one element. */
  lemma {:induction false} FlatMapFrom<A, B>(f: A -> seq<B>, xs: seq<A>, y: B) returns (i: nat)
    requires y in FlatMap(f, xs)
    ensures i < |xs| && y in f(xs[i])
    decreases |xs|
  {
    if y in f(xs[0]) {
      i := 0;
    } else {
      var j := FlatMapFrom(f, xs[1..], y);
      i := j + 1;
    }
  }

  /** The whole is empty exactly when every contribution is. */
  lemma {:induction false} FlatMapEmpty<A, B>(f: A -> seq<B>, xs: seq<A>)
    ensures FlatMap(f, xs) == [] <==> forall i :: 0 <= i < |xs| ==> f(xs[i]) == []
    decreases |xs|
  {
    if xs != [] {
      FlatMapEmpty(f, xs[1..]);
      assert forall i :: 1 <= i < |xs| ==> xs[1..][i - 1] == xs[i];
    }
  }

  /** `list.insert(i, x)`; an index past the end appends, as in Python. */
  function Insert<T>(s: seq<T>, i: nat, x: T): (r: seq<T>)
    ensures |r| == |s| + 1
    ensures i <= |s| ==> r[i] == x && r[..i] == s[..i] && r[i + 1..] == s[i..]
    ensures i > |s| ==> r == s + [x]
    ensures multiset(r) == multiset(s) + multiset{x}
  {
    if i <= |s| then
      assert s == s[..i] + s[i..];
      s[..i] + [x] + s[i..]
    else s + [x]
  }

  /** `del s[i]` or `s.pop(i)`. */
  function RemoveAt<T>(s: seq<T>, i: nat): (r: seq<T>)
    requires i < |s|
    ensures |r| == |s| - 1
    ensures r[..i] == s[..i] && r[i..] == s[i + 1..]
    ensures multiset(r) + multiset{s[i]} == multiset(s)
  {
    assert s == s[..i] + [s[i]] + s[i + 1..];
    s[..i] + s[i + 1..]
  }

  /** Index of the first occurrence of `x`, if any (`list.index`). */
  function IndexOf<T(==)>(s: seq<T>, x: T): (r: Option<nat>)
    ensures r.Some? ==> r.value < |s| && s[r.value] == x && x !in s[..r.value]
    ensures r.None? <==> x !in s
  {
    if s == [] then None
    else if s[0] == x then Some(0)
    else match IndexOf(s[1..], x)
      case None => None
      case Some(k) =>
        assert s[1..][..k] == s[1..k + 1];
        Some(k + 1)
  }

  /** An occurrence with no earlier copy is the first one. */
  lemma IndexOfAt<T>(s: seq<T>, k: nat, x: T)
    requires k < |s| && s[k] == x && x !in s[..k]
    ensures IndexOf(s, x) == Some(k)
  {
    assert forall j :: 0 <= j < k ==> s[..k][j] == s[j];
    assert forall j :: k < j <= |s| ==> s[..j][k] == x;
  }

  /** `if x in s: s.remove(x)`: drops the first occurrence, if any. */
  function RemoveFirst<T(==)>(s: seq<T>, x: T): (r: seq<T>)
    ensures x !in s ==> r == s
    ensures x in s ==> |r| == |s| - 1 && multiset(r) + multiset{x} == multiset(s)
  {
    match IndexOf(s, x)
    case None => s
    case Some(i) => RemoveAt(s, i)
  }
}

=== FILE: consortium_entry.dfy ===
/** The consortium entry screen shared by the two agency views: the five
    member rows, share entry, input validation, the regional duty-ratio
    check, the duplicate-company guard when a result is added, the mapping
    from a member's role back to its row or report column, the bid-amount
    and performance-target figures, the guided-copy chunks of a report row
    and the share pre-check. The scoring engine's results are inputs here;
    user replies to confirmation prompts are parameters. */
module ConsortiumEntry {
  import opened Base
  import opened Text
  import opened Numbers
  import opened Records

  // ---------------------------------------------------------------------
  // member rows

  /** One row of the entry table: its role, the company picked for it (if
      any) and its share as a decimal (0.51 for 51%). */
  datatype Slot = Slot(role: string, data: Option<Company>, share: real)

  const Lead: string := "대표사"
  const Roles: seq<string> := ["대표사", "구성사 1", "구성사 2", "구성사 3", "구성사 4"]

  /** The table as the screen opens: five empty rows with share 0. */
  function InitialSlots(): (rows: seq<Slot>)
    ensures |rows| == |Roles|
    ensures forall i :: 0 <= i < |rows| ==> rows[i].role == Roles[i] && rows[i].data.None?
    ensures Members(rows) == []
  {
    seq(|Roles|, i requires 0 <= i < |Roles| => Slot(Roles[i], None, 0.0))
  }

  /** A row takes part in an evaluation when it has a company and a
      positive share. */
  predicate IsMember(s: Slot) {
    s.data.Some? && s.share > 0.0
  }

  /** The rows that take part, in table order. */
  function Members(rows: seq<Slot>): (r: seq<Slot>)
    ensures Subseq(r, rows)
    ensures forall i :: 0 <= i < |r| ==> r[i].data.Some? && r[i].share > 0.0
    ensures forall i :: 0 <= i < |rows| && rows[i].data.Some? && rows[i].share > 0.0 ==> rows[i] in r
  {
    FilterIsSubseq(IsMember, rows);
    Filter(IsMember, rows)
  }

  /** Editing a cell: only the share column (4) is acted on. The typed
      percentage is stored as a decimal; text that is not a number stores 0. */
  function OnShareChanged(rows: seq<Slot>, row: nat, col: int, text: string, ext: Externals): (r: seq<Slot>)
    requires row < |rows|
    ensures |r| == |rows|
    ensures col != 4 ==> r == rows
    ensures forall i :: 0 <= i < |rows| && i != row ==> r[i] == rows[i]
    ensures r[row].role == rows[row].role && r[row].data == rows[row].data
    ensures col == 4 && ext.parseFloat(text).Some? ==> r[row].share * 100.0 == ext.parseFloat(text).value
    ensures col == 4 && ext.parseFloat(text).None? ==> r[row].share == 0.0
  {
    if col != 4 then rows
    else
      var share := match ext.parseFloat(text)
        case Some(x) => x / 100.0
        case None => 0.0;
      rows[row := rows[row].(share := share)]
  }

  // ---------------------------------------------------------------------
  // regional duty ratio

  /** The answer to a Yes/No confirmation prompt. */
  datatype Reply = Yes | No

  /** A member counts toward the regional share when the region name occurs
      in its "지역" field. */
  predicate InRegion(region: string, s: Slot) {
    s.data.Some? && Contains(TextField(s.data.value, "지역"), region)
  }

  /** The summed decimal share of the members located in the region. */
  function RegionalShare(region: string, members: seq<Slot>): real {
    SumOf((s: Slot) => s.share, Filter((s: Slot) => InRegion(region, s), members))
  }

  /** The regional share counts each member in the region once and every
      other member not at all. */
  lemma RegionalShareCounts(region: string, members: seq<Slot>)
    ensures RegionalShare(region, members)
            == SumOf((s: Slot) => if InRegion(region, s) then s.share else 0.0, members)
  {
    SumOfFilter((s: Slot) => s.share, (s: Slot) => InRegion(region, s),
                (s: Slot) => if InRegion(region, s) then s.share else 0.0, members);
  }

  /** `check_regional_requirements`. With a real region and a duty ratio
      typed, the ratio must be a number; a regional share (in percent) below
      it asks the user, whose "No" stops the action. */
  function CheckRegional(region: string, dutyText: string, members: seq<Slot>,
                         ext: Externals, reply: Reply): (ok: bool)
    ensures region == "전체" || Strip(dutyText) == [] ==> ok
    ensures region != "전체" && Strip(dutyText) != [] && ext.parseFloat(Strip(dutyText)).None? ==> !ok
    ensures region != "전체" && Strip(dutyText) != [] && ext.parseFloat(Strip(dutyText)).Some? ==>
              (ok <==> RegionalShare(region, members) * 100.0 >= ext.parseFloat(Strip(dutyText)).value || reply == Yes)
  {
    var duty := Strip(dutyText);
    if region == "전체" || duty == [] then true
    else match ext.parseFloat(duty)
      case None => false
      case Some(d) => !(RegionalShare(region, members) * 100.0 < d && reply == No)
  }

  /** A regional share exactly at the duty ratio passes without asking. */
  lemma RegionalEqualityPasses(region: string, dutyText: string, members: seq<Slot>, ext: Externals)
    requires ext.parseFloat(Strip(dutyText)).Some?
    requires RegionalShare(region, members) * 100.0 == ext.parseFloat(Strip(dutyText)).value
    ensures CheckRegional(region, dutyText, members, ext, No)
  {
  }

  // ---------------------------------------------------------------------
  // validation and adding a result

  /** Why the inputs were refused, or the members and estimated price to use. */
  datatype Validation =
    | NeedDate
    | NeedMembers
    | NeedRule
    | NeedPrice
    | Valid(members: seq<Slot>, estimation: real)

  /** The input checks made before any evaluation, in their order: the
      announcement date must have been set, some row must take part, a rule
      must be chosen and the estimated price must be a non-zero amount. */
  function Validate(dateSet: bool, rows: seq<Slot>, ruleKey: string,
                    estimationText: string, ext: Externals): (v: Validation)
    ensures v.Valid? <==> dateSet && Members(rows) != [] && ruleKey != []
                          && ext.parseAmount(VStr(estimationText)).Some?
                          && ext.parseAmount(VStr(estimationText)).value != 0.0
    ensures v.Valid? ==> v.members == Members(rows)
                         && ext.parseAmount(VStr(estimationText)) == Some(v.estimation)
  {
    if !dateSet then NeedDate
    else
      var members := Members(rows);
      if members == [] then NeedMembers
      else if ruleKey == [] then NeedRule
      else match ext.parseAmount(VStr(estimationText))
        case None => NeedPrice
        case Some(p) => if p == 0.0 then NeedPrice else Valid(members, p)
  }

  /** Every company name already used by a listed result. */
  function UsedNames(results: seq<ConsortiumResult>): set<string> {
    set r, d | r in results && d in r.details :: d.name
  }

  /** The names of the companies of the members. */
  function MemberNames(members: seq<Slot>): set<string> {
    set s | s in members && s.data.Some? :: s.data.value.name
  }

  /** What adding a result led to. */
  datatype AddOutcome =
    | NotValid(why: Validation)
    | RegionalDeclined
    | Duplicate(overlap: set<string>)
    | EngineFailed
    | Added(results: seq<ConsortiumResult>)

  /** `process_and_add_result`: validate, check the regional ratio, refuse a
      member already used by a listed result, then append the engine's result
      with the announcement title and number. `engine` is the scoring
      engine's answer, `None` for an empty or missing result. */
  function AddResult(existing: seq<ConsortiumResult>, dateSet: bool, rows: seq<Slot>,
                     ruleKey: string, estimationText: string, region: string,
                     dutyText: string, reply: Reply, engine: Option<ConsortiumResult>,
                     title: string, no: string, ext: Externals): (r: AddOutcome)
    ensures r.Duplicate? ==> r.overlap != {}
                             && r.overlap == MemberNames(Members(rows)) * UsedNames(existing)
    ensures r.Added? ==> MemberNames(Members(rows)) !! UsedNames(existing)
    ensures r.Added? ==> |r.results| == |existing| + 1 && r.results[..|existing|] == existing
    ensures r.Added? ==> engine.Some? && r.results[|existing|]
                         == engine.value.(gongoTitle := title, gongoNo := no)
    ensures (r.Added? || r.Duplicate? || r.EngineFailed?) <==>
              Validate(dateSet, rows, ruleKey, estimationText, ext).Valid?
              && CheckRegional(region, dutyText, Members(rows), ext, reply)
    ensures r.Duplicate? <==>
              Validate(dateSet, rows, ruleKey, estimationText, ext).Valid?
              && CheckRegional(region, dutyText, Members(rows), ext, reply)
              && MemberNames(Members(rows)) * UsedNames(existing) != {}
    ensures r.Added? <==>
              Validate(dateSet, rows, ruleKey, estimationText, ext).Valid?
              && CheckRegional(region, dutyText, Members(rows), ext, reply)
              && MemberNames(Members(rows)) !! UsedNames(existing) && engine.Some?
    ensures r.EngineFailed? ==> engine.None?
  {
    var v := Validate(dateSet, rows, ruleKey, estimationText, ext);
    if !v.Valid? then NotValid(v)
    else if !CheckRegional(region, dutyText, v.members, ext, reply) then RegionalDeclined
    else
      var overlap := MemberNames(v.members) * UsedNames(existing);
      if overlap != {} then Duplicate(overlap)
      else
        assert forall x :: x in MemberNames(v.members) && x in UsedNames(existing) ==> x in overlap;
        match engine
        case None => EngineFailed
        case Some(res) => Added(existing + [res.(gongoTitle := title, gongoNo := no)])
  }

  /** After an accepted addition no company appears in two results, provided
      the engine reports the members under their own names and the earlier
      results were already apart. */
  lemma AddedKeepsNamesApart(existing: seq<ConsortiumResult>, dateSet: bool, rows: seq<Slot>,
                             ruleKey: string, estimationText: string, region: string,
                             dutyText: string, reply: Reply, res: ConsortiumResult,
                             title: string, no: string, ext: Externals)
    requires forall d :: d in res.details ==> d.name in MemberNames(Members(rows))
    requires AddResult(existing, dateSet, rows, ruleKey, estimationText, region, dutyText,
                       reply, Some(res), title, no, ext).Added?
    ensures forall d :: d in res.details ==> d.name !in UsedNames(existing)
  {
  }

  /** Adding the same line-up a second time is refused as a duplicate, as
      long as the engine reported at least one member under its own name. */
  lemma AddTwiceIsDuplicate(existing: seq<ConsortiumResult>, dateSet: bool, rows: seq<Slot>,
                            ruleKey: string, estimationText: string, region: string,
                            dutyText: string, reply: Reply, res: ConsortiumResult,
                            title: string, no: string, ext: Externals)
    requires exists d :: d in res.details && d.name in MemberNames(Members(rows))
    requires AddResult(existing, dateSet, rows, ruleKey, estimationText, region, dutyText,
                       reply, Some(res), title, no, ext).Added?
    ensures AddResult(AddResult(existing, dateSet, rows, ruleKey, estimationText, region, dutyText,
                                reply, Some(res), title, no, ext).results,
                      dateSet, rows, ruleKey, estimationText, region, dutyText,
                      reply, Some(res), title, no, ext).Duplicate?
  {
    var after := AddResult(existing, dateSet, rows, ruleKey, estimationText, region, dutyText,
                           reply, Some(res), title, no, ext).results;
    var d :| d in res.details && d.name in MemberNames(Members(rows));
    var added := res.(gongoTitle := title, gongoNo := no);
    assert after[|existing|] == added && added in after;
    assert d in added.details;
    assert d.name in UsedNames(after);
  }

  /** `_remove_widget_from_list`: drops a result if it is still listed. */
  function RemoveResult<T(==)>(results: seq<T>, w: T): (r: seq<T>)
    ensures w !in results ==> r == results
    ensures w in results ==> |r| == |results| - 1 && multiset(r) + multiset{w} == multiset(results)
  {
    RemoveFirst(results, w)
  }

  /** `delete_single_result` of the local-government view: a confirmed
      deletion removes the result, anything else leaves the list alone. */
  function DeleteSingleResult<T(==)>(results: seq<T>, w: T, reply: Reply): (r: seq<T>)
    ensures reply == No ==> r == results
    ensures reply == Yes && w in results ==>
              |r| == |results| - 1 && multiset(r) + multiset{w} == multiset(results)
  {
    if reply != Yes then results else RemoveResult(results, w)
  }

  // ---------------------------------------------------------------------
  // role to row or column

  /** The row of the entry table, or the column offset in the report row,
      of a member with the given role: 0 for the lead, N for "구성사 N", and
      nothing (the member is skipped) for a "구성사" role without a number. */
  function RoleOffset(role: string): (r: Option<int>)
    ensures role == Lead ==> r == Some(0)
    ensures !StartsWith(role, "구성사") ==> r == Some(0)
  {
    if role == Lead then Some(0)
    else if StartsWith(role, "구성사") then
      var parts := Split(role, " ");
      if |parts| >= 2 then ParseInt(parts[1]) else None
    else Some(0)
  }

  /** "구성사 N" maps back to N for every natural number N. */
  lemma RoleOffsetMember(n: nat)
    ensures RoleOffset("구성사 " + NatToString(n)) == Some(n)
  {
    var d := NatToString(n);
    var role := "구성사 " + d;
    assert Join(["구성사", d], " ") == role;
    assert role[..|"구성사"|] == "구성사";
    forall k | 0 <= k < 2 ensures ' ' !in ["구성사", d][k] {
      if k == 1 {
        assert forall i :: 0 <= i < |d| ==> IsDigit(d[i]);
      }
    }
    SplitJoin(["구성사", d], ' ');
    ParseIntOfString(n);
  }

  /** Each of the five initial roles maps back to its own row. */
  lemma RoleOffsetRoles(i: nat)
    requires i < |Roles|
    ensures RoleOffset(Roles[i]) == Some(i)
  {
    if i > 0 {
      assert NatToString(i) == [DigitChar(i)];
      var digit := ['0', '1', '2', '3', '4'][i];
      assert DigitChar(i) == digit;
      assert Roles[i] == "구성사 " + [digit];
      RoleOffsetMember(i);
    }
  }

  /** A popup-added member ("구성사 ?") has no row. */
  lemma RoleOffsetUnnumbered()
    ensures RoleOffset("구성사 ?") == None
  {
    var parts := Split("구성사 ?", " ");
    assert Join(["구성사", "?"], " ") == "구성사 ?";
    SplitJoin(["구성사", "?"], ' ');
  }

  // ---------------------------------------------------------------------
  // amounts

  /** The bid amount, or the complaint that a rate is not a number. */
  datatype TuchalOutcome = NotNumeric | Tuchal(amount: real)

  /** `calculate_tuchal_amount`: base × rate% × assessment-rate%, when all
      three are positive; 0 otherwise. An unreadable base counts as 0, an
      unreadable rate is reported. */
  function TuchalAmount(baseText: string, rateText: string, sajungText: string,
                        ext: Externals): (r: TuchalOutcome)
    ensures r.NotNumeric? <==> ext.parseFloat(rateText).None? || ext.parseFloat(sajungText).None?
    ensures r.Tuchal? ==> r.amount >= 0.0
    ensures r.Tuchal? ==> (r.amount > 0.0 <==>
              ext.parseAmount(VStr(baseText)).GetOr(0.0) > 0.0
              && ext.parseFloat(rateText).value > 0.0 && ext.parseFloat(sajungText).value > 0.0)
    ensures r.Tuchal? && r.amount > 0.0 ==>
              r.amount == ext.parseAmount(VStr(baseText)).value
                          * (ext.parseFloat(rateText).value / 100.0)
                          * (ext.parseFloat(sajungText).value / 100.0)
  {
    var base := ext.parseAmount(VStr(baseText)).GetOr(0.0);
    match (ext.parseFloat(rateText), ext.parseFloat(sajungText))
    case (Some(rate), Some(sajung)) =>
      if base > 0.0 && rate > 0.0 && sajung > 0.0 then
        ProductPositive(base, rate / 100.0, sajung / 100.0);
        Tuchal(base * (rate / 100.0) * (sajung / 100.0))
      else Tuchal(0.0)
    case _ => NotNumeric
  }

  lemma ProductPositive(a: real, b: real, c: real)
    requires a > 0.0 && b > 0.0 && c > 0.0
    ensures a * b * c > 0.0
  {
    assert a * b > 0.0;
  }

  /** The two rates play symmetric parts: swapping them leaves the amount. */
  lemma TuchalSymmetric(baseText: string, rateText: string, sajungText: string, ext: Externals)
    ensures TuchalAmount(baseText, rateText, sajungText, ext)
            == TuchalAmount(baseText, sajungText, rateText, ext)
  {
  }

  /** With both rates at most 100 the amount never exceeds the base (nor
      0, for a base that is not positive). */
  lemma TuchalAtMostBase(baseText: string, rateText: string, sajungText: string, ext: Externals)
    requires ext.parseFloat(rateText).Some? && ext.parseFloat(rateText).value <= 100.0
    requires ext.parseFloat(sajungText).Some? && ext.parseFloat(sajungText).value <= 100.0
    ensures TuchalAmount(baseText, rateText, sajungText, ext).Tuchal?
    ensures var base := ext.parseAmount(VStr(baseText)).GetOr(0.0);
            TuchalAmount(baseText, rateText, sajungText, ext).amount <= (if base > 0.0 then base else 0.0)
  {
    var r := TuchalAmount(baseText, rateText, sajungText, ext);
    var base := ext.parseAmount(VStr(baseText)).GetOr(0.0);
    var x := ext.parseFloat(rateText).value / 100.0;
    var y := ext.parseFloat(sajungText).value / 100.0;
    if r.amount > 0.0 {
      assert r.amount == base * x * y;
      FractionOfFraction(base, x, y);
      assert r.amount <= base;
    }
  }

  lemma FractionOfFraction(b: real, x: real, y: real)
    requires b > 0.0 && 0.0 < x <= 1.0 && 0.0 < y <= 1.0
    ensures 0.0 < b * x * y <= b
  {
    assert b * x <= b * 1.0;
    assert b * x * y <= b * x * 1.0;
  }

  /** `calculate_performance_target`: the price read from `priceText` times
      the rule's multiplier (1.0 when the rule gives none); 0 when the price
      is missing or zero. */
  function PerformanceTarget(priceText: string, multiplier: Option<real>, ext: Externals): (r: real)
    ensures ext.parseAmount(VStr(priceText)).None? ==> r == 0.0
    ensures multiplier.GetOr(1.0) != 0.0 ==> (r != 0.0 <==>
              ext.parseAmount(VStr(priceText)).Some? && ext.parseAmount(VStr(priceText)).value != 0.0)
    ensures r == ext.parseAmount(VStr(priceText)).GetOr(0.0) * multiplier.GetOr(1.0)
  {
    match ext.parseAmount(VStr(priceText))
    case Some(p) => if p != 0.0 then p * multiplier.GetOr(1.0) else 0.0
    case None => 0.0
  }

  /** Without a rule multiplier the target is the price itself. */
  lemma PerformanceTargetDefault(priceText: string, ext: Externals)
    requires ext.parseAmount(VStr(priceText)).Some?
    ensures PerformanceTarget(priceText, None, ext) == ext.parseAmount(VStr(priceText)).value
  {
  }

  /** A rule's multiplier scales the plain target. */
  lemma PerformanceTargetScales(priceText: string, m: real, ext: Externals)
    ensures PerformanceTarget(priceText, Some(m), ext) == PerformanceTarget(priceText, None, ext) * m
  {
  }

  // ---------------------------------------------------------------------
  // guided copy of a report row

  /** One paste step: its instruction and the tab-separated cell texts. */
  datatype Chunk = Chunk(instruction: string, data: string)

  /** A block of report columns `[lo, hi)` and the Excel column it is
      pasted at. */
  datatype ChunkSpec = ChunkSpec(name: string, lo: nat, hi: nat, column: string)

  const ChunkSpecs: seq<ChunkSpec> := [
    ChunkSpec("업체명/지분", 0, 11, "A"),
    ChunkSpec("경영상태", 13, 18, "N"),
    ChunkSpec("시공실적", 19, 24, "T"),
    ChunkSpec("시공능력", 26, 31, "AA")
  ]

  /** The texts of report columns `lo` .. `hi - 1`, `""` for an empty cell. */
  function RowTexts(cell: int -> Option<string>, lo: nat, hi: nat): (r: seq<string>)
    requires lo <= hi
    ensures |r| == hi - lo
    ensures forall k :: 0 <= k < |r| ==> r[k] == cell(lo + k).GetOr("")
  {
    seq(hi - lo, k requires 0 <= k < hi - lo => cell(lo + k).GetOr(""))
  }

  /** The Excel cell a block is pasted at: its column and row 3 + index. */
  function StartCell(spec: ChunkSpec, resultIndex: nat): string {
    spec.column + NatToString(3 + resultIndex)
  }

  /** The start cell names Excel row 3 + index after the block's column. */
  lemma StartCellRow(spec: ChunkSpec, resultIndex: nat)
    ensures StartsWith(StartCell(spec, resultIndex), spec.column)
    ensures ParseInt(StartCell(spec, resultIndex)[|spec.column|..]) == Some(3 + resultIndex)
  {
    var s := StartCell(spec, resultIndex);
    assert s[|spec.column|..] == NatToString(3 + resultIndex);
    assert s[..|spec.column|] == spec.column;
    ParseIntOfString(3 + resultIndex);
  }

  /** `start_guided_copy`: one chunk per block, in block order. */
  function CopyChunks(cell: int -> Option<string>, resultIndex: nat): (r: seq<Chunk>)
    ensures |r| == |ChunkSpecs|
    ensures forall k :: 0 <= k < |r| ==>
              r[k].data == Join(RowTexts(cell, ChunkSpecs[k].lo, ChunkSpecs[k].hi), "\t")
  {
    seq(|ChunkSpecs|, k requires 0 <= k < |ChunkSpecs| =>
      var spec := ChunkSpecs[k];
      Chunk("<b>" + spec.name + "</b> 데이터를 엑셀의 <b>" + StartCell(spec, resultIndex)
              + "</b> 셀에 붙여넣으세요.",
            Join(RowTexts(cell, spec.lo, spec.hi), "\t")))
  }

  /** Splitting a chunk's data at tabs gives back its cells, one per
      column of the block, provided no cell text holds a tab. */
  lemma ChunkRoundTrip(cell: int -> Option<string>, resultIndex: nat, k: nat)
    requires k < |ChunkSpecs|
    requires forall c :: '\t' !in cell(c).GetOr("")
    ensures var texts := RowTexts(cell, ChunkSpecs[k].lo, ChunkSpecs[k].hi);
            Split(CopyChunks(cell, resultIndex)[k].data, "\t") == texts
            && |texts| == ChunkSpecs[k].hi - ChunkSpecs[k].lo
  {
    var spec := ChunkSpecs[k];
    var texts := RowTexts(cell, spec.lo, spec.hi);
    assert forall j :: 0 <= j < |texts| ==> '\t' !in texts[j];
    assert |texts| >= 1;
    SplitJoin(texts, '\t');
  }

  // ---------------------------------------------------------------------
  // share pre-check

  /** The outcome of the share pre-check. */
  datatype PreCheck =
    | NotApplicable
    | NeedTuchal
    | NoMembers
    | PreRegionalDeclined
    | Checked(passed: bool)

  /** Python's `any(...)` over the engine's per-member problem flags. */
  function AnyProblem(problems: seq<bool>): (b: bool) {
    if problems == [] then false else problems[0] || AnyProblem(problems[1..])
  }

  lemma {:induction false} AnyProblemExists(problems: seq<bool>)
    ensures AnyProblem(problems) <==> exists i :: 0 <= i < |problems| && problems[i]
    decreases |problems|
  {
    if problems != [] {
      AnyProblemExists(problems[1..]);
      if AnyProblem(problems[1..]) {
        var i :| 0 <= i < |problems[1..]| && problems[1..][i];
        assert problems[i + 1];
      }
      if exists i :: 0 <= i < |problems| && problems[i] {
        var i :| 0 <= i < |problems| && problems[i];
        if i > 0 {
          assert problems[1..][i - 1];
        }
      }
    }
  }

  /** `run_pre_check`: only for rules of 3 billion won and above, only with
      a positive bid amount and some members, and after the regional check.
      `tuchal` is the amount read back from the bid-amount label; `problems`
      are the engine's per-member `is_problem` flags. */
  function RunPreCheck(ruleKey: string, tuchal: Option<real>, rows: seq<Slot>, region: string,
                       dutyText: string, reply: Reply, problems: seq<bool>, ext: Externals): (r: PreCheck)
    ensures r.Checked? <==> Contains(ruleKey, "30억이상") && tuchal.GetOr(0.0) > 0.0
                            && Members(rows) != []
                            && CheckRegional(region, dutyText, Members(rows), ext, reply)
    ensures r.Checked? ==> (r.passed <==> forall i :: 0 <= i < |problems| ==> !problems[i])
  {
    if !Contains(ruleKey, "30억이상") then NotApplicable
    else if tuchal.GetOr(0.0) <= 0.0 then NeedTuchal
    else
      var members := Members(rows);
      if members == [] then NoMembers
      else if !CheckRegional(region, dutyText, members, ext, reply) then PreRegionalDeclined
      else
        AnyProblemExists(problems);
        Checked(!AnyProblem(problems))
  }
}

=== FILE: consortium_manager.dfy ===
/** The consortium editing dialog: consortium columns and a standby list of
    company cards that can be dragged between them, inline share editing on
    a card, the company picked from the search popup, and re-scoring of one
    consortium through the scoring engine, which is a parameter here.

    A card is identified by its `id` (the widget object in the dialog); the
    screen geometry a drop needs is passed in as the cards' tops and
    heights. */
module ConsortiumManager {
  import opened Base
  import opened Text
  import opened Records
  import ConsortiumEntry

  /** The dictionary a card carries. The engine's member details, a typed
      company and a company picked from the search popup fill different
      keys; a key the dictionary does not have is `None`. */
  datatype Entry = Entry(
    role: Option<string>,
    name: string,
    share: real,
    data: Option<Company>,
    performance5y: Option<real>,
    etc: Option<string>)

  // ---------------------------------------------------------------------
  // typed company ("업체 추가" dialog)

  /** The decimal share a typed token stands for: the number with its "%"
      signs removed, divided by 100, or 0 when it is not a number. */
  function TokenShare(token: string, ext: Externals): real {
    match ext.parseFloat(RemoveChar(token, '%'))
    case Some(x) => x / 100.0
    case None => 0.0
  }

  /** `AddCompanyDialog.get_company_info`: a blank entry gives nothing;
      otherwise the last word is the share and the words before it are the
      name, and a single word is a name with share 0. */
  function GetCompanyInfo(text: string, ext: Externals): (r: Option<Entry>)
    ensures r.None? <==> Strip(text) == []
    ensures r.Some? ==> r.value.etc == Some("신규") && r.value.role.None? && r.value.data.None?
                        && r.value.performance5y.None?
    ensures r.Some? && |SplitWords(Strip(text))| <= 1 ==>
              r.value.name == Strip(text) && r.value.share == 0.0
    ensures r.Some? && |SplitWords(Strip(text))| > 1 ==>
              var parts := SplitWords(Strip(text));
              SplitWords(r.value.name) == parts[..|parts| - 1]
              && r.value.share == TokenShare(parts[|parts| - 1], ext)
  {
    var t := Strip(text);
    if t == [] then None
    else
      var parts := SplitWords(t);
      if |parts| > 1 then
        var words := parts[..|parts| - 1];
        assert forall k :: 0 <= k < |words| ==> words[k] == parts[k];
        SplitWordsJoin(words);
        Some(Entry(None, Join(words, " "), TokenShare(parts[|parts| - 1], ext), None, None, Some("신규")))
      else
        Some(Entry(None, t, 0.0, None, None, Some("신규")))
  }

  /** A single-space join of non-empty words starts with the first word's
      first character and ends with the last word's last character. */
  lemma {:induction false} JoinEnds(words: seq<string>)
    requires |words| >= 1
    requires forall k :: 0 <= k < |words| ==> words[k] != []
    ensures |Join(words, " ")| >= |words[0]|
    ensures Join(words, " ")[0] == words[0][0]
    ensures Join(words, " ")[|Join(words, " ")| - 1] == words[|words| - 1][|words[|words| - 1]| - 1]
    decreases |words|
  {
    if |words| > 1 {
      JoinCons(words[0], words[1..], " ");
      assert words == [words[0]] + words[1..];
      JoinEnds(words[1..]);
    }
  }

  /** Typing a name of several words followed by a share token gives back
      exactly that name, single-spaced, with the token's share. */
  lemma GetCompanyInfoRoundTrip(words: seq<string>, token: string, ext: Externals)
    requires |words| >= 1
    requires forall k :: 0 <= k < |words| ==> words[k] != [] && NoSpace(words[k])
    requires token != [] && NoSpace(token)
    ensures GetCompanyInfo(Join(words + [token], " "), ext)
            == Some(Entry(None, Join(words, " "), TokenShare(token, ext), None, None, Some("신규")))
  {
    var all := words + [token];
    var s := Join(all, " ");
    assert forall k :: 0 <= k < |all| ==> all[k] != [] && NoSpace(all[k]);
    JoinStripped(all);
    SplitWordsJoin(all);
    var parts := SplitWords(Strip(s));
    assert parts == all;
    assert parts[..|parts| - 1] == words;
  }

  /** A single-space join of non-empty words has nothing to strip. */
  lemma JoinStripped(all: seq<string>)
    requires |all| >= 1
    requires forall k :: 0 <= k < |all| ==> all[k] != [] && NoSpace(all[k])
    ensures Strip(Join(all, " ")) == Join(all, " ")
  {
    var s := Join(all, " ");
    JoinEndsNotSpace(all, s);
    StripFixed(s);
  }

  lemma JoinEndsNotSpace(all: seq<string>, s: string)
    requires |all| >= 1 && s == Join(all, " ")
    requires forall k :: 0 <= k < |all| ==> all[k] != [] && NoSpace(all[k])
    ensures s != [] && !IsSpace(s[0]) && !IsSpace(s[|s| - 1])
  {
    var first := all[0];
    var last := all[|all| - 1];
    JoinEnds(all);
    assert s[0] == first[0] && s[|s| - 1] == last[|last| - 1];
    assert NoSpace(first) && NoSpace(last);
  }

  // ---------------------------------------------------------------------
  // regional flag

  /** The region text of a card: the "지역" field of its company data, or
      `""` when it has none. */
  function RegionOf(e: Entry): string {
    if e.data.Some? then TextField(e.data.value, "지역") else ""
  }

  /** The regional highlight of a card: the region limit is not "전체" and
      occurs in the card's region text. A card without company data is
      regional only under an empty limit, which occurs in every text. */
  function IsRegional(regionLimit: string, e: Entry): (b: bool)
    ensures b ==> regionLimit != "전체"
    ensures e.data.Some? ==>
              (b <==> regionLimit != "전체"
                      && ConsortiumEntry.InRegion(regionLimit, ConsortiumEntry.Slot(e.role.GetOr(""), e.data, e.share)))
    ensures e.data.None? ==> (b <==> regionLimit == "")
  {
    assert OccursAt("", "", 0);
    regionLimit != "전체" && Contains(RegionOf(e), regionLimit)
  }

  // ---------------------------------------------------------------------
  // drop position

  /** A card's place on screen: the y of its top edge and its height. */
  datatype Geometry = Geometry(top: int, height: int)

  /** The drop is above the card's vertical midpoint `top + height / 2`
      (true division, compared here with both sides doubled). */
  predicate AboveMiddle(y: int, g: Geometry) {
    2 * y < 2 * g.top + g.height
  }

  /** The insertion index of a drop at height `y`: before the first card
      whose midpoint lies below the drop, or after the last card. */
  function DropIndex(y: int, geoms: seq<Geometry>): (k: nat)
    ensures k <= |geoms|
    ensures forall i :: 0 <= i < k ==> !AboveMiddle(y, geoms[i])
    ensures k < |geoms| ==> AboveMiddle(y, geoms[k])
  {
    if geoms == [] then 0
    else if AboveMiddle(y, geoms[0]) then 0
    else 1 + DropIndex(y, geoms[1..])
  }

  /** A drop higher up never lands further down the list. */
  lemma DropIndexMonotone(y1: int, y2: int, geoms: seq<Geometry>)
    requires y1 <= y2
    ensures DropIndex(y1, geoms) <= DropIndex(y2, geoms)
  {
    var k2 := DropIndex(y2, geoms);
    if k2 < |geoms| {
      assert AboveMiddle(y1, geoms[k2]);
    }
  }

  /** With the cards laid out top to bottom, every card from the drop index
      on lies below the drop. */
  lemma DropIndexSorted(y: int, geoms: seq<Geometry>)
    requires forall i, j :: 0 <= i < j < |geoms| ==>
               2 * geoms[i].top + geoms[i].height <= 2 * geoms[j].top + geoms[j].height
    ensures forall i :: DropIndex(y, geoms) <= i < |geoms| ==> AboveMiddle(y, geoms[i])
  {
  }

  // ---------------------------------------------------------------------
  // the board

  /** A company card: the widget's identity and the dictionary it holds. */
  datatype Card = Card(id: nat, entry: Entry)

  /** The consortium columns, in order, and the standby list. */
  datatype Board = Board(consortia: seq<seq<Card>>, standby: seq<Card>)

  /** A layout of the board. */
  datatype Place = Consortium(index: nat) | Standby

  predicate ValidPlace(b: Board, p: Place) {
    p.Consortium? ==> p.index < |b.consortia|
  }

  function Layout(b: Board, p: Place): seq<Card>
    requires ValidPlace(b, p)
  {
    match p
    case Consortium(i) => b.consortia[i]
    case Standby => b.standby
  }

  /** The board with one layout replaced and every other layout kept. */
  function WithLayout(b: Board, p: Place, cards: seq<Card>): (r: Board)
    requires ValidPlace(b, p)
    ensures |r.consortia| == |b.consortia| && ValidPlace(r, p)
    ensures Layout(r, p) == cards
    ensures forall q :: ValidPlace(b, q) && q != p ==> Layout(r, q) == Layout(b, q)
  {
    match p
    case Consortium(i) => b.(consortia := b.consortia[i := cards])
    case Standby => b.(standby := cards)
  }

  /** The widget identities of a layout, in order. */
  function Ids(cards: seq<Card>): (ids: seq<nat>)
    ensures |ids| == |cards|
    ensures forall i :: 0 <= i < |cards| ==> ids[i] == cards[i].id
  {
    seq(|cards|, i requires 0 <= i < |cards| => cards[i].id)
  }

  /** The dictionaries of a layout, in order. */
  function Entries(cards: seq<Card>): (es: seq<Entry>)
    ensures |es| == |cards|
    ensures forall i :: 0 <= i < |cards| ==> es[i] == cards[i].entry
  {
    seq(|cards|, i requires 0 <= i < |cards| => cards[i].entry)
  }

  /** The result of an edit: the new board and whether the scores are
      recalculated. */
  datatype Change = Change(board: Board, recalc: bool)

  /** `add_company_to_layout`: the card goes at the drop index when there
      is a drop position and at the end otherwise; only an addition to a
      consortium column triggers recalculation. */
  function AddCard(b: Board, p: Place, card: Card, drop: Option<int>, geoms: seq<Geometry>): (c: Change)
    requires ValidPlace(b, p)
    requires drop.Some? ==> |geoms| == |Layout(b, p)|
    ensures c.recalc <==> p.Consortium?
    ensures |c.board.consortia| == |b.consortia| && ValidPlace(c.board, p)
    ensures |Layout(c.board, p)| == |Layout(b, p)| + 1
    ensures multiset(Layout(c.board, p)) == multiset(Layout(b, p)) + multiset{card}
    ensures drop.None? ==> Layout(c.board, p) == Layout(b, p) + [card]
    ensures drop.Some? ==>
              var k := DropIndex(drop.value, geoms);
              Layout(c.board, p)[k] == card
              && Layout(c.board, p)[..k] == Layout(b, p)[..k]
              && Layout(c.board, p)[k + 1..] == Layout(b, p)[k..]
    ensures forall q :: ValidPlace(b, q) && q != p ==> Layout(c.board, q) == Layout(b, q)
  {
    var cards := Layout(b, p);
    var k := if drop.Some? then DropIndex(drop.value, geoms) else |cards|;
    assert drop.None? ==> Insert(cards, k, card) == cards + [card];
    Change(WithLayout(b, p, Insert(cards, k, card)), p.Consortium?)
  }

  /** The first consortium column holding the card, if any. */
  function FirstHolding(cs: seq<seq<Card>>, id: nat): (r: Option<nat>)
    ensures r.Some? ==> r.value < |cs| && id in Ids(cs[r.value])
    ensures r.Some? ==> forall i :: 0 <= i < r.value ==> id !in Ids(cs[i])
    ensures r.None? ==> forall i :: 0 <= i < |cs| ==> id !in Ids(cs[i])
  {
    if cs == [] then None
    else if id in Ids(cs[0]) then Some(0)
    else
      match FirstHolding(cs[1..], id)
      case None => None
      case Some(k) => Some(k + 1)
  }

  /** The layout a card belongs to: the consortium columns are searched in
      order before the standby list. */
  function Locate(b: Board, id: nat): (p: Option<Place>)
    ensures p.Some? ==> ValidPlace(b, p.value) && id in Ids(Layout(b, p.value))
    ensures p.Some? && p.value.Consortium? ==>
              forall i :: 0 <= i < p.value.index ==> id !in Ids(b.consortia[i])
    ensures (p.Some? && p.value.Standby?) || p.None? ==>
              forall i :: 0 <= i < |b.consortia| ==> id !in Ids(b.consortia[i])
    ensures p.None? <==> id !in Ids(b.standby) && forall i :: 0 <= i < |b.consortia| ==> id !in Ids(b.consortia[i])
  {
    match FirstHolding(b.consortia, id)
    case Some(i) => Some(Consortium(i))
    case None => if id in Ids(b.standby) then Some(Standby) else None
  }

  /** The layout without the card. */
  function RemoveCard(cards: seq<Card>, id: nat): (r: seq<Card>)
    ensures id !in Ids(cards) ==> r == cards
    ensures id in Ids(cards) ==> |r| == |cards| - 1 && multiset(r) < multiset(cards)
  {
    match IndexOf(Ids(cards), id)
    case None => cards
    case Some(k) => RemoveAt(cards, k)
  }

  /** `_handle_delete_item`: the card leaves the layout it is found in, and
      only a deletion from a consortium column triggers recalculation. */
  function DeleteCard(b: Board, id: nat): (c: Change)
    ensures c.recalc <==> exists i :: 0 <= i < |b.consortia| && id in Ids(b.consortia[i])
    ensures |c.board.consortia| == |b.consortia|
    ensures !c.recalc ==> c.board.consortia == b.consortia
    ensures Locate(b, id).None? ==> c.board == b
    ensures Locate(b, id).Some? ==>
              var p := Locate(b, id).value;
              ValidPlace(c.board, p) && Layout(c.board, p) == RemoveCard(Layout(b, p), id)
              && |Layout(c.board, p)| == |Layout(b, p)| - 1
              && forall q :: ValidPlace(b, q) && q != p ==> Layout(c.board, q) == Layout(b, q)
  {
    match Locate(b, id)
    case None => Change(b, false)
    case Some(p) =>
      var r := WithLayout(b, p, RemoveCard(Layout(b, p), id));
      assert p.Standby? ==> r.consortia == b.consortia;
      Change(r, p.Consortium?)
  }

  /** The card at `k` is the first one with its identity when no earlier
      card shares it. */
  lemma IndexOfInserted(cards: seq<Card>, k: nat, card: Card)
    requires k <= |cards| && card.id !in Ids(cards)
    ensures IndexOf(Ids(Insert(cards, k, card)), card.id) == Some(k)
  {
    var ids := Ids(Insert(cards, k, card));
    assert ids[k] == card.id;
    assert forall j :: 0 <= j < k ==> ids[..k][j] == cards[j].id == Ids(cards)[j];
    IndexOfAt(ids, k, card.id);
  }

  /** Removing a card just inserted, whose identity the layout did not
      hold, gives the layout back. */
  lemma RemoveInserted(cards: seq<Card>, k: nat, card: Card)
    requires k <= |cards| && card.id !in Ids(cards)
    ensures RemoveCard(Insert(cards, k, card), card.id) == cards
  {
    IndexOfInserted(cards, k, card);
    var r := RemoveAt(Insert(cards, k, card), k);
    assert r[..k] == cards[..k] && r[k..] == cards[k..];
    assert r == r[..k] + r[k..];
    assert cards == cards[..k] + cards[k..];
  }

  /** A card whose identity only the replaced layout holds is located
      there. */
  lemma LocateReplaced(b: Board, p: Place, cards: seq<Card>, id: nat)
    requires ValidPlace(b, p) && id in Ids(cards)
    requires id !in Ids(b.standby)
    requires forall i :: 0 <= i < |b.consortia| ==> id !in Ids(b.consortia[i])
    ensures Locate(WithLayout(b, p, cards), id) == Some(p)
  {
    var after := WithLayout(b, p, cards);
    forall i | 0 <= i < |b.consortia| && Consortium(i) != p
      ensures id !in Ids(after.consortia[i])
    {
      assert Layout(after, Consortium(i)) == Layout(b, Consortium(i));
    }
    if p.Standby? {
      assert after.consortia == b.consortia;
    }
  }

  /** Putting a layout's old contents back restores the board. */
  lemma WithLayoutRestores(b: Board, p: Place, cards: seq<Card>)
    requires ValidPlace(b, p)
    ensures WithLayout(WithLayout(b, p, cards), p, Layout(b, p)) == b
  {
    match p
    case Consortium(i) =>
      assert WithLayout(WithLayout(b, p, cards), p, Layout(b, p)).consortia == b.consortia;
    case Standby =>
  }

  /** Deleting a card just added, whose identity was new to the board,
      restores the board, and recalculates exactly when the addition did. */
  lemma AddThenDelete(b: Board, p: Place, card: Card, drop: Option<int>, geoms: seq<Geometry>)
    requires ValidPlace(b, p)
    requires drop.Some? ==> |geoms| == |Layout(b, p)|
    requires card.id !in Ids(b.standby)
    requires forall i :: 0 <= i < |b.consortia| ==> card.id !in Ids(b.consortia[i])
    ensures DeleteCard(AddCard(b, p, card, drop, geoms).board, card.id)
            == Change(b, AddCard(b, p, card, drop, geoms).recalc)
  {
    var cards := Layout(b, p);
    var k := if drop.Some? then DropIndex(drop.value, geoms) else |cards|;
    var inserted := Insert(cards, k, card);
    var added := AddCard(b, p, card, drop, geoms).board;
    assert added == WithLayout(b, p, inserted);
    assert card.id !in Ids(cards);
    assert card.id in Ids(inserted) by {
      assert Ids(inserted)[k] == card.id;
    }
    LocateReplaced(b, p, inserted, card.id);
    RemoveInserted(cards, k, card);
    WithLayoutRestores(b, p, inserted);
  }

  // ---------------------------------------------------------------------
  // share editing on a card

  /** A card's share editor: whether it is being edited, and the card's
      dictionary. */
  datatype Editor = Editor(editing: bool, entry: Entry)

  /** The editor after editing ends, and the dictionary announced to the
      dialog when the share changed. */
  datatype EditOutcome = EditOutcome(editor: Editor, updated: Option<Entry>)

  /** `_finish_editing`: outside an edit nothing happens; otherwise a
      number typed as a percentage becomes the decimal share and is
      announced, text that is not a number leaves the share as it was, and
      the edit ends either way. */
  function FinishEditing(ed: Editor, text: string, ext: Externals): (o: EditOutcome)
    ensures !o.editor.editing
    ensures !ed.editing ==> o.editor == ed && o.updated.None?
    ensures o.editor.entry.(share := ed.entry.share) == ed.entry
    ensures ed.editing && ext.parseFloat(text).Some? ==>
              o.editor.entry.share == ext.parseFloat(text).value / 100.0 && o.updated == Some(o.editor.entry)
    ensures ext.parseFloat(text).None? ==> o.editor.entry == ed.entry && o.updated.None?
  {
    if !ed.editing then EditOutcome(ed, None)
    else
      match ext.parseFloat(text)
      case Some(x) =>
        var e := ed.entry.(share := x / 100.0);
        EditOutcome(Editor(false, e), Some(e))
      case None => EditOutcome(Editor(false, ed.entry), None)
  }

  /** Ending an edit a second time changes nothing and announces nothing. */
  lemma FinishEditingTwice(ed: Editor, t1: string, t2: string, ext: Externals)
    ensures FinishEditing(FinishEditing(ed, t1, ext).editor, t2, ext)
            == EditOutcome(FinishEditing(ed, t1, ext).editor, None)
  {
  }

  /** Replacing a card by one with the same identity keeps the layout's
      identities. */
  lemma ReplaceKeepsIds(cards: seq<Card>, k: nat, card: Card)
    requires k < |cards| && cards[k].id == card.id
    ensures Ids(cards[k := card]) == Ids(cards)
  {
  }

  /** `_handle_data_update`: the card takes the new dictionary wherever it
      is, and only a change inside a consortium column triggers
      recalculation. */
  function UpdateCard(b: Board, id: nat, e: Entry): (c: Change)
    ensures c.recalc <==> exists i :: 0 <= i < |b.consortia| && id in Ids(b.consortia[i])
    ensures |c.board.consortia| == |b.consortia|
    ensures !c.recalc ==> c.board.consortia == b.consortia
    ensures Locate(b, id).None? ==> c.board == b
    ensures Locate(b, id).Some? ==>
              var p := Locate(b, id).value;
              var before := Layout(b, p);
              ValidPlace(c.board, p)
              && Ids(Layout(c.board, p)) == Ids(before)
              && Card(id, e) in Layout(c.board, p)
              && (forall j :: 0 <= j < |before| && before[j].id != id ==> Layout(c.board, p)[j] == before[j])
              && forall q :: ValidPlace(b, q) && q != p ==> Layout(c.board, q) == Layout(b, q)
  {
    match Locate(b, id)
    case None => Change(b, false)
    case Some(p) =>
      var cards := Layout(b, p);
      var k := IndexOf(Ids(cards), id).value;
      ReplaceKeepsIds(cards, k, Card(id, e));
      var r := WithLayout(b, p, cards[k := Card(id, e)]);
      assert p.Standby? ==> r.consortia == b.consortia;
      Change(r, p.Consortium?)
  }

  /** Which column holds a card depends only on the columns' identities. */
  lemma {:induction false} FirstHoldingByIds(cs: seq<seq<Card>>, ds: seq<seq<Card>>, id: nat)
    requires |cs| == |ds| && forall i :: 0 <= i < |cs| ==> Ids(cs[i]) == Ids(ds[i])
    ensures FirstHolding(cs, id) == FirstHolding(ds, id)
    decreases |cs|
  {
    if cs != [] {
      FirstHoldingByIds(cs[1..], ds[1..], id);
    }
  }

  /** Replacing a layout twice keeps only the second replacement. */
  lemma WithLayoutTwice(b: Board, p: Place, x: seq<Card>, y: seq<Card>)
    requires ValidPlace(b, p)
    ensures WithLayout(WithLayout(b, p, x), p, y) == WithLayout(b, p, y)
  {
    match p
    case Consortium(i) =>
      assert WithLayout(WithLayout(b, p, x), p, y).consortia == b.consortia[i := y];
    case Standby =>
  }

  /** Updating a card twice is updating it once with the later dictionary. */
  lemma UpdateTwice(b: Board, id: nat, e1: Entry, e2: Entry)
    ensures UpdateCard(UpdateCard(b, id, e1).board, id, e2) == UpdateCard(b, id, e2)
  {
    var after := UpdateCard(b, id, e1).board;
    match Locate(b, id)
    case None =>
    case Some(p) =>
      var cards := Layout(b, p);
      var k := IndexOf(Ids(cards), id).value;
      var x := cards[k := Card(id, e1)];
      assert after == WithLayout(b, p, x);
      forall i | 0 <= i < |b.consortia| ensures Ids(after.consortia[i]) == Ids(b.consortia[i]) {
        assert Layout(after, Consortium(i)) == after.consortia[i];
      }
      assert Ids(after.standby) == Ids(b.standby) by {
        assert Layout(after, Standby) == after.standby;
      }
      FirstHoldingByIds(after.consortia, b.consortia, id);
      assert Locate(after, id) == Some(p);
      assert Layout(after, p) == x;
      assert IndexOf(Ids(x), id).value == k;
      assert x[k := Card(id, e2)] == cards[k := Card(id, e2)];
      WithLayoutTwice(b, p, x, cards[k := Card(id, e2)]);
  }

  // ---------------------------------------------------------------------
  // results and re-scoring

  /** `get_results`: one list of dictionaries per consortium column, in
      column order and card order; the standby list is not part of it. */
  function GetResults(b: Board): (r: seq<seq<Entry>>)
    ensures |r| == |b.consortia|
    ensures forall i :: 0 <= i < |r| ==> |r[i]| == |b.consortia[i]|
    ensures forall i, j :: 0 <= i < |r| && 0 <= j < |r[i]| ==> r[i][j] == b.consortia[i][j].entry
  {
    seq(|b.consortia|, i requires 0 <= i < |b.consortia| => Entries(b.consortia[i]))
  }

  /** Every addition, deletion or edit that leaves recalculation off (one
      on the standby list, or of a card that is nowhere) leaves the
      consortium columns, and so the results, as they were. */
  lemma NoRecalcKeepsResults(b: Board, p: Place, card: Card, drop: Option<int>, geoms: seq<Geometry>,
                             id: nat, e: Entry)
    requires ValidPlace(b, p)
    requires drop.Some? ==> |geoms| == |Layout(b, p)|
    ensures var c := AddCard(b, p, card, drop, geoms);
            !c.recalc ==> c.board.consortia == b.consortia && GetResults(c.board) == GetResults(b)
    ensures var c := DeleteCard(b, id);
            !c.recalc ==> c.board.consortia == b.consortia && GetResults(c.board) == GetResults(b)
    ensures var c := UpdateCard(b, id, e);
            !c.recalc ==> c.board.consortia == b.consortia && GetResults(c.board) == GetResults(b)
  {
    var c := AddCard(b, p, card, drop, geoms);
    if !c.recalc {
      forall i | 0 <= i < |b.consortia| ensures c.board.consortia[i] == b.consortia[i] {
        assert Layout(c.board, Consortium(i)) == Layout(b, Consortium(i));
      }
    }
  }

  /** Adding a card to the end of a consortium column adds its dictionary
      to the end of that consortium's results and nowhere else. */
  lemma AddExtendsResults(b: Board, i: nat, card: Card)
    requires i < |b.consortia|
    ensures GetResults(AddCard(b, Consortium(i), card, None, []).board)
            == GetResults(b)[i := GetResults(b)[i] + [card.entry]]
  {
    var after := AddCard(b, Consortium(i), card, None, []).board;
    var r := GetResults(after);
    var want := GetResults(b)[i := GetResults(b)[i] + [card.entry]];
    assert |r| == |want|;
    forall j | 0 <= j < |r| ensures r[j] == want[j] {
      if j == i {
        assert after.consortia[i] == b.consortia[i] + [card];
      } else {
        assert Layout(after, Consortium(j)) == Layout(b, Consortium(j));
      }
    }
  }

  /** `recalculate_single_consortium`: an empty column gives the empty
      result without consulting the engine; otherwise the engine scores the
      column's dictionaries, and a failure is the empty result too. */
  function RecalcSingle(b: Board, index: nat, engine: seq<Entry> -> Option<ConsortiumResult>): (r: Option<ConsortiumResult>)
    requires index < |b.consortia|
    ensures b.consortia[index] == [] ==> r.None?
    ensures b.consortia[index] != [] ==> r == engine(GetResults(b)[index])
  {
    var members := Entries(b.consortia[index]);
    if members == [] then None else engine(members)
  }

  /** An empty consortium is scored the same whatever the engine does. */
  lemma EmptyIgnoresEngine(b: Board, index: nat, e1: seq<Entry> -> Option<ConsortiumResult>,
                           e2: seq<Entry> -> Option<ConsortiumResult>)
    requires index < |b.consortia| && b.consortia[index] == []
    ensures RecalcSingle(b, index, e1) == RecalcSingle(b, index, e2)
  {
  }

  // ---------------------------------------------------------------------
  // company picked from the search popup

  /** The role a picked company starts with, before it is placed. */
  const Unplaced: string := "구성사 ?"

  /** `_on_company_selected_from_popup`: the dictionary of a picked
      company, with a zero share and its five-year performance parsed, or 0
      when it does not parse. */
  function PopupEntry(selected: Company, ext: Externals): (e: Entry)
    ensures e.role == Some(Unplaced) && e.share == 0.0 && e.name == selected.name
    ensures e.data == Some(selected)
    ensures e.performance5y.Some?
    ensures ext.parseAmount(Get(selected, "5년 실적", VNum(0.0))).None? ==> e.performance5y == Some(0.0)
    ensures ext.parseAmount(Get(selected, "5년 실적", VNum(0.0))).Some? ==>
              e.performance5y == ext.parseAmount(Get(selected, "5년 실적", VNum(0.0)))
  {
    var perf := ext.parseAmount(Get(selected, "5년 실적", VNum(0.0))).GetOr(0.0);
    Entry(Some(Unplaced), selected.name, 0.0, Some(selected), Some(perf), None)
  }

  /** A picked company joins the end of the standby list, the consortium
      columns and their results stay as they were, and nothing is
      recalculated. */
  function OnCompanySelected(b: Board, selected: Company, id: nat, ext: Externals): (c: Change)
    ensures !c.recalc
    ensures c.board.consortia == b.consortia
    ensures c.board.standby == b.standby + [Card(id, PopupEntry(selected, ext))]
  {
    var c := AddCard(b, Standby, Card(id, PopupEntry(selected, ext)), None, []);
    assert c.board.consortia == b.consortia by {
      forall i | 0 <= i < |b.consortia| ensures c.board.consortia[i] == b.consortia[i] {
        assert Layout(c.board, Consortium(i)) == Layout(b, Consortium(i));
      }
    }
    c
  }

  /** The picked company's role names no member row of the spreadsheet:
      the card has to be placed and renamed before it maps to one. */
  lemma UnplacedHasNoRow()
    ensures ConsortiumEntry.RoleOffset(Unplaced) == None
  {
    ConsortiumEntry.RoleOffsetUnnumbered();
  }
}

=== FILE: credentials.dfy ===
/** The encrypted account store: per corporation, per bidding site, the
    account details (a JSON object, here a map of strings). Reading and
    writing the file and the encryption itself are outside the model: the
    file's state and the decryption's outcome are inputs, and a save
    reports what it would write. */
module Credentials {
  import opened Base

  /** One site's account details (`{}` when nothing is stored yet). */
  type Account = map<string, string>

  /** The decrypted JSON object: the site list and the per-corporation
      table. */
  datatype Store = Store(sites: seq<string>, corporations: map<string, map<string, Account>>)

  /** `CredentialsManager`: the loaded data and master password, both
      absent until a load succeeds. */
  datatype Manager = Manager(data: Option<Store>, password: Option<string>)

  const Initial := Manager(None, None)

  const DefaultSites: seq<string> := ["나라장터", "한전", "한수원", "한국도로공사", "국방부", "한국가스공사", "공인인증서"]
  const OurCorps: seq<string> := ["아람이엔테크", "우진일렉트", "에코엠이엔씨", "지음쏠라테크", "대흥디씨티", "지음이엔아이"]
  const ManagedCorps: seq<string> := ["삼영플랜트", "이엘케이", "엠라이테크", "영웅개발", "주요이앤씨"]
  /** The row that separates the two groups in the corporation list; it is
      a corporation key like any other. */
  const Separator := "--- 구분선 ---"
  const DefaultCorps: seq<string> := OurCorps + [Separator] + ManagedCorps

  /** A table with a row for every corporation and, in each row, an empty
      account for every site. */
  function Template(corps: seq<string>, sites: seq<string>): (t: map<string, map<string, Account>>)
    ensures forall c :: c in t <==> c in corps
    ensures forall c :: c in t ==> (forall s :: s in t[c] <==> s in sites)
    ensures forall c, s :: c in t && s in t[c] ==> t[c][s] == map[]
  {
    map c | c in corps :: map s | s in sites :: map[]
  }

  // ---------------------------------------------------------------------
  // loading

  /** The encrypted file: missing, or present with some content. */
  datatype FileState = Missing | Present(bytes: seq<int>)

  /** What decrypting the file's content and parsing it as JSON gives:
      no bytes (`decrypt_data` failed or gave nothing), bytes that are not
      JSON, or a store. */
  datatype Decryption = Undecryptable | Unparsable | Parsed(store: Store)

  /** What a load leaves behind: a return with its success flag, or the
      exception of an unguarded JSON parse, which reaches the caller with
      the manager as it was. */
  datatype LoadOutcome = Returned(manager: Manager, ok: bool) | Raised(manager: Manager)

  /** The load returned `True`. */
  predicate Succeeded(r: LoadOutcome) {
    r.Returned? && r.ok
  }

  /** `load_and_decrypt`: a missing file starts a blank template under the
      given password (and always reports success); a file that decrypts to
      a store is loaded; a file that does not decrypt clears both the data
      and the password; one that decrypts to something that is not JSON
      raises before anything is assigned. */
  function LoadAndDecrypt(m: Manager, password: string, file: FileState, decrypted: Decryption): (r: LoadOutcome)
    ensures Succeeded(r) <==> file.Missing? || decrypted.Parsed?
    ensures r.Raised? <==> file.Present? && decrypted.Unparsable?
    ensures r.Raised? ==> r.manager == m
    ensures Succeeded(r) ==> r.manager.password == Some(password) && r.manager.data.Some?
    ensures r.Returned? && !r.ok ==> r.manager == Manager(None, None)
    ensures file.Missing? ==> r.manager.data == Some(Store(DefaultSites, Template(DefaultCorps, DefaultSites)))
    ensures file.Present? && decrypted.Parsed? ==> r.manager.data == Some(decrypted.store)
  {
    match file
    case Missing => Returned(Manager(Some(Store(DefaultSites, Template(DefaultCorps, DefaultSites))), Some(password)), true)
    case Present(_) =>
      match decrypted
      case Parsed(store) => Returned(Manager(Some(store), Some(password)), true)
      case Unparsable => Raised(m)
      case Undecryptable => Returned(Manager(None, None), false)
  }

  // ---------------------------------------------------------------------
  // saving

  /** What a save would write: the data to encrypt and the password to
      encrypt it with. */
  datatype Written = Written(data: Store, password: string)

  /** `encrypt_and_save`: refused (`None`, the source's `False`) unless both
      the data and the password are set; `writeOk` says whether encrypting
      and writing the file went through. */
  function EncryptAndSave(m: Manager, writeOk: bool): (r: Option<Written>)
    ensures r.Some? <==> m.data.Some? && m.password.Some? && writeOk
    ensures r.Some? ==> r.value == Written(m.data.value, m.password.value)
  {
    if m.data.None? || m.password.None? then None
    else if !writeOk then None
    else Some(Written(m.data.value, m.password.value))
  }

  /** A successful load leaves the manager ready to save exactly what it
      loaded, under the password it was loaded with. */
  lemma LoadThenSave(m: Manager, password: string, file: FileState, decrypted: Decryption)
    requires Succeeded(LoadAndDecrypt(m, password, file, decrypted))
    ensures var loaded := LoadAndDecrypt(m, password, file, decrypted).manager;
            EncryptAndSave(loaded, true) == Some(Written(loaded.data.value, password))
  {
  }

  /** After a failed load nothing can be saved. */
  lemma FailedLoadCannotSave(m: Manager, password: string, file: FileState, decrypted: Decryption, writeOk: bool)
    requires LoadAndDecrypt(m, password, file, decrypted).Returned?
    requires !LoadAndDecrypt(m, password, file, decrypted).ok
    ensures EncryptAndSave(LoadAndDecrypt(m, password, file, decrypted).manager, writeOk).None?
  {
  }

  /** A file that decrypts to something other than JSON does not clear an
      earlier load: a save afterwards writes the earlier store under the
      earlier password, not under the one just tried. */
  lemma UnparsableKeepsEarlierLoad(m: Manager, password: string, bytes: seq<int>)
    requires m.data.Some? && m.password.Some?
    ensures LoadAndDecrypt(m, password, Present(bytes), Unparsable).Raised?
    ensures EncryptAndSave(LoadAndDecrypt(m, password, Present(bytes), Unparsable).manager, true)
            == Some(Written(m.data.value, m.password.value))
  {
  }

  // ---------------------------------------------------------------------
  // updating one account

  /** The stored account of a corporation at a site, if there is one. */
  function Lookup(m: Manager, corp: string, site: string): Option<Account> {
    if m.data.Some? && corp in m.data.value.corporations && site in m.data.value.corporations[corp]
    then Some(m.data.value.corporations[corp][site])
    else None
  }

  /** What an update leaves behind, and whether it reports success. */
  datatype UpdateOutcome = UpdateOutcome(manager: Manager, ok: bool)

  /** `update_credential`: replaces one existing cell; with nothing loaded,
      an unknown corporation or an unknown site it reports failure and
      changes nothing. */
  function UpdateCredential(m: Manager, corp: string, site: string, newData: Account): (r: UpdateOutcome)
    ensures r.ok <==> Lookup(m, corp, site).Some?
    ensures !r.ok ==> r.manager == m
    ensures r.manager.password == m.password
    ensures r.ok ==> r.manager.data.Some? && r.manager.data.value.sites == m.data.value.sites
  {
    if m.data.None? then UpdateOutcome(m, false)
    else
      var store := m.data.value;
      if corp in store.corporations && site in store.corporations[corp] then
        var row := store.corporations[corp][site := newData];
        UpdateOutcome(m.(data := Some(store.(corporations := store.corporations[corp := row]))), true)
      else UpdateOutcome(m, false)
  }

  /** After a successful update the cell holds the new account and every
      other cell, and which cells exist, are as before. */
  lemma UpdateReadsBack(m: Manager, corp: string, site: string, newData: Account, c: string, s: string)
    requires UpdateCredential(m, corp, site, newData).ok
    ensures var after := UpdateCredential(m, corp, site, newData).manager;
            Lookup(after, c, s) == (if c == corp && s == site then Some(newData) else Lookup(m, c, s))
  {
  }

  /** Updating the same cell twice keeps only the second account. */
  lemma UpdateTwice(m: Manager, corp: string, site: string, first: Account, second: Account)
    ensures var once := UpdateCredential(m, corp, site, first).manager;
            UpdateCredential(once, corp, site, second) == UpdateCredential(m, corp, site, second)
  {
    var once := UpdateCredential(m, corp, site, first).manager;
    if m.data.Some? && corp in m.data.value.corporations && site in m.data.value.corporations[corp] {
      var store := m.data.value;
      assert once.data.value.corporations[corp][site := second]
             == store.corporations[corp][site := second];
      assert once.data.value.corporations[corp := once.data.value.corporations[corp][site := second]]
             == store.corporations[corp := store.corporations[corp][site := second]];
    }
  }

  /** On a freshly created store, exactly the listed corporations and sites
      can be updated; the separator is one of the corporations. */
  lemma FreshStoreAcceptsListed(m: Manager, password: string, corp: string, site: string, newData: Account)
    ensures var blank := LoadAndDecrypt(m, password, Missing, Undecryptable).manager;
            UpdateCredential(blank, corp, site, newData).ok <==> corp in DefaultCorps && site in DefaultSites
    ensures Separator in DefaultCorps
  {
    assert DefaultCorps[|OurCorps|] == Separator;
  }

  // ---------------------------------------------------------------------
  // migrating a store to the current lists

  const NewCorps: seq<string> := OurCorps + [Separator] + ManagedCorps
  const NewSites: seq<string> := ["나라장터", "한전", "한수원", "한국도로공사", "국방부", "한국가스공사", "공인인증서"]

  /** The migration of `update_credentials.py`: a blank template for the
      current corporation and site lists, with the whole row of every
      listed corporation carried over from the prior store; corporations no
      longer listed are dropped. */
  function Migrate(prior: Store): (r: Store)
    ensures r.sites == NewSites
    ensures forall c :: c in r.corporations <==> c in NewCorps
    ensures forall c :: c in r.corporations && c in prior.corporations ==> r.corporations[c] == prior.corporations[c]
    ensures forall c :: c in r.corporations && c !in prior.corporations ==> r.corporations[c] == Template(NewCorps, NewSites)[c]
  {
    var blank := Template(NewCorps, NewSites);
    Store(NewSites, map c | c in blank :: if c in prior.corporations then prior.corporations[c] else blank[c])
  }

  /** The migration run: it stops (`None`) when the load fails, raises or
      loads nothing, and otherwise saves the migrated store. */
  function RunMigration(load: LoadOutcome): (r: Option<Store>)
    ensures r.Some? <==> Succeeded(load) && load.manager.data.Some?
    ensures r.Some? ==> r.value == Migrate(load.manager.data.value)
  {
    if !Succeeded(load) || load.manager.data.None? then None else Some(Migrate(load.manager.data.value))
  }

  /** Migrating twice is migrating once. */
  lemma MigrateIdempotent(prior: Store)
    ensures Migrate(Migrate(prior)) == Migrate(prior)
  {
  }

  /** The lists have not changed since the template was first written, so a
      store created blank migrates to itself. */
  lemma FreshStoreMigratesToItself()
    ensures Migrate(Store(DefaultSites, Template(DefaultCorps, DefaultSites)))
            == Store(DefaultSites, Template(DefaultCorps, DefaultSites))
  {
  }
}

=== FILE: ex_dialog.dfy ===
/** The earlier consortium result dialog: one list per consortium and a
    standby list, companies added from a name-and-share entry, dropped
    onto the row under the cursor, deleted from whichever list holds them,
    and read back per consortium. It shares the board of the current
    consortium manager: cards in consortium columns and a standby list. */
module ExDialog {
  import opened Base
  import opened Records
  import opened ConsortiumManager

  /** The cards of one list as the dialog creates them, numbered from
      `next`. */
  function CardsFrom(entries: seq<Entry>, next: nat): (cards: seq<Card>)
    ensures Entries(cards) == entries
    ensures forall j :: 0 <= j < |cards| ==> cards[j].id == next + j
  {
    var cards := seq(|entries|, j requires 0 <= j < |entries| => Card(next + j, entries[j]));
    assert Entries(cards) == entries;
    cards
  }

  /** The dialog as it opens on `consortiums_data`: each consortium's
      companies added in order to its own list, the standby list empty. */
  function Build(data: seq<seq<Entry>>, next: nat): (b: Board)
    ensures b.standby == [] && |b.consortia| == |data|
    ensures forall i :: 0 <= i < |data| ==> Entries(b.consortia[i]) == data[i]
    decreases |data|
  {
    if data == [] then Board([], [])
    else
      var rest := Build(data[1..], next + |data[0]|);
      Board([CardsFrom(data[0], next)] + rest.consortia, [])
  }

  /** Reading the results of a freshly opened dialog gives back the data it
      was opened on. */
  lemma BuildResults(data: seq<seq<Entry>>, next: nat)
    ensures GetResults(Build(data, next)) == data
  {
  }

  /** `add_company_to_list`: `under` is the row of the item under a drop
      position (`None` without a drop or when no item is there); the card
      goes in at that row, or at the end. */
  function AddToList(b: Board, p: Place, card: Card, under: Option<nat>): (r: Board)
    requires ValidPlace(b, p)
    requires under.Some? ==> under.value < |Layout(b, p)|
    ensures ValidPlace(r, p) && |r.consortia| == |b.consortia|
    ensures under.None? ==> Layout(r, p) == Layout(b, p) + [card]
    ensures under.Some? ==> Layout(r, p) == Layout(b, p)[..under.value] + [card] + Layout(b, p)[under.value..]
    ensures forall q :: ValidPlace(b, q) && q != p ==> Layout(r, q) == Layout(b, q)
  {
    var cards := Layout(b, p);
    var k := if under.Some? then under.value else |cards|;
    assert under.None? ==> Insert(cards, k, card) == cards + [card];
    WithLayout(b, p, Insert(cards, k, card))
  }

  /** `_handle_delete_item`: the card leaves the first list holding it —
      consortium lists in order, then the standby list — and no other
      list changes; a card in no list changes nothing. */
  function DeleteItem(b: Board, id: nat): (r: Board)
    ensures Locate(b, id).None? ==> r == b
    ensures Locate(b, id).Some? ==>
              var p := Locate(b, id).value;
              ValidPlace(r, p) && Layout(r, p) == RemoveCard(Layout(b, p), id)
              && forall q :: ValidPlace(b, q) && q != p ==> ValidPlace(r, q) && Layout(r, q) == Layout(b, q)
  {
    match Locate(b, id)
    case None => b
    case Some(p) => WithLayout(b, p, RemoveCard(Layout(b, p), id))
  }

  /** The two dialogs delete alike. */
  lemma DeleteAsManager(b: Board, id: nat)
    ensures DeleteItem(b, id) == DeleteCard(b, id).board
  {
  }

  /** Deleting a card just added, under an identity new to the dialog,
      gives the dialog back. */
  lemma AddThenDeleteItem(b: Board, p: Place, card: Card, under: Option<nat>)
    requires ValidPlace(b, p)
    requires under.Some? ==> under.value < |Layout(b, p)|
    requires card.id !in Ids(b.standby)
    requires forall i :: 0 <= i < |b.consortia| ==> card.id !in Ids(b.consortia[i])
    ensures DeleteItem(AddToList(b, p, card, under), card.id) == b
  {
    var cards := Layout(b, p);
    var k := if under.Some? then under.value else |cards|;
    var inserted := Insert(cards, k, card);
    assert AddToList(b, p, card, under) == WithLayout(b, p, inserted);
    assert card.id !in Ids(cards);
    assert card.id in Ids(inserted) by {
      assert Ids(inserted)[k] == card.id;
    }
    LocateReplaced(b, p, inserted, card.id);
    RemoveInserted(cards, k, card);
    WithLayoutRestores(b, p, inserted);
  }

  /** `_handle_add_company`: the entry's company, when there is one, joins
      the end of the standby list under identity `id`; a blank entry
      changes nothing. */
  function HandleAddCompany(b: Board, text: string, ext: Externals, id: nat): (r: Board)
    ensures r.consortia == b.consortia
    ensures GetCompanyInfo(text, ext).None? ==> r == b
    ensures GetCompanyInfo(text, ext).Some? ==> r.standby == b.standby + [Card(id, GetCompanyInfo(text, ext).value)]
  {
    match GetCompanyInfo(text, ext)
    case None => b
    case Some(e) =>
      var r := AddToList(b, Standby, Card(id, e), None);
      assert Layout(r, Standby) == r.standby;
      r
  }

  /** Adding a company never changes the results: new companies wait in
      the standby list. */
  lemma AddCompanyKeepsResults(b: Board, text: string, ext: Externals, id: nat)
    ensures GetResults(HandleAddCompany(b, text, ext, id)) == GetResults(b)
  {
  }
}

=== FILE: guided_copy.dfy ===
/** The step-by-step copy dialog: it walks through the copy chunks one at
    a time, shows the current step and instruction, copies the current
    chunk's data, and accepts when "next" is pressed on the last step. The
    clipboard is modelled by returning the copied text. */
module GuidedCopy {
  import opened Base
  import opened Text
  import opened Numbers
  import ConsortiumEntry

  /** The dialog's state: the chunks, the current step and whether the
      dialog has been accepted. */
  datatype Guide = Guide(chunks: seq<ConsortiumEntry.Chunk>, step: nat, accepted: bool)

  /** The current step names a chunk. */
  predicate Valid(g: Guide) {
    g.step < |g.chunks|
  }

  /** Opening the dialog: the first step, not accepted. Without chunks the
      first screen update fails (`None`). */
  function Open(chunks: seq<ConsortiumEntry.Chunk>): (g: Option<Guide>)
    ensures g.None? <==> chunks == []
    ensures g.Some? ==> Valid(g.value) && g.value.step == 0 && !g.value.accepted && g.value.chunks == chunks
  {
    if chunks == [] then None else Some(Guide(chunks, 0, false))
  }

  /** `go_to_next_step`: the next chunk while there is one; on the last
      step the dialog is accepted instead. */
  function Next(g: Guide): (r: Guide)
    requires Valid(g)
    ensures Valid(r) && r.chunks == g.chunks
    ensures g.step < |g.chunks| - 1 ==> r.step == g.step + 1 && r.accepted == g.accepted
    ensures g.step == |g.chunks| - 1 ==> r.step == g.step && r.accepted
  {
    if g.step < |g.chunks| - 1 then g.(step := g.step + 1) else g.(accepted := true)
  }

  /** Pressing "next" `k` times. */
  function Press(g: Guide, k: nat): (r: Guide)
    requires Valid(g)
    ensures Valid(r)
    decreases k
  {
    if k == 0 then g else Press(Next(g), k - 1)
  }

  /** After `k` presses from the opening state the step is `k`, held at the
      last chunk, and the dialog is accepted exactly when a press fell on
      the last step. */
  lemma {:induction false} PressFromOpen(chunks: seq<ConsortiumEntry.Chunk>, k: nat)
    requires chunks != []
    ensures Press(Open(chunks).value, k).step == (if k < |chunks| then k else |chunks| - 1)
    ensures Press(Open(chunks).value, k).accepted <==> k >= |chunks|
  {
    PressFrom(Guide(chunks, 0, false), k);
  }

  lemma {:induction false} PressFrom(g: Guide, k: nat)
    requires Valid(g) && !g.accepted
    ensures Press(g, k).step == (if g.step + k < |g.chunks| then g.step + k else |g.chunks| - 1)
    ensures Press(g, k).accepted <==> g.step + k >= |g.chunks|
    ensures Press(g, k).chunks == g.chunks
    decreases k
  {
    if k > 0 {
      var n := Next(g);
      if g.step < |g.chunks| - 1 {
        PressFrom(n, k - 1);
      } else {
        PressAccepted(n, k - 1);
      }
    }
  }

  /** Once accepted, further presses keep the dialog on the last step. */
  lemma {:induction false} PressAccepted(g: Guide, k: nat)
    requires Valid(g) && g.accepted && g.step == |g.chunks| - 1
    ensures Press(g, k) == g
    decreases k
  {
    if k > 0 {
      assert Next(g) == g;
      PressAccepted(g, k - 1);
    }
  }

  /** The text of the "next" button. */
  function NextButton(g: Guide): string {
    if g.step == |g.chunks| - 1 then "완료 ✔" else "다음 ▶"
  }

  /** The button reads "완료 ✔" exactly on the step whose press accepts the
      dialog. */
  lemma FinishButtonAccepts(g: Guide)
    requires Valid(g) && !g.accepted
    ensures NextButton(g) == "완료 ✔" <==> Next(g).accepted
  {
  }

  /** The step heading: the current step counted from 1 over the number of
      chunks. */
  function StepLabel(g: Guide): string {
    "<b>[ " + NatToString(g.step + 1) + " / " + NatToString(|g.chunks|) + " 단계 ]</b>"
  }

  /** The heading around two words without spaces splits back into its
      six words. */
  lemma HeadingWords(a: string, b: string)
    requires ' ' !in a && ' ' !in b
    ensures Split("<b>[ " + a + " / " + b + " 단계 ]</b>", " ") == ["<b>[", a, "/", b, "단계", "]</b>"]
  {
    var parts := ["<b>[", a, "/", b, "단계", "]</b>"];
    var j5 := Join(parts[5..], " ");
    assert j5 == "]</b>";
    var j4 := Join(parts[4..], " ");
    JoinCons("단계", parts[5..], " ");
    assert parts[4..] == ["단계"] + parts[5..];
    var j3 := Join(parts[3..], " ");
    JoinCons(b, parts[4..], " ");
    assert parts[3..] == [b] + parts[4..];
    var j2 := Join(parts[2..], " ");
    JoinCons("/", parts[3..], " ");
    assert parts[2..] == ["/"] + parts[3..];
    var j1 := Join(parts[1..], " ");
    JoinCons(a, parts[2..], " ");
    assert parts[1..] == [a] + parts[2..];
    JoinCons("<b>[", parts[1..], " ");
    assert parts == ["<b>["] + parts[1..];
    assert Join(parts, " ") == "<b>[ " + a + " / " + b + " 단계 ]</b>";
    assert " " == [' '];
    SplitJoin(parts, ' ');
  }

  /** The words of the heading, read back, give the step counted from 1 and
      the number of chunks. */
  lemma StepLabelNumbers(g: Guide)
    ensures |Split(StepLabel(g), " ")| == 6
    ensures ParseInt(Split(StepLabel(g), " ")[1]) == Some(g.step + 1)
    ensures ParseInt(Split(StepLabel(g), " ")[3]) == Some(|g.chunks|)
  {
    StepLabelWords(g);
    var words := Split(StepLabel(g), " ");
    assert words[1] == NatToString(g.step + 1) && words[3] == NatToString(|g.chunks|);
    ParseIntOfNat(g.step + 1);
    ParseIntOfNat(|g.chunks|);
  }

  lemma StepLabelWords(g: Guide)
    ensures Split(StepLabel(g), " ")
            == ["<b>[", NatToString(g.step + 1), "/", NatToString(|g.chunks|), "단계", "]</b>"]
  {
    var a := NatToString(g.step + 1);
    var b := NatToString(|g.chunks|);
    DigitsHaveNoSpace(a);
    DigitsHaveNoSpace(b);
    assert StepLabel(g) == "<b>[ " + a + " / " + b + " 단계 ]</b>";
    HeadingWords(a, b);
  }

  lemma DigitsHaveNoSpace(s: string)
    requires AllDigits(s)
    ensures ' ' !in s
  {
    assert forall i :: 0 <= i < |s| ==> IsDigit(s[i]);
  }

  /** The instruction shown for the current step. */
  function Instruction(g: Guide): (text: string)
    requires Valid(g)
  {
    g.chunks[g.step].instruction
  }

  /** `copy_current_chunk`: the text put on the clipboard. */
  function Copy(g: Guide): (text: string)
    requires Valid(g)
  {
    g.chunks[g.step].data
  }

  /** Walking through the dialog from the start copies the chunks in order:
      after `k` presses, short of the last chunk, the copy is chunk `k`. */
  lemma CopyFollowsSteps(chunks: seq<ConsortiumEntry.Chunk>, k: nat)
    requires k < |chunks|
    ensures Copy(Press(Open(chunks).value, k)) == chunks[k].data
    ensures Instruction(Press(Open(chunks).value, k)) == chunks[k].instruction
  {
    PressFromOpen(chunks, k);
    PressFrom(Open(chunks).value, k);
  }
}

=== FILE: jodal.dfy ===
/** The procurement-agency consortium view. Its member rows, share entry,
    regional check, duplicate guard and bid amount are those of
    `ConsortiumEntry`; this module holds what differs: the performance
    target read from the notice base amount, the bulk consortium message,
    and the single-result deletion. */
module JodalView {
  import opened Base
  import opened Text
  import opened Records
  import ConsortiumEntry

  /** The performance target of this view: the notice base amount, not the
      estimated price, times the rule's multiplier. Unlike the other view it
      stops first when no rule is chosen, leaving the target empty (0). */
  function PerformanceTarget(estimationText: string, ruleKey: string, noticeBaseText: string,
                             multiplier: Option<real>, ext: Externals): (r: real)
    ensures ruleKey == [] ==> r == 0.0
    ensures ext.parseAmount(VStr(noticeBaseText)).None? ==> r == 0.0
    ensures multiplier.GetOr(1.0) != 0.0 ==> (r != 0.0 <==>
              ruleKey != []
              && ext.parseAmount(VStr(noticeBaseText)).Some?
              && ext.parseAmount(VStr(noticeBaseText)).value != 0.0)
    ensures ruleKey != [] ==>
              r == ext.parseAmount(VStr(noticeBaseText)).GetOr(0.0) * multiplier.GetOr(1.0)
  {
    if ruleKey == [] then 0.0
    else ConsortiumEntry.PerformanceTarget(noticeBaseText, multiplier, ext)
  }

  /** Once a rule is chosen, its multiplier scales the target read from the
      notice base amount alone. */
  lemma TargetScales(estimationText: string, ruleKey: string, noticeBaseText: string,
                     m: real, ext: Externals)
    requires ruleKey != []
    ensures PerformanceTarget(estimationText, ruleKey, noticeBaseText, Some(m), ext)
            == ConsortiumEntry.PerformanceTarget(noticeBaseText, None, ext) * m
  {
    ConsortiumEntry.PerformanceTargetScales(noticeBaseText, m, ext);
  }

  /** The estimated price plays no part in this view's target. */
  lemma TargetIgnoresEstimate(e1: string, e2: string, ruleKey: string, noticeBaseText: string,
                              multiplier: Option<real>, ext: Externals)
    ensures PerformanceTarget(e1, ruleKey, noticeBaseText, multiplier, ext)
            == PerformanceTarget(e2, ruleKey, noticeBaseText, multiplier, ext)
  {
  }

  // ---------------------------------------------------------------------
  // consortium messages

  const Separator: string := "\n\n---------------------\n\n"

  /** The request that ends a message: a single company is asked to bid,
      several are asked to form the consortium. */
  function Closing(count: nat): string {
    if count == 1 then "입찰참여 부탁드립니다" else "협정 부탁드립니다"
  }

  /** The business registration number shown for a non-lead member. */
  function BizNo(d: Detail, ext: Externals): string {
    Str(Get(d.data, "사업자번호", VStr("번호없음")), ext)
  }

  /** One member line: name and percentage share, and for every member but
      the lead its registration number in brackets. */
  function MemberLine(d: Detail, ext: Externals): (line: string)
    ensures StartsWith(line, d.name + " ")
    ensures d.role != ConsortiumEntry.Lead <==>
              line == d.name + " " + ext.showG(d.share * 100.0) + "%" + " [" + BizNo(d, ext) + "]"
    ensures d.role == ConsortiumEntry.Lead ==> line == d.name + " " + ext.showG(d.share * 100.0) + "%"
  {
    var base := d.name + " " + ext.showG(d.share * 100.0) + "%";
    assert (base + " [" + BizNo(d, ext) + "]")[..|d.name + " "|] == d.name + " ";
    assert base[..|d.name + " "|] == d.name + " ";
    if d.role != ConsortiumEntry.Lead then base + " [" + BizNo(d, ext) + "]" else base
  }

  /** The lines of the message for one result. */
  function MessageLines(res: ConsortiumResult, ext: Externals): (lines: seq<string>)
    ensures |lines| == |res.details| + 5
    ensures lines[0] == "공고번호: " + res.gongoNo && lines[1] == "공고명: " + res.gongoTitle
    ensures lines[2] == "" && lines[|lines| - 2] == ""
    ensures forall k :: 0 <= k < |res.details| ==> lines[3 + k] == MemberLine(res.details[k], ext)
    ensures lines[|lines| - 1] == "입찰참여 부탁드립니다" <==> |res.details| == 1
  {
    ["공고번호: " + res.gongoNo, "공고명: " + res.gongoTitle, ""]
    + seq(|res.details|, k requires 0 <= k < |res.details| => MemberLine(res.details[k], ext))
    + ["", Closing(|res.details|)]
  }

  /** The message for one result. */
  function Message(res: ConsortiumResult, ext: Externals): string {
    Join(MessageLines(res, ext), "\n")
  }

  /** Breaking a message at newlines gives back its lines, as long as no
      name, title or number holds a newline itself. */
  lemma MessageRoundTrip(res: ConsortiumResult, ext: Externals)
    requires forall k :: 0 <= k < |MessageLines(res, ext)| ==> '\n' !in MessageLines(res, ext)[k]
    ensures Split(Message(res, ext), "\n") == MessageLines(res, ext)
  {
    SplitJoin(MessageLines(res, ext), '\n');
  }

  /** `generate_consortium_messages`: every result's message, separated by a
      dashed line; no results gives the warning instead (`None`). */
  function AllMessages(results: seq<ConsortiumResult>, ext: Externals): (r: Option<string>)
    ensures r.None? <==> results == []
    ensures |results| == 1 ==> r == Some(Message(results[0], ext))
  {
    if results == [] then None
    else Some(Join(Messages(results, ext), Separator))
  }

  /** The message of every result, in order. */
  function Messages(results: seq<ConsortiumResult>, ext: Externals): (ms: seq<string>)
    ensures |ms| == |results|
    ensures forall i :: 0 <= i < |results| ==> ms[i] == Message(results[i], ext)
  {
    seq(|results|, i requires 0 <= i < |results| => Message(results[i], ext))
  }

  /** One more result adds the dashed separator and its message at the
      end of the text. */
  lemma AllMessagesAppend(results: seq<ConsortiumResult>, res: ConsortiumResult, ext: Externals)
    requires results != []
    ensures AllMessages(results + [res], ext)
            == Some(AllMessages(results, ext).value + Separator + Message(res, ext))
  {
    assert Messages(results + [res], ext) == Messages(results, ext) + [Message(res, ext)];
    JoinSnoc(Messages(results, ext), Message(res, ext), Separator);
  }

  // ---------------------------------------------------------------------
  // single-result deletion

  /** `delete_single_result` as this view has it: after the confirmation
      prompt the function ends, so nothing is removed even on "Yes". */
  function DeleteSingleResultAsWritten<T(==)>(results: seq<T>, w: T, reply: ConsortiumEntry.Reply): (r: seq<T>)
    ensures multiset(r)[w] == multiset(results)[w]
  {
    results
  }

  /** A confirmed deletion of a listed result leaves it in the list. */
  lemma ConfirmedDeleteKeepsResult<T>(results: seq<T>, w: T)
    requires w in results
    ensures w in DeleteSingleResultAsWritten(results, w, ConsortiumEntry.Yes)
    ensures |DeleteSingleResultAsWritten(results, w, ConsortiumEntry.Yes)| == |results|
  {
  }

  /** The intended deletion, as the other view performs it, removes one
      copy of a confirmed result. */
  lemma CorrectedDeleteRemoves<T>(results: seq<T>, w: T)
    requires w in results
    ensures multiset(ConsortiumEntry.DeleteSingleResult(results, w, ConsortiumEntry.Yes))[w]
            == multiset(results)[w] - 1
  {
  }
}

=== FILE: load_popup.dfy ===
/** The dialog that loads saved consortium files: reading the save folder,
    the project-type and region filter choices, the filtered list sorted by
    save date, and the checked selection. The folder listing and the
    outcome of reading each file are inputs. */
module LoadPopup {
  import opened Base
  import opened Text
  import Ordering

  /** A saved file's dictionary, reduced to the keys this dialog reads; a
      key the file does not have is `None`. */
  datatype Saved = Saved(
    projectType: Option<string>,
    regionLimit: Option<string>,
    savedName: Option<string>,
    savedDate: Option<string>,
    filename: Option<string>)

  /** What reading one file gives: it could not be read or parsed, it holds
      JSON that is not an object, or it holds an object. */
  datatype Content = Unreadable | NotDict | Dict(saved: Saved)

  /** One name in the save folder with what reading it gives. */
  datatype DirEntry = DirEntry(name: string, content: Content)

  /** A file is kept when its name ends in ".json" and it holds an object. */
  predicate Kept(e: DirEntry) {
    EndsWith(e.name, ".json") && e.content.Dict?
  }

  /** A kept file's dictionary with its file name added. */
  function Tagged(e: DirEntry): Saved
    requires e.content.Dict?
  {
    e.content.saved.(filename := Some(e.name))
  }

  /** The kept entries tagged with their names, in listing order. */
  function Tags(kept: seq<DirEntry>): (r: seq<Saved>)
    requires forall i :: 0 <= i < |kept| ==> kept[i].content.Dict?
    ensures |r| == |kept| && forall i :: 0 <= i < |r| ==> r[i] == Tagged(kept[i])
  {
    seq(|kept|, i requires 0 <= i < |kept| => Tagged(kept[i]))
  }

  /** `scan_and_read_files`: nothing when the folder is missing; otherwise
      every ".json" file holding an object, tagged with its file name, in
      listing order, and nothing else. */
  function ScanAndRead(folderExists: bool, listing: seq<DirEntry>): (r: seq<Saved>)
    ensures !folderExists ==> r == []
    ensures |r| <= |listing|
    ensures forall i :: 0 <= i < |r| ==> r[i].filename.Some? && EndsWith(r[i].filename.value, ".json")
    ensures forall i :: 0 <= i < |r| ==> exists e :: e in listing && Kept(e) && r[i] == Tagged(e)
    ensures folderExists ==> forall e :: e in listing && Kept(e) ==> Tagged(e) in r
  {
    if folderExists then
      var kept := Filter(Kept, listing);
      var r := Tags(kept);
      assert forall e :: e in listing && Kept(e) ==> Tagged(e) in r by {
        forall e | e in listing && Kept(e) ensures Tagged(e) in r {
          var i :| 0 <= i < |kept| && kept[i] == e;
          assert r[i] == Tagged(e);
        }
      }
      r
    else []
  }

  lemma TagsAppend(ka: seq<DirEntry>, kb: seq<DirEntry>)
    requires forall i :: 0 <= i < |ka| ==> ka[i].content.Dict?
    requires forall i :: 0 <= i < |kb| ==> kb[i].content.Dict?
    ensures Tags(ka + kb) == Tags(ka) + Tags(kb)
  {
    assert forall i :: 0 <= i < |ka + kb| ==> (ka + kb)[i].content.Dict?;
    assert forall i :: 0 <= i < |ka + kb| ==> Tags(ka + kb)[i] == (Tags(ka) + Tags(kb))[i];
  }

  /** Reading a listing in two parts reads each part in turn. */
  lemma ScanAppend(a: seq<DirEntry>, b: seq<DirEntry>)
    ensures ScanAndRead(true, a + b) == ScanAndRead(true, a) + ScanAndRead(true, b)
  {
    FilterAppend(Kept, a, b);
    TagsAppend(Filter(Kept, a), Filter(Kept, b));
  }

  // ---------------------------------------------------------------------
  // filter choices

  const AllTypes: string := "전체 공사"
  const AllRegions: string := "전체 지역"

  /** The project type a file shows, "기타" when it has none. */
  function TypeShown(d: Saved): string {
    d.projectType.GetOr("기타")
  }

  /** The region a file shows, "전체" when it has none. */
  function RegionShown(d: Saved): string {
    d.regionLimit.GetOr("전체")
  }

  function TypesShown(files: seq<Saved>): (ts: seq<string>)
    ensures forall y :: y in ts <==> exists f :: f in files && TypeShown(f) == y
  {
    var ts := seq(|files|, i requires 0 <= i < |files| => TypeShown(files[i]));
    assert forall f :: f in files ==> TypeShown(f) in ts by {
      forall f | f in files ensures TypeShown(f) in ts {
        var i :| 0 <= i < |files| && files[i] == f;
        assert ts[i] == TypeShown(f);
      }
    }
    ts
  }

  function RegionsShown(files: seq<Saved>): (rs: seq<string>)
    ensures forall y :: y in rs <==> exists f :: f in files && RegionShown(f) == y
  {
    var rs := seq(|files|, i requires 0 <= i < |files| => RegionShown(files[i]));
    assert forall f :: f in files ==> RegionShown(f) in rs by {
      forall f | f in files ensures RegionShown(f) in rs {
        var i :| 0 <= i < |files| && files[i] == f;
        assert rs[i] == RegionShown(f);
      }
    }
    rs
  }

  /** The project-type choices: the wildcard first, then every type a file
      shows, once each, in increasing order. */
  function TypeChoices(files: seq<Saved>): (r: seq<string>)
    ensures |r| >= 1 && r[0] == AllTypes
    ensures Ordering.StrictlyIncreasing(r[1..])
    ensures forall y :: y in r[1..] <==> exists f :: f in files && TypeShown(f) == y
  {
    [AllTypes] + Ordering.SortedUnique(TypesShown(files))
  }

  /** The region choices: the wildcard first, then every region a file
      shows, once each, in increasing order. */
  function RegionChoices(files: seq<Saved>): (r: seq<string>)
    ensures |r| >= 1 && r[0] == AllRegions
    ensures Ordering.StrictlyIncreasing(r[1..])
    ensures forall y :: y in r[1..] <==> exists f :: f in files && RegionShown(f) == y
  {
    [AllRegions] + Ordering.SortedUnique(RegionsShown(files))
  }

  /** The choices depend only on which files there are, not on the order
      the folder lists them in. */
  lemma ChoicesIgnoreOrder(files1: seq<Saved>, files2: seq<Saved>)
    requires multiset(files1) == multiset(files2)
    ensures TypeChoices(files1) == TypeChoices(files2)
    ensures RegionChoices(files1) == RegionChoices(files2)
  {
    assert forall f :: f in files1 <==> f in files2 by {
      forall f ensures f in files1 <==> f in files2 {
        assert f in files1 <==> f in multiset(files1);
        assert f in files2 <==> f in multiset(files2);
      }
    }
    Ordering.SortedUniqueCanonical(TypesShown(files1), TypesShown(files2));
    Ordering.SortedUniqueCanonical(RegionsShown(files1), RegionsShown(files2));
  }

  // ---------------------------------------------------------------------
  // the list

  /** The filter as written: a file's own project type and region are
      compared with the choice, so a file that lacks the key never matches
      the "기타" or "전체" choice it contributed. */
  predicate MatchesAsWritten(typeChoice: string, regionChoice: string, d: Saved) {
    (typeChoice == AllTypes || d.projectType == Some(typeChoice))
    && (regionChoice == AllRegions || d.regionLimit == Some(regionChoice))
  }

  /** The filter compared on the values the choices were built from. */
  predicate Matches(typeChoice: string, regionChoice: string, d: Saved) {
    (typeChoice == AllTypes || TypeShown(d) == typeChoice)
    && (regionChoice == AllRegions || RegionShown(d) == regionChoice)
  }

  /** A file without a project type offers "기타" as a choice, and that
      choice, as written, lists nothing. */
  lemma AsWrittenChoiceListsNothing()
    ensures var files := [Saved(None, Some("서울"), Some("협정"), Some("2024-05-01 10:00"), Some("a.json"))];
            "기타" in TypeChoices(files)[1..]
            && PopulateList(files, "기타", AllRegions) == []
            && PopulateListCorrected(files, "기타", AllRegions) != []
  {
    var files := [Saved(None, Some("서울"), Some("협정"), Some("2024-05-01 10:00"), Some("a.json"))];
    assert TypeShown(files[0]) == "기타";
    assert files[0] in files;
    assert Matches("기타", AllRegions, files[0]);
  }

  /** The date part of a save date: the text before its first space. */
  function DatePart(date: string): (r: string)
    ensures ' ' !in r && StartsWith(date, r)
    ensures |r| < |date| ==> date[|r|] == ' '
  {
    assert forall j :: 0 <= j < |date| ==> date[j..j + 1] == [date[j]];
    assert " " == [' '];
    assert forall j :: 0 <= j < |date| ==> (OccursAt(date, " ", j) <==> date[j] == ' ');
    var parts := Split(date, " ");
    match Find(date, " ")
    case None =>
      assert forall j :: 0 <= j < |date| ==> !OccursAt(date, " ", j);
      assert parts == [date];
      parts[0]
    case Some(i) =>
      assert date[i] == ' ';
      assert forall j :: 0 <= j < i ==> !OccursAt(date, " ", j);
      assert forall j :: 0 <= j < i ==> date[..i][j] == date[j];
      assert parts[0] == date[..i];
      parts[0]
  }

  /** The date part of "day time" is the day, and a date without a space is
      its own date part. */
  lemma DatePartOfDay(day: string, rest: string)
    requires ' ' !in day
    ensures DatePart(day + " " + rest) == day
    ensures DatePart(day) == day
  {
    var date := day + " " + rest;
    var r := DatePart(date);
    assert date[|day|] == ' ';
    assert r == date[..|r|] == day;
    var r2 := DatePart(day);
    assert r2 == day[..|r2|];
  }

  /** The text of a list row: "[date] name  [region] [type]". */
  function DisplayText(d: Saved): string {
    "[" + DatePart(d.savedDate.GetOr("")) + "] " + d.savedName.GetOr("이름 없음")
    + "  [" + RegionShown(d) + "] [" + TypeShown(d) + "]"
  }

  /** The row background for the three specialty project types. */
  function Background(d: Saved): Option<string> {
    match d.projectType
    case Some("전기") => Some("#FFFACD")
    case Some("통신") => Some("#E0FFFF")
    case Some("소방") => Some("#FFE4E1")
    case _ => None
  }

  /** One row of the list: its text, background and the file it loads. */
  datatype Row = Row(text: string, background: Option<string>, data: Saved)

  /** The key the list is sorted by: the save date, "" when absent. */
  function DateKey(d: Saved): string {
    d.savedDate.GetOr("")
  }

  /** Filtering keeps a non-increasing order. */
  lemma {:induction false} FilterNonIncreasing<T>(key: T -> string, p: T -> bool, s: seq<T>)
    requires Ordering.NonIncreasing(key, s)
    ensures Ordering.NonIncreasing(key, Filter(p, s))
    decreases |s|
  {
    if s != [] {
      FilterNonIncreasing(key, p, s[1..]);
      var rest := Filter(p, s[1..]);
      forall j | 0 <= j < |rest| ensures !Ordering.Less(key(s[0]), key(rest[j])) {
        var k :| 0 <= k < |s[1..]| && s[1..][k] == rest[j];
        assert s[k + 1] == rest[j];
      }
      if p(s[0]) {
        var r := [s[0]] + rest;
        assert Filter(p, s) == r;
        forall i, j | 0 <= i < j < |r| ensures !Ordering.Less(key(r[i]), key(r[j])) {
          assert r[j] == rest[j - 1];
          if i > 0 {
            assert r[i] == rest[i - 1];
          }
        }
      } else {
        assert Filter(p, s) == rest;
      }
    }
  }

  /** One list row per file, in order. */
  function RowsOf(listed: seq<Saved>): (rows: seq<Row>)
    ensures |rows| == |listed|
    ensures forall i :: 0 <= i < |rows| ==> rows[i] == Row(DisplayText(listed[i]), Background(listed[i]), listed[i])
  {
    seq(|listed|, i requires 0 <= i < |listed| => Row(DisplayText(listed[i]), Background(listed[i]), listed[i]))
  }

  /** A sequence and a permutation of it hold the same elements. */
  lemma SameElements<T>(a: seq<T>, b: seq<T>)
    requires multiset(a) == multiset(b)
    ensures forall d :: d in a <==> d in b
  {
    forall d ensures d in a <==> d in b {
      assert d in a <==> d in multiset(a);
      assert d in b <==> d in multiset(b);
    }
  }

  /** Every element kept by a filter shows up in the rows made from it. */
  lemma RowsComplete(files: seq<Saved>, p: Saved -> bool, sorted: seq<Saved>)
    requires forall d :: d in sorted <==> d in files
    ensures forall f :: f in files && p(f) ==>
              exists i :: 0 <= i < |RowsOf(Filter(p, sorted))| && RowsOf(Filter(p, sorted))[i].data == f
  {
    var listed := Filter(p, sorted);
    var rows := RowsOf(listed);
    forall f | f in files && p(f) ensures exists i :: 0 <= i < |rows| && rows[i].data == f {
      assert f in sorted;
      var k :| 0 <= k < |sorted| && sorted[k] == f;
      assert p(sorted[k]);
      assert f in listed;
      var i :| 0 <= i < |listed| && listed[i] == f;
      assert rows[i].data == f;
    }
    assert rows == RowsOf(Filter(p, sorted));
  }

  /** The files `keep` accepts, latest save date first, one row each. */
  function ListedBy(files: seq<Saved>, keep: Saved -> bool): (rows: seq<Row>)
    ensures |rows| <= |files|
    ensures forall i :: 0 <= i < |rows| ==>
              rows[i].data in files && keep(rows[i].data)
              && rows[i].text == DisplayText(rows[i].data) && rows[i].background == Background(rows[i].data)
    ensures forall f :: f in files && keep(f) ==> exists i :: 0 <= i < |rows| && rows[i].data == f
    ensures forall i, j :: 0 <= i < j < |rows| ==> !Ordering.Less(DateKey(rows[i].data), DateKey(rows[j].data))
  {
    var sorted := Ordering.SortDesc(DateKey, files);
    FilterNonIncreasing(DateKey, keep, sorted);
    SameElements(sorted, files);
    RowsComplete(files, keep, sorted);
    RowsOf(Filter(keep, sorted))
  }

  /** `populate_list` as written: the files whose own project type and
      region equal the choices, latest save date first, one row each. */
  function PopulateList(files: seq<Saved>, typeChoice: string, regionChoice: string): (rows: seq<Row>)
    ensures |rows| <= |files|
    ensures forall i :: 0 <= i < |rows| ==>
              rows[i].data in files && MatchesAsWritten(typeChoice, regionChoice, rows[i].data)
              && rows[i].text == DisplayText(rows[i].data) && rows[i].background == Background(rows[i].data)
    ensures forall f :: f in files && MatchesAsWritten(typeChoice, regionChoice, f) ==>
              exists i :: 0 <= i < |rows| && rows[i].data == f
    ensures forall i, j :: 0 <= i < j < |rows| ==> !Ordering.Less(DateKey(rows[i].data), DateKey(rows[j].data))
  {
    ListedBy(files, (d: Saved) => MatchesAsWritten(typeChoice, regionChoice, d))
  }

  /** `populate_list` as intended: the filter compares the values the
      choices were built from, so a file without a project type or region
      is listed under "기타" or "전체". */
  function PopulateListCorrected(files: seq<Saved>, typeChoice: string, regionChoice: string): (rows: seq<Row>)
    ensures |rows| <= |files|
    ensures forall i :: 0 <= i < |rows| ==>
              rows[i].data in files && Matches(typeChoice, regionChoice, rows[i].data)
              && rows[i].text == DisplayText(rows[i].data) && rows[i].background == Background(rows[i].data)
    ensures forall f :: f in files && Matches(typeChoice, regionChoice, f) ==>
              exists i :: 0 <= i < |rows| && rows[i].data == f
    ensures forall i, j :: 0 <= i < j < |rows| ==> !Ordering.Less(DateKey(rows[i].data), DateKey(rows[j].data))
  {
    ListedBy(files, (d: Saved) => Matches(typeChoice, regionChoice, d))
  }

  /** Every choice the type filter offers lists at least one file. */
  lemma EveryTypeChoiceLists(files: seq<Saved>, y: string)
    requires y in TypeChoices(files)
    ensures PopulateListCorrected(files, y, AllRegions) != []
            || (y == AllTypes && files == [])
  {
    if files != [] || y != AllTypes {
      var f :| f in files && (y == AllTypes || TypeShown(f) == y) by {
        if y == AllTypes {
          assert files[0] in files;
        } else {
          assert y in TypeChoices(files)[1..];
        }
      }
      assert Matches(y, AllRegions, f);
    }
  }

  /** Every choice the region filter offers lists at least one file. */
  lemma EveryRegionChoiceLists(files: seq<Saved>, y: string)
    requires y in RegionChoices(files)
    ensures PopulateListCorrected(files, AllTypes, y) != []
            || (y == AllRegions && files == [])
  {
    if files != [] || y != AllRegions {
      var f :| f in files && (y == AllRegions || RegionShown(f) == y) by {
        if y == AllRegions {
          assert files[0] in files;
        } else {
          assert y in RegionChoices(files)[1..];
        }
      }
      assert Matches(AllTypes, y, f);
    }
  }

  // ---------------------------------------------------------------------
  // loading the checked rows

  /** A row of the list with its check box. */
  datatype Item = Item(row: Row, checked: bool)

  /** The list as it is filled: every row starts unchecked. */
  function Unchecked(rows: seq<Row>): (items: seq<Item>)
    ensures |items| == |rows|
    ensures forall i :: 0 <= i < |items| ==> items[i] == Item(rows[i], false)
  {
    seq(|rows|, i requires 0 <= i < |rows| => Item(rows[i], false))
  }

  predicate Checked(it: Item) {
    it.checked
  }

  function FileOf(it: Item): Saved {
    it.row.data
  }

  /** `on_load_clicked`: the files of the checked rows, in list order; with
      nothing checked the dialog stays open (`None`). */
  function OnLoad(items: seq<Item>): (r: Option<seq<Saved>>)
    ensures r.None? <==> forall i :: 0 <= i < |items| ==> !items[i].checked
    ensures r.Some? ==> |r.value| <= |items|
    ensures r.Some? ==> forall d :: d in r.value ==> exists it :: it in items && it.checked && it.row.data == d
    ensures r.Some? ==> forall it :: it in items && it.checked ==> it.row.data in r.value
    ensures r.Some? ==> |r.value| == |Filter(Checked, items)|
    ensures r.Some? ==> forall k :: 0 <= k < |r.value| ==> r.value[k] == Filter(Checked, items)[k].row.data
  {
    var picked := Filter(Checked, items);
    var data := Map(FileOf, picked);
    assert forall i :: 0 <= i < |picked| ==> data[i] == picked[i].row.data by {
      forall i | 0 <= i < |picked| { MapAt(FileOf, picked, i); }
    }
    assert forall it :: it in items && it.checked ==> it.row.data in data by {
      forall it | it in items && it.checked ensures it.row.data in data {
        var i :| 0 <= i < |picked| && picked[i] == it;
        assert data[i] == it.row.data;
      }
    }
    assert forall d :: d in data ==> exists it :: it in items && it.checked && it.row.data == d by {
      forall d | d in data ensures exists it :: it in items && it.checked && it.row.data == d {
        var i :| 0 <= i < |data| && data[i] == d;
        assert picked[i] in items;
      }
    }
    assert (exists i :: 0 <= i < |items| && items[i].checked) ==> data != [] by {
      if i :| 0 <= i < |items| && items[i].checked {
        assert items[i] in items;
        assert items[i].row.data in data;
      }
    }
    assert data != [] ==> exists i :: 0 <= i < |items| && items[i].checked by {
      if data != [] {
        assert picked[0] in items && picked[0].checked;
        var j :| 0 <= j < |items| && items[j] == picked[0];
        assert items[j].checked;
      }
    }
    if data == [] then None else Some(data)
  }

  /** Checked rows are gathered one after another: loading a longer list
      loads the files of its first part followed by those of the rest. */
  lemma {:induction false} OnLoadAppend(a: seq<Item>, b: seq<Item>)
    requires OnLoad(a).Some? && OnLoad(b).Some?
    ensures OnLoad(a + b) == Some(OnLoad(a).value + OnLoad(b).value)
  {
    FilterAppend(Checked, a, b);
    MapAppend(FileOf, Filter(Checked, a), Filter(Checked, b));
  }

  /** A freshly filled list loads nothing until a row is checked. */
  lemma FreshListLoadsNothing(rows: seq<Row>)
    ensures OnLoad(Unchecked(rows)).None?
  {
  }
}

=== FILE: message_generator.dfy ===
/** The consortium request message screen: it gathers the announcements
    typed into its table, the region, field, company and manager, and
    assembles the text of a request for a joint bid. It also chooses the
    table row an announcement picked from the procurement service fills. */
module MessageGenerator {
  import opened Base
  import opened Text
  import opened Numbers
  import opened Records
  import Ordering

  // ---------------------------------------------------------------------
  // the row an API pick fills

  /** A title cell that is missing or holds only whitespace. */
  predicate BlankTitle(t: Option<string>) {
    t.None? || Strip(t.value) == []
  }

  /** The bottom-most row whose title is blank, if any. */
  function LastBlank(titles: seq<Option<string>>): (r: Option<nat>)
    ensures r.Some? ==> r.value < |titles| && BlankTitle(titles[r.value])
    ensures r.Some? ==> forall k :: r.value < k < |titles| ==> !BlankTitle(titles[k])
    ensures r.None? <==> forall k :: 0 <= k < |titles| ==> !BlankTitle(titles[k])
    decreases |titles|
  {
    if titles == [] then None
    else if BlankTitle(titles[|titles| - 1]) then Some(|titles| - 1)
    else
      var r := LastBlank(titles[..|titles| - 1]);
      assert forall k :: 0 <= k < |titles| - 1 ==> titles[..|titles| - 1][k] == titles[k];
      r
  }

  /** Where `fill_from_api` writes: a row index and whether a row had to be
      appended for it. */
  datatype Target = Target(row: nat, added: bool)

  /** `fill_from_api`'s choice of row: scanning up from the bottom, the
      first row with a blank title; when every title is filled a new row is
      appended and becomes the target. */
  function TargetRow(titles: seq<Option<string>>): (t: Target)
    ensures t.added <==> forall k :: 0 <= k < |titles| ==> !BlankTitle(titles[k])
    ensures t.added ==> t.row == |titles|
    ensures !t.added ==> t.row < |titles| && BlankTitle(titles[t.row])
                         && forall k :: t.row < k < |titles| ==> !BlankTitle(titles[k])
  {
    match LastBlank(titles)
    case Some(i) => Target(i, false)
    case None => Target(|titles|, true)
  }

  /** The title column after the fill has written a non-blank title into
      the target row. */
  function Filled(titles: seq<Option<string>>, title: string): (r: seq<Option<string>>)
  {
    var t := TargetRow(titles);
    if t.added then titles + [Some(title)] else titles[t.row := Some(title)]
  }

  /** Filling works upwards: the next fill targets a row above the one just
      filled, or appends when no blank row is left. */
  lemma FillMovesUp(titles: seq<Option<string>>, title: string)
    requires Strip(title) != []
    ensures var next := TargetRow(Filled(titles, title));
            next.added || next.row < TargetRow(titles).row
  {
    var t := TargetRow(titles);
    var after := Filled(titles, title);
    assert t.row < |after| && after[t.row] == Some(title);
    assert forall k :: 0 <= k < |titles| && k != t.row ==> after[k] == titles[k];
  }

  // ---------------------------------------------------------------------
  // collecting the announcements

  /** A table row: the title, number and price cells and the deadline
      widget's text; `None` where the cell has no item. */
  datatype Row = Row(title: Option<string>, no: Option<string>, price: Option<string>, deadline: Option<string>)

  /** An announcement as `generate_message` records it. */
  datatype Announcement = Announcement(title: string, no: string, price: string, deadline: string)

  /** A row that takes part in the message: its title is not blank. */
  predicate Listed(row: Row) {
    !BlankTitle(row.title)
  }

  /** The announcement read from a listed row: texts stripped, a missing
      number read as empty, a missing price as "0", a missing deadline
      widget as empty. */
  function Read(row: Row): (a: Announcement)
    requires Listed(row)
    ensures a.title != []
  {
    Announcement(
      Strip(row.title.value),
      if row.no.Some? then Strip(row.no.value) else "",
      if row.price.Some? then Strip(row.price.value) else "0",
      row.deadline.GetOr(""))
  }

  /** The announcements of the table, in row order, blank-titled rows
      skipped. */
  function Collect(rows: seq<Row>): (anns: seq<Announcement>)
    ensures |anns| <= |rows|
    ensures forall k :: 0 <= k < |anns| ==> anns[k].title != []
    ensures anns == [] <==> forall k :: 0 <= k < |rows| ==> BlankTitle(rows[k].title)
    ensures |anns| == |Filter(Listed, rows)|
    ensures forall k :: 0 <= k < |anns| ==> anns[k] == Read(Filter(Listed, rows)[k])
  {
    var listed := Filter(Listed, rows);
    assert forall k :: 0 <= k < |rows| && Listed(rows[k]) ==> rows[k] in listed;
    assert listed != [] ==> exists k :: 0 <= k < |rows| && rows[k] == listed[0] && Listed(rows[k]);
    seq(|listed|, k requires 0 <= k < |listed| => Read(listed[k]))
  }

  /** Rows are read one after another: the announcements of a longer table
      are those of its first rows followed by those of the rest. */
  lemma {:induction false} CollectAppend(a: seq<Row>, b: seq<Row>)
    ensures Collect(a + b) == Collect(a) + Collect(b)
  {
    FilterAppend(Listed, a, b);
    var whole := Collect(a + b);
    var parts := Collect(a) + Collect(b);
    assert |whole| == |parts|;
    forall k | 0 <= k < |whole| ensures whole[k] == parts[k] {
      if k >= |Collect(a)| {
        assert Filter(Listed, a + b)[k] == Filter(Listed, b)[k - |Collect(a)|];
      }
    }
  }

  // ---------------------------------------------------------------------
  // pieces of the message

  /** `f"{int(price_val):,}원"` for a price that parses, "0원" otherwise. */
  function PriceText(price: string, ext: Externals): (t: string)
    ensures EndsWith(t, "원")
    ensures ext.parseAmount(VStr(price)).None? ==> t == "0원"
  {
    match ext.parseAmount(VStr(price))
    case Some(x) => WithCommas(Trunc(x)) + "원"
    case None => "0원"
  }

  /** The digits in front of "원" read back as the whole part of the parsed
      price. */
  lemma PriceTextReadsBack(price: string, ext: Externals)
    requires ext.parseAmount(VStr(price)).Some? && ext.parseAmount(VStr(price)).value >= 0.0
    ensures var t := PriceText(price, ext);
            DigitsToNat(KeepDigits(t[..|t| - 1])) == Trunc(ext.parseAmount(VStr(price)).value)
  {
    var n := Trunc(ext.parseAmount(VStr(price)).value);
    var t := PriceText(price, ext);
    assert t[..|t| - 1] == WithCommas(n);
    WithCommasDigits(n);
  }

  /** The region line's value: both regions when the second is set and
      differs from the first. */
  function Region(region1: string, region2: string): string {
    if region2 != "" && region1 != region2 then region1 + "/" + region2 else region1
  }

  /** The region text names the first region and, only when it is set and
      different, the second. */
  lemma RegionNames(region1: string, region2: string)
    requires '/' !in region1 && '/' !in region2
    ensures Split(Region(region1, region2), "/")
            == (if region2 != "" && region1 != region2 then [region1, region2] else [region1])
  {
    assert "/" == ['/'];
    if region2 != "" && region1 != region2 {
      assert Join([region1, region2], "/") == region1 + "/" + region2;
      SplitJoin([region1, region2], '/');
    } else {
      assert Join([region1], "/") == region1;
      SplitJoin([region1], '/');
    }
  }

  /** The closing question; it names the count only for more than one
      announcement. */
  function Closing(n: nat): string {
    if n > 1 then NatToString(n) + "건 협정 가능할까요?" else "협정 가능할까요?"
  }

  /** The count in the closing line reads back as the number of
      announcements, and a single announcement gets no count. */
  lemma ClosingCount(n: nat)
    ensures n > 1 ==> ParseInt(Split(Closing(n), "건")[0]) == Some(n)
    ensures n <= 1 ==> Split(Closing(n), "건") == [Closing(n)]
  {
    if n > 1 {
      ClosingSplits(NatToString(n));
      ParseIntOfNat(n);
    } else {
      ClosingUncounted();
    }
  }

  lemma ClosingSplits(d: string)
    requires AllDigits(d)
    ensures Split(d + "건 협정 가능할까요?", "건")[0] == d
  {
    var tail := " 협정 가능할까요?";
    assert '건' !in tail;
    assert '건' !in d by {
      assert forall i :: 0 <= i < |d| ==> IsDigit(d[i]);
    }
    assert "건" == ['건'];
    assert Join([d, tail], "건") == d + "건" + tail;
    assert d + "건" + tail == d + "건 협정 가능할까요?";
    SplitJoin([d, tail], '건');
  }

  lemma ClosingUncounted()
    ensures Split("협정 가능할까요?", "건") == ["협정 가능할까요?"]
  {
    var c := "협정 가능할까요?";
    assert '건' !in c;
    assert "건" == ['건'];
    NotContainsChar(c, '건');
  }

  /** Each item after the first, behind the continuation indent. */
  function Indented(indent: string, items: seq<string>): (lines: seq<string>)
    ensures |lines| == |items|
  {
    seq(|items|, k requires 0 <= k < |items| => indent + items[k])
  }

  /** A block as `generate_message` builds it: the heading and the first item,
      then a newline and the indented rest when there is more than one. */
  function Block(heading: string, indent: string, items: seq<string>): string
    requires items != []
  {
    heading + items[0] + (if |items| > 1 then "\n" + Join(Indented(indent, items[1..]), "\n") else "")
  }

  /** The lines of a block: the first item on the heading's line, each later
      item on a line of its own behind the indent. */
  function BlockLines(heading: string, indent: string, items: seq<string>): (lines: seq<string>)
    requires items != []
    ensures |lines| == |items|
  {
    [heading + items[0]] + Indented(indent, items[1..])
  }

  /** A block is its lines joined by newlines. */
  lemma BlockIsLines(heading: string, indent: string, items: seq<string>)
    requires items != []
    ensures Block(heading, indent, items) == Join(BlockLines(heading, indent, items), "\n")
  {
    if |items| > 1 {
      JoinCons(heading + items[0], Indented(indent, items[1..]), "\n");
    }
  }

  function Titles(anns: seq<Announcement>): (r: seq<string>)
    ensures |r| == |anns|
  {
    seq(|anns|, k requires 0 <= k < |anns| => anns[k].title)
  }

  function Nos(anns: seq<Announcement>): (r: seq<string>)
    ensures |r| == |anns|
  {
    seq(|anns|, k requires 0 <= k < |anns| => anns[k].no)
  }

  function Prices(anns: seq<Announcement>, ext: Externals): (r: seq<string>)
    ensures |r| == |anns|
  {
    seq(|anns|, k requires 0 <= k < |anns| => PriceText(anns[k].price, ext))
  }

  /** The deadlines to list: `sorted(set(deadlines))`. */
  function Deadlines(anns: seq<Announcement>): (r: seq<string>)
    requires anns != []
    ensures r != []
    ensures Ordering.StrictlyIncreasing(r)
    ensures forall d :: d in r <==> exists k :: 0 <= k < |anns| && anns[k].deadline == d
  {
    var all := seq(|anns|, k requires 0 <= k < |anns| => anns[k].deadline);
    assert forall k :: 0 <= k < |anns| ==> all[k] == anns[k].deadline;
    assert all[0] in all;
    Ordering.SortedUnique(all)
  }

  const TitleLabel := "ㆍ공고명 : "
  const NoLabel := "ㆍ공고번호 : "
  const PriceLabel := "ㆍ추정가격 : "
  const DeadlineLabel := "ㆍ투찰마감일 : "

  /** The lines after the four blocks: a blank line, the company, a blank
      line, the closing question, a blank line and the manager when there
      is one. */
  function Tail(anns: seq<Announcement>, company: string, manager: string): seq<string> {
    ["", company, "", Closing(|anns|), ""] + (if manager != "" then [manager] else [])
  }

  /** The message parts `generate_message` joins with newlines. */
  function Parts(anns: seq<Announcement>, region: string, field: string, company: string,
                 manager: string, ext: Externals): seq<string>
    requires anns != []
  {
    [Block(TitleLabel, "       ", Titles(anns)),
     Block(NoLabel, "        ", Nos(anns)),
     "ㆍ지역제한 : " + region,
     "ㆍ종목 : " + field,
     Block(PriceLabel, "        ", Prices(anns, ext)),
     Block(DeadlineLabel, "         ", Deadlines(anns))]
    + Tail(anns, company, manager)
  }

  /** What pressing "generate" gives: a warning that there is no
      announcement, a warning that the company name is missing, or the
      message. */
  datatype Outcome = NoAnnouncements | NoCompany | Message(text: string)

  /** `generate_message`. */
  function Generate(rows: seq<Row>, region1: string, region2: string, field: string,
                    companyText: string, managerText: string, ext: Externals): (o: Outcome)
    ensures o == NoAnnouncements <==> forall k :: 0 <= k < |rows| ==> BlankTitle(rows[k].title)
    ensures o == NoCompany <==> (exists k :: 0 <= k < |rows| && Listed(rows[k])) && Strip(companyText) == []
  {
    var anns := Collect(rows);
    if anns == [] then NoAnnouncements
    else if Strip(companyText) == [] then NoCompany
    else Message(Join(Parts(anns, Region(region1, region2), field, Strip(companyText), Strip(managerText), ext), "\n"))
  }

  // ---------------------------------------------------------------------
  // the message line by line

  /** The message as a list of lines: the title block, the number block,
      the region and field lines, the price block, the deadline block and
      the tail. */
  function MessageLines(anns: seq<Announcement>, region: string, field: string, company: string,
                        manager: string, ext: Externals): (lines: seq<string>)
    requires anns != []
    ensures |lines| == 3 * |anns| + |Deadlines(anns)| + 7 + (if manager != "" then 1 else 0)
  {
    BlockLines(TitleLabel, "       ", Titles(anns))
    + BlockLines(NoLabel, "        ", Nos(anns))
    + ["ㆍ지역제한 : " + region, "ㆍ종목 : " + field]
    + BlockLines(PriceLabel, "        ", Prices(anns, ext))
    + BlockLines(DeadlineLabel, "         ", Deadlines(anns))
    + Tail(anns, company, manager)
  }

  /** One step of reading a join of joins as one join. */
  lemma JoinStep(b: seq<string>, p: seq<string>, l: seq<string>)
    requires b != [] && p != [] && l != []
    requires Join(p, "\n") == Join(l, "\n")
    ensures Join([Join(b, "\n")] + p, "\n") == Join(b + l, "\n")
  {
    JoinCons(Join(b, "\n"), p, "\n");
    JoinAppend(b, l, "\n");
  }

  /** Two blocks before the tail, joined, are their lines joined. */
  lemma JoinTwoBlocks(b3: seq<string>, b4: seq<string>, tail: seq<string>)
    requires b3 != [] && b4 != [] && tail != []
    ensures Join([Join(b3, "\n"), Join(b4, "\n")] + tail, "\n") == Join(b3 + b4 + tail, "\n")
  {
    JoinStep(b4, tail, tail);
    JoinStep(b3, [Join(b4, "\n")] + tail, b4 + tail);
    assert [Join(b3, "\n"), Join(b4, "\n")] + tail == [Join(b3, "\n")] + ([Join(b4, "\n")] + tail);
    assert b3 + b4 + tail == b3 + (b4 + tail);
  }

  /** Two lines put before lists with equal joins keep the joins equal. */
  lemma JoinTwoLines(r: string, f: string, p: seq<string>, l: seq<string>)
    requires p != [] && l != [] && Join(p, "\n") == Join(l, "\n")
    ensures Join([r, f] + p, "\n") == Join([r, f] + l, "\n")
  {
    JoinCons(f, p, "\n");
    JoinCons(f, l, "\n");
    JoinCons(r, [f] + p, "\n");
    JoinCons(r, [f] + l, "\n");
    assert [r, f] + p == [r] + ([f] + p);
    assert [r, f] + l == [r] + ([f] + l);
  }

  /** The last four parts and the tail, joined, are their lines joined. */
  lemma JoinFourParts(r: string, f: string, b3: seq<string>, b4: seq<string>, tail: seq<string>)
    requires b3 != [] && b4 != [] && tail != []
    ensures Join([r, f, Join(b3, "\n"), Join(b4, "\n")] + tail, "\n") == Join([r, f] + b3 + b4 + tail, "\n")
  {
    var p := [Join(b3, "\n"), Join(b4, "\n")] + tail;
    var l := b3 + b4 + tail;
    JoinTwoBlocks(b3, b4, tail);
    JoinTwoLines(r, f, p, l);
    assert [r, f, Join(b3, "\n"), Join(b4, "\n")] + tail == [r, f] + p;
    assert [r, f] + b3 + b4 + tail == [r, f] + l;
  }

  /** The shape of the message: six parts, four of them joins of their
      own lines, then the tail; joined, they are all the lines joined. */
  lemma JoinSixParts(b1: seq<string>, b2: seq<string>, r: string, f: string,
                     b3: seq<string>, b4: seq<string>, tail: seq<string>)
    requires b1 != [] && b2 != [] && b3 != [] && b4 != [] && tail != []
    ensures Join([Join(b1, "\n"), Join(b2, "\n"), r, f, Join(b3, "\n"), Join(b4, "\n")] + tail, "\n")
            == Join(b1 + b2 + [r, f] + b3 + b4 + tail, "\n")
  {
    var q := [r, f, Join(b3, "\n"), Join(b4, "\n")] + tail;
    var m := [r, f] + b3 + b4 + tail;
    JoinFourParts(r, f, b3, b4, tail);
    JoinStep(b2, q, m);
    JoinStep(b1, [Join(b2, "\n")] + q, b2 + m);
    assert [Join(b1, "\n"), Join(b2, "\n"), r, f, Join(b3, "\n"), Join(b4, "\n")] + tail
           == [Join(b1, "\n")] + ([Join(b2, "\n")] + q);
    assert b1 + b2 + [r, f] + b3 + b4 + tail == b1 + (b2 + m);
  }

  /** Joining the parts is joining the lines. */
  lemma PartsAreLines(anns: seq<Announcement>, region: string, field: string, company: string,
                      manager: string, ext: Externals)
    requires anns != []
    ensures Join(Parts(anns, region, field, company, manager, ext), "\n")
            == Join(MessageLines(anns, region, field, company, manager, ext), "\n")
  {
    BlockIsLines(TitleLabel, "       ", Titles(anns));
    BlockIsLines(NoLabel, "        ", Nos(anns));
    BlockIsLines(PriceLabel, "        ", Prices(anns, ext));
    BlockIsLines(DeadlineLabel, "         ", Deadlines(anns));
    JoinSixParts(BlockLines(TitleLabel, "       ", Titles(anns)),
                 BlockLines(NoLabel, "        ", Nos(anns)),
                 "ㆍ지역제한 : " + region, "ㆍ종목 : " + field,
                 BlockLines(PriceLabel, "        ", Prices(anns, ext)),
                 BlockLines(DeadlineLabel, "         ", Deadlines(anns)),
                 Tail(anns, company, manager));
  }

  /** No line break in a text. */
  predicate OneLine(s: string) {
    '\n' !in s
  }

  /** A row whose cells are all single-line texts. */
  predicate RowOneLine(row: Row) {
    (row.title.Some? ==> OneLine(row.title.value))
    && (row.no.Some? ==> OneLine(row.no.value))
    && (row.price.Some? ==> OneLine(row.price.value))
    && (row.deadline.Some? ==> OneLine(row.deadline.value))
  }

  predicate AnnouncementOneLine(a: Announcement) {
    OneLine(a.title) && OneLine(a.no) && OneLine(a.price) && OneLine(a.deadline)
  }

  lemma StripOneLine(s: string)
    requires OneLine(s)
    ensures OneLine(Strip(s))
  {
    var t := s[LeadingSpaces(s)..];
    assert forall i :: 0 <= i < |t| ==> t[i] == s[LeadingSpaces(s) + i];
    assert forall i :: 0 <= i < |t| - TrailingSpaces(t) ==> t[..|t| - TrailingSpaces(t)][i] == t[i];
  }

  lemma CollectOneLine(rows: seq<Row>)
    requires forall k :: 0 <= k < |rows| ==> RowOneLine(rows[k])
    ensures forall k :: 0 <= k < |Collect(rows)| ==> AnnouncementOneLine(Collect(rows)[k])
  {
    var listed := Filter(Listed, rows);
    forall k | 0 <= k < |listed| ensures AnnouncementOneLine(Collect(rows)[k]) {
      var row := listed[k];
      var j :| 0 <= j < |rows| && rows[j] == row;
      assert RowOneLine(row);
      StripOneLine(row.title.value);
      if row.no.Some? { StripOneLine(row.no.value); }
      if row.price.Some? { StripOneLine(row.price.value); }
    }
  }

  lemma CommasOneLine(i: int)
    ensures OneLine(WithCommas(i))
  {
    var d := NatToString(if i < 0 then -i else i);
    assert OneLine(d) by {
      assert forall j :: 0 <= j < |d| ==> IsDigit(d[j]);
    }
    var g := Groups(d);
    forall k | 0 <= k < |g| ensures '\n' !in g[k] {
      var j: nat :| j <= |d| && OccursAt(d, g[k], j);
      assert forall m :: 0 <= m < |g[k]| ==> g[k][m] == d[j + m];
    }
    JoinExcludes(g, ",", '\n');
  }

  lemma PriceOneLine(price: string, ext: Externals)
    ensures OneLine(PriceText(price, ext))
  {
    match ext.parseAmount(VStr(price))
    case Some(x) => CommasOneLine(Trunc(x));
    case None =>
  }

  lemma BlockLinesOneLine(heading: string, indent: string, items: seq<string>)
    requires items != [] && OneLine(heading) && OneLine(indent)
    requires forall k :: 0 <= k < |items| ==> OneLine(items[k])
    ensures forall k :: 0 <= k < |items| ==> OneLine(BlockLines(heading, indent, items)[k])
  {
    forall k | 0 <= k < |items| ensures OneLine(BlockLines(heading, indent, items)[k]) {
      if k > 0 {
        assert BlockLines(heading, indent, items)[k] == indent + items[k];
      }
    }
  }

  /** Every line of the message is a single line when its inputs are. */
  lemma LinesOneLine(anns: seq<Announcement>, region: string, field: string, company: string,
                     manager: string, ext: Externals)
    requires anns != []
    requires forall k :: 0 <= k < |anns| ==> AnnouncementOneLine(anns[k])
    requires OneLine(region) && OneLine(field) && OneLine(company) && OneLine(manager)
    ensures forall k :: 0 <= k < |MessageLines(anns, region, field, company, manager, ext)| ==>
              OneLine(MessageLines(anns, region, field, company, manager, ext)[k])
  {
    var b1 := BlockLines(TitleLabel, "       ", Titles(anns));
    var b2 := BlockLines(NoLabel, "        ", Nos(anns));
    var b3 := BlockLines(PriceLabel, "        ", Prices(anns, ext));
    var b4 := BlockLines(DeadlineLabel, "         ", Deadlines(anns));
    var tail := Tail(anns, company, manager);
    var mid := ["ㆍ지역제한 : " + region, "ㆍ종목 : " + field];
    BlocksOneLine(anns, ext);
    TailOneLine(anns, company, manager);
    MidOneLine(region, field);
    SixOneLine(b1, b2, mid, b3, b4, tail);
    assert MessageLines(anns, region, field, company, manager, ext) == b1 + b2 + mid + b3 + b4 + tail;
  }

  /** The tail's lines are single lines when the company and manager are. */
  lemma TailOneLine(anns: seq<Announcement>, company: string, manager: string)
    requires OneLine(company) && OneLine(manager)
    ensures var tail := Tail(anns, company, manager);
            forall k :: 0 <= k < |tail| ==> OneLine(tail[k])
  {
    ClosingOneLine(|anns|);
  }

  /** The region and field lines are single lines when their values are. */
  lemma MidOneLine(region: string, field: string)
    requires OneLine(region) && OneLine(field)
    ensures var mid := ["ㆍ지역제한 : " + region, "ㆍ종목 : " + field];
            forall k :: 0 <= k < |mid| ==> OneLine(mid[k])
  {
    assert OneLine("ㆍ지역제한 : ") && OneLine("ㆍ종목 : ");
  }

  /** Six lists of single lines, concatenated, are single lines. */
  lemma SixOneLine(b1: seq<string>, b2: seq<string>, mid: seq<string>, b3: seq<string>,
                   b4: seq<string>, tail: seq<string>)
    requires forall k :: 0 <= k < |b1| ==> OneLine(b1[k])
    requires forall k :: 0 <= k < |b2| ==> OneLine(b2[k])
    requires forall k :: 0 <= k < |mid| ==> OneLine(mid[k])
    requires forall k :: 0 <= k < |b3| ==> OneLine(b3[k])
    requires forall k :: 0 <= k < |b4| ==> OneLine(b4[k])
    requires forall k :: 0 <= k < |tail| ==> OneLine(tail[k])
    ensures var all := b1 + b2 + mid + b3 + b4 + tail;
            forall k :: 0 <= k < |all| ==> OneLine(all[k])
  {
    AllOneLine(b1, b2);
    AllOneLine(b1 + b2, mid);
    AllOneLine(b1 + b2 + mid, b3);
    AllOneLine(b1 + b2 + mid + b3, b4);
    AllOneLine(b1 + b2 + mid + b3 + b4, tail);
  }

  lemma BlocksOneLine(anns: seq<Announcement>, ext: Externals)
    requires anns != []
    requires forall k :: 0 <= k < |anns| ==> AnnouncementOneLine(anns[k])
    ensures var b := BlockLines(TitleLabel, "       ", Titles(anns));
            forall k :: 0 <= k < |b| ==> OneLine(b[k])
    ensures var b := BlockLines(NoLabel, "        ", Nos(anns));
            forall k :: 0 <= k < |b| ==> OneLine(b[k])
    ensures var b := BlockLines(PriceLabel, "        ", Prices(anns, ext));
            forall k :: 0 <= k < |b| ==> OneLine(b[k])
    ensures var b := BlockLines(DeadlineLabel, "         ", Deadlines(anns));
            forall k :: 0 <= k < |b| ==> OneLine(b[k])
  {
    var ts := Titles(anns);
    var ns := Nos(anns);
    var ps := Prices(anns, ext);
    var ds := Deadlines(anns);
    forall k | 0 <= k < |anns| ensures OneLine(ps[k]) {
      PriceOneLine(anns[k].price, ext);
    }
    forall k | 0 <= k < |ds| ensures OneLine(ds[k]) {
      assert ds[k] in ds;
      var j :| 0 <= j < |anns| && anns[j].deadline == ds[k];
    }
    BlockLinesOneLine(TitleLabel, "       ", ts);
    BlockLinesOneLine(NoLabel, "        ", ns);
    BlockLinesOneLine(PriceLabel, "        ", ps);
    BlockLinesOneLine(DeadlineLabel, "         ", ds);
  }

  lemma AllOneLine(a: seq<string>, b: seq<string>)
    requires forall k :: 0 <= k < |a| ==> OneLine(a[k])
    requires forall k :: 0 <= k < |b| ==> OneLine(b[k])
    ensures forall k :: 0 <= k < |a + b| ==> OneLine((a + b)[k])
  {
  }

  lemma ClosingOneLine(n: nat)
    ensures OneLine(Closing(n))
  {
    if n > 1 {
      var d := NatToString(n);
      assert forall j :: 0 <= j < |d| ==> IsDigit(d[j]);
    }
  }

  /** When no cell or field holds a line break, the message reads back line
      by line as the four blocks (first item on the heading's line, the rest
      indented below it), the region and field lines, a blank line, the
      company, a blank line, the closing question, a blank line and, only
      when there is one, the manager. */
  lemma MessageReadsBack(rows: seq<Row>, region1: string, region2: string, field: string,
                         companyText: string, managerText: string, ext: Externals)
    requires Generate(rows, region1, region2, field, companyText, managerText, ext).Message?
    requires forall k :: 0 <= k < |rows| ==> RowOneLine(rows[k])
    requires OneLine(region1) && OneLine(region2) && OneLine(field)
    requires OneLine(companyText) && OneLine(managerText)
    ensures var anns := Collect(rows);
            anns != []
            && Split(Generate(rows, region1, region2, field, companyText, managerText, ext).text, "\n")
               == MessageLines(anns, Region(region1, region2), field, Strip(companyText), Strip(managerText), ext)
  {
    var anns := Collect(rows);
    var region := Region(region1, region2);
    var company := Strip(companyText);
    var manager := Strip(managerText);
    var lines := MessageLines(anns, region, field, company, manager, ext);
    assert anns != [];
    assert Generate(rows, region1, region2, field, companyText, managerText, ext).text
           == Join(Parts(anns, region, field, company, manager, ext), "\n");
    PartsAreLines(anns, region, field, company, manager, ext);
    CollectOneLine(rows);
    StripOneLine(companyText);
    StripOneLine(managerText);
    LinesOneLine(anns, region, field, company, manager, ext);
    LinesSplit(lines);
  }

  /** Single lines joined by newlines split back into themselves. */
  lemma LinesSplit(lines: seq<string>)
    requires lines != []
    requires forall k :: 0 <= k < |lines| ==> OneLine(lines[k])
    ensures Split(Join(lines, "\n"), "\n") == lines
  {
    assert "\n" == ['\n'];
    assert forall k :: 0 <= k < |lines| ==> '\n' !in lines[k] by {
      forall k | 0 <= k < |lines| ensures '\n' !in lines[k] {
        assert OneLine(lines[k]);
      }
    }
    SplitJoin(lines, '\n');
  }
}

=== FILE: numbers.dfy ===
/** Decimal digit strings: reading and writing whole numbers, Python's `int()`
    on a string, truncation of a real toward zero, and the thousands
    separator of Python's `f"{n:,}"`. Digits are the ASCII digits. */
module Numbers {
  import opened Base
  import opened Text

  predicate IsDigit(c: char) {
    '0' <= c <= '9'
  }

  predicate AllDigits(s: string) {
    forall i :: 0 <= i < |s| ==> IsDigit(s[i])
  }

  function DigitValue(c: char): nat
    requires IsDigit(c)
  {
    c as int - '0' as int
  }

  function DigitChar(d: nat): (c: char)
    requires d < 10
    ensures IsDigit(c) && DigitValue(c) == d
  {
    ('0' as int + d) as char
  }

  /** The number a string of decimal digits denotes; `""` denotes 0. */
  function DigitsToNat(s: string): nat
    requires AllDigits(s)
  {
    if s == [] then 0 else 10 * DigitsToNat(s[..|s| - 1]) + DigitValue(s[|s| - 1])
  }

  /** Python's `str(n)` for a natural number. */
  function NatToString(n: nat): (r: string)
    ensures r != [] && AllDigits(r)
    ensures DigitsToNat(r) == n
    ensures r[0] == '0' ==> n == 0 && r == "0"
  {
    if n < 10 then [DigitChar(n)]
    else
      var r := NatToString(n / 10) + [DigitChar(n % 10)];
      assert r[..|r| - 1] == NatToString(n / 10);
      r
  }

  /** Python's `str(i)` for an integer. */
  function IntToString(i: int): (r: string)
    ensures r != []
    ensures i >= 0 ==> AllDigits(r) && DigitsToNat(r) == i
    ensures i < 0 ==> r[0] == '-' && AllDigits(r[1..]) && DigitsToNat(r[1..]) == -i
  {
    if i >= 0 then NatToString(i) else "-" + NatToString(-i)
  }

  /** No integer is written with a leading zero followed by more digits. */
  lemma IntToStringCanonical(i: int)
    ensures IntToString(i) != "00"
  {
  }

  /** Python's `int(s)` on a string: optional surrounding whitespace, an
      optional sign and at least one ASCII digit; anything else fails. */
  function ParseInt(s: string): (r: Option<int>)
    ensures r.Some? ==> Strip(s) != []
  {
    var t := Strip(s);
    if t == [] then None
    else
      var sign := if t[0] == '-' then -1 else 1;
      var body := if t[0] == '-' || t[0] == '+' then t[1..] else t;
      if body != [] && AllDigits(body) then Some(sign * DigitsToNat(body)) else None
  }

  /** `int(str(n))` gives back `n`. */
  lemma ParseIntOfString(n: int)
    ensures ParseInt(IntToString(n)) == Some(n)
  {
    var s := IntToString(n);
    if n >= 0 {
      assert !IsSpace(s[0]) && !IsSpace(s[|s| - 1]) by {
        assert IsDigit(s[0]) && IsDigit(s[|s| - 1]);
      }
      StripFixed(s);
    } else {
      var body := NatToString(-n);
      assert s == "-" + body;
      assert s[|s| - 1] == body[|body| - 1];
      assert !IsSpace(s[|s| - 1]) by {
        assert IsDigit(body[|body| - 1]);
      }
      StripFixed(s);
      assert s[1..] == body;
    }
  }

  /** The decimal text of a natural number parses back to it. */
  lemma ParseIntOfNat(n: nat)
    ensures ParseInt(NatToString(n)) == Some(n)
  {
    ParseIntOfString(n);
    assert IntToString(n) == NatToString(n);
  }

  /** Python's `int(x)` for a float: truncation toward zero. */
  function Trunc(x: real): (r: int)
    ensures x >= 0.0 ==> r >= 0 && r as real <= x < r as real + 1.0
    ensures x < 0.0 ==> r <= 0 && r as real - 1.0 < x <= r as real
  {
    if x >= 0.0 then x.Floor else -((-x).Floor)
  }

  /** The characters of `s` that are digits, in order (`filter(str.isdigit, s)`). */
  function KeepDigits(s: string): (r: string)
    ensures AllDigits(r) && |r| <= |s|
    ensures AllDigits(s) ==> r == s
  {
    if s == [] then []
    else if IsDigit(s[0]) then [s[0]] + KeepDigits(s[1..])
    else KeepDigits(s[1..])
  }

  lemma {:induction false} KeepDigitsAppend(a: string, b: string)
    ensures KeepDigits(a + b) == KeepDigits(a) + KeepDigits(b)
    decreases |a|
  {
    if a == [] {
      assert a + b == b;
    } else {
      assert (a + b)[1..] == a[1..] + b;
      KeepDigitsAppend(a[1..], b);
    }
  }

  /** The digit groups of Python's `f"{n:,}"`: cut from the right into
      threes, so only the leftmost group may be shorter. */
  function Groups(d: string): (g: seq<string>)
    ensures |g| >= 1
    ensures Join(g, "") == d
    ensures 1 <= |g[0]| <= 3 || (d == [] && g == [[]])
    ensures forall k :: 1 <= k < |g| ==> |g[k]| == 3
    ensures forall k :: 0 <= k < |g| ==> Contains(d, g[k])
    decreases |d|
  {
    if |d| <= 3 then
      assert OccursAt(d, d, 0);
      [d]
    else
      var front := Groups(d[..|d| - 3]);
      var g := front + [d[|d| - 3..]];
      JoinSnoc(front, d[|d| - 3..], "");
      assert d == d[..|d| - 3] + d[|d| - 3..];
      forall k | 0 <= k < |g| ensures Contains(d, g[k]) {
        if k < |front| {
          ContainsWithin(d[..|d| - 3], g[k], d);
        } else {
          assert OccursAt(d, g[k], |d| - 3);
        }
      }
      g
  }

  lemma ContainsWithin(a: string, x: string, b: string)
    requires Contains(a, x) && StartsWith(b, a)
    ensures Contains(b, x)
  {
    var j: nat :| j <= |a| && OccursAt(a, x, j);
    assert b[j..j + |x|] == a[j..j + |x|];
    assert OccursAt(b, x, j);
  }

  /** Python's `f"{n:,}"` for an integer. */
  function WithCommas(i: int): string {
    var g := Join(Groups(NatToString(if i < 0 then -i else i)), ",");
    if i < 0 then "-" + g else g
  }

  /** Reading the digits back out of a grouped number gives the number:
      the separator adds nothing and loses nothing. */
  lemma WithCommasDigits(n: nat)
    ensures KeepDigits(WithCommas(n)) == NatToString(n)
  {
    var d := NatToString(n);
    var g := Groups(d);
    forall k | 0 <= k < |g| ensures AllDigits(g[k]) {
      var j: nat :| j <= |d| && OccursAt(d, g[k], j);
      assert forall i :: 0 <= i < |g[k]| ==> g[k][i] == d[j + i];
    }
    KeepDigitsJoin(g);
  }

  lemma {:induction false} KeepDigitsJoin(g: seq<string>)
    requires forall k :: 0 <= k < |g| ==> AllDigits(g[k])
    ensures KeepDigits(Join(g, ",")) == Join(g, "")
    decreases |g|
  {
    if |g| > 1 {
      KeepDigitsJoin(g[1..]);
      KeepDigitsAppend(g[0] + ",", Join(g[1..], ","));
      KeepDigitsAppend(g[0], ",");
      assert KeepDigits(",") == [];
    }
  }

  /** The comma-separated pieces of `f"{n:,}"` are exactly its digit groups. */
  lemma WithCommasPieces(n: nat)
    ensures Split(WithCommas(n), ",") == Groups(NatToString(n))
  {
    var d := NatToString(n);
    var g := Groups(d);
    forall k | 0 <= k < |g| ensures ',' !in g[k] {
      var j: nat :| j <= |d| && OccursAt(d, g[k], j);
      assert forall i :: 0 <= i < |g[k]| ==> g[k][i] == d[j + i];
    }
    SplitJoin(g, ',');
  }
}

=== FILE: ordering.dfy ===
/** Python's ordering of strings (code point by code point, a proper prefix
    first) and the two sorts the tool performs with it: `sorted(set(xs))`
    and the stable descending sort of records by a string key. */
module Ordering {

  /** `a < b` on Python strings. */
  predicate Less(a: string, b: string)
    decreases |a|
  {
    if a == [] then b != []
    else if b == [] then false
    else a[0] < b[0] || (a[0] == b[0] && Less(a[1..], b[1..]))
  }

  lemma {:induction false} LessIrreflexive(a: string)
    ensures !Less(a, a)
    decreases |a|
  {
    if a != [] {
      LessIrreflexive(a[1..]);
    }
  }

  lemma {:induction false} LessTransitive(a: string, b: string, c: string)
    requires Less(a, b) && Less(b, c)
    ensures Less(a, c)
    decreases |a|
  {
    if a != [] && a[0] == b[0] && b[0] == c[0] {
      LessTransitive(a[1..], b[1..], c[1..]);
    }
  }

  lemma {:induction false} LessTotal(a: string, b: string)
    ensures a == b || Less(a, b) || Less(b, a)
    decreases |a|
  {
    if a != [] && b != [] && a[0] == b[0] {
      LessTotal(a[1..], b[1..]);
      if a[1..] == b[1..] {
        assert a == [a[0]] + a[1..] && b == [b[0]] + b[1..];
      }
    }
  }

  lemma LessAsymmetric(a: string, b: string)
    requires Less(a, b)
    ensures !Less(b, a)
  {
    if Less(b, a) {
      LessTransitive(a, b, a);
      LessIrreflexive(a);
    }
  }

  // ---------------------------------------------------------------------
  // sorted(set(xs))

  predicate StrictlyIncreasing(s: seq<string>) {
    forall i, j :: 0 <= i < j < |s| ==> Less(s[i], s[j])
  }

  /** Adds `x` to a strictly increasing list unless it is already there. */
  function InsertUnique(s: seq<string>, x: string): (r: seq<string>)
    requires StrictlyIncreasing(s)
    ensures StrictlyIncreasing(r)
    ensures forall y :: y in r <==> y in s || y == x
  {
    if s == [] then [x]
    else if x == s[0] then s
    else if Less(x, s[0]) then
      forall j | 0 <= j < |s| ensures Less(x, s[j]) {
        if j > 0 { LessTransitive(x, s[0], s[j]); }
      }
      [x] + s
    else
      var rest := InsertUnique(s[1..], x);
      LessTotal(x, s[0]);
      forall j | 0 <= j < |rest| ensures Less(s[0], rest[j]) {
        if rest[j] != x {
          assert rest[j] in s[1..];
          var k :| 0 <= k < |s[1..]| && s[1..][k] == rest[j];
          assert s[k + 1] == rest[j];
        }
      }
      [s[0]] + rest
  }

  /** `sorted(set(xs))`: the distinct values, strictly increasing. */
  function SortedUnique(xs: seq<string>): (r: seq<string>)
    ensures StrictlyIncreasing(r)
    ensures forall y :: y in r <==> y in xs
  {
    if xs == [] then []
    else
      var r := InsertUnique(SortedUnique(xs[..|xs| - 1]), xs[|xs| - 1]);
      assert xs == xs[..|xs| - 1] + [xs[|xs| - 1]];
      r
  }

  /** Two strictly increasing lists with the same values are equal. */
  lemma {:induction false} IncreasingUnique(a: seq<string>, b: seq<string>)
    requires StrictlyIncreasing(a) && StrictlyIncreasing(b)
    requires forall y :: y in a <==> y in b
    ensures a == b
    decreases |a|
  {
    assert a != [] ==> a[0] in b;
    assert b != [] ==> b[0] in a;
    if a != [] && b != [] {
      if a[0] != b[0] {
        var i :| 0 <= i < |b| && b[i] == a[0];
        var j :| 0 <= j < |a| && a[j] == b[0];
        assert Less(b[0], a[0]) by {
          assert i > 0;
        }
        assert Less(a[0], b[0]) by {
          assert j > 0;
        }
        LessAsymmetric(a[0], b[0]);
        assert false;
      }
      forall y ensures y in a[1..] <==> y in b[1..] {
        if y in a[1..] {
          var k :| 0 <= k < |a[1..]| && a[1..][k] == y;
          assert Less(a[0], a[k + 1]);
          LessIrreflexive(y);
          assert a[k + 1] in a;
          var i :| 0 <= i < |b| && b[i] == y;
          assert i != 0;
          assert b[1..][i - 1] == y;
        }
        if y in b[1..] {
          var k :| 0 <= k < |b[1..]| && b[1..][k] == y;
          assert Less(b[0], b[k + 1]);
          LessIrreflexive(y);
          assert b[k + 1] in b;
          var i :| 0 <= i < |a| && a[i] == y;
          assert i != 0;
          assert a[1..][i - 1] == y;
        }
      }
      IncreasingUnique(a[1..], b[1..]);
      assert a == [a[0]] + a[1..] && b == [b[0]] + b[1..];
    }
  }

  /** The result depends only on which values occur: order and repetition
      in the input make no difference. */
  lemma SortedUniqueCanonical(xs: seq<string>, ys: seq<string>)
    requires forall y :: y in xs <==> y in ys
    ensures SortedUnique(xs) == SortedUnique(ys)
  {
    IncreasingUnique(SortedUnique(xs), SortedUnique(ys));
  }

  // ---------------------------------------------------------------------
  // sorted(records, key=..., reverse=True)

  /** No record is followed by one with a greater key. */
  predicate NonIncreasing<T>(key: T -> string, s: seq<T>) {
    forall i, j :: 0 <= i < j < |s| ==> !Less(key(s[i]), key(s[j]))
  }

  /** Places `x` before the first record with a smaller key, after every
      record whose key is at least its own. */
  function InsertDesc<T>(key: T -> string, s: seq<T>, x: T): (r: seq<T>)
    requires NonIncreasing(key, s)
    ensures NonIncreasing(key, r)
    ensures multiset(r) == multiset(s) + multiset{x}
    ensures |r| == |s| + 1
  {
    if s == [] then [x]
    else if Less(key(s[0]), key(x)) then
      forall j | 0 <= j < |s| ensures !Less(key(x), key(s[j])) {
        if j > 0 {
          LessTotal(key(s[0]), key(s[j]));
          if key(s[0]) != key(s[j]) {
            LessTransitive(key(s[j]), key(s[0]), key(x));
          }
        }
        LessAsymmetric(key(s[j]), key(x));
      }
      [x] + s
    else
      var rest := InsertDesc(key, s[1..], x);
      assert s == [s[0]] + s[1..];
      forall j | 0 <= j < |rest| ensures !Less(key(s[0]), key(rest[j])) {
        assert rest[j] in multiset(rest);
        if rest[j] != x {
          assert rest[j] in multiset(s[1..]);
          var k :| 0 <= k < |s[1..]| && s[1..][k] == rest[j];
          assert s[k + 1] == rest[j];
        }
      }
      [s[0]] + rest
  }

  /** `sorted(s, key=key, reverse=True)`: the records by non-increasing
      key, records with equal keys in their original order. */
  function SortDesc<T>(key: T -> string, s: seq<T>): (r: seq<T>)
    ensures NonIncreasing(key, r)
    ensures multiset(r) == multiset(s)
    ensures |r| == |s|
  {
    if s == [] then []
    else
      var r := InsertDesc(key, SortDesc(key, s[..|s| - 1]), s[|s| - 1]);
      assert s == s[..|s| - 1] + [s[|s| - 1]];
      r
  }

  /** A record whose key is no greater than any other goes last. */
  lemma {:induction false} InsertDescLast<T>(key: T -> string, s: seq<T>, x: T)
    requires NonIncreasing(key, s)
    requires forall i :: 0 <= i < |s| ==> !Less(key(s[i]), key(x))
    ensures InsertDesc(key, s, x) == s + [x]
    decreases |s|
  {
    if s != [] {
      InsertDescLast(key, s[1..], x);
      assert s == [s[0]] + s[1..];
    }
  }

  /** Records already in non-increasing order stay where they are, so the
      sort is idempotent. */
  lemma {:induction false} SortDescFixed<T>(key: T -> string, s: seq<T>)
    requires NonIncreasing(key, s)
    ensures SortDesc(key, s) == s
    decreases |s|
  {
    if s != [] {
      var init := s[..|s| - 1];
      SortDescFixed(key, init);
      InsertDescLast(key, init, s[|s| - 1]);
      assert s == init + [s[|s| - 1]];
    }
  }
}

=== FILE: records.dfy ===
/** The records the tool passes between its screens: spreadsheet cell values,
    the freshness label read from a cell's fill colour, a company record as
    the spreadsheet search produces it, and a consortium result as the
    scoring engine returns it. The helpers the Python code imports from
    modules that are not part of this model are gathered in `Externals`. */
module Records {
  import opened Base

  /** A cell value: empty (`None`), text, or a number (int or float). */
  datatype Value = VNone | VStr(s: string) | VNum(x: real)

  /** The data-freshness labels of a spreadsheet field. The first four are
      read from the cell's fill colour; `OutOfRange` marks a field whose row
      lies below the end of the sheet. */
  datatype Freshness = Current | OneYearOld | OverOneYearOld | Unspecified | OutOfRange

  /** The label stored in a company's "데이터상태" map. */
  function StatusLabel(f: Freshness): string {
    match f
    case Current => "최신"
    case OneYearOld => "1년 경과"
    case OverOneYearOld => "1년 이상 경과"
    case Unspecified => "미지정"
    case OutOfRange => "범위 초과"
  }

  /** Helpers the tool imports but that are not part of this model.
      `parseAmount` is `utils.parse_amount`; `parseFloat` is Python's
      `float()` on a string (None when it raises); `showNum` is `str()` of a
      number; `showG` is the `'%g'` format of a number. */
  datatype Externals = Externals(
    parseAmount: Value -> Option<real>,
    parseFloat: string -> Option<real>,
    showNum: real -> string,
    showG: real -> string)

  /** Python's `str(v)`. */
  function Str(v: Value, ext: Externals): string {
    match v
    case VNone => "None"
    case VStr(s) => s
    case VNum(x) => ext.showNum(x)
  }

  /** One company found in the spreadsheet: its cleaned name (the
      "검색된 회사" key), its field values and its per-field freshness (the
      "데이터상태" map). */
  datatype Company = Company(name: string, fields: map<string, Value>, status: map<string, Freshness>)

  /** `company.get(key, default)`. */
  function Get(c: Company, key: string, default: Value): Value {
    if key in c.fields then c.fields[key] else default
  }

  /** A text field, with `""` when it is absent or not text. */
  function TextField(c: Company, key: string): string {
    match Get(c, key, VStr(""))
    case VStr(s) => s
    case _ => ""
  }

  /** `data_status.get(field, '미지정')`. */
  function StatusOf(c: Company, field: string): Freshness {
    if field in c.status then c.status[field] else Unspecified
  }

  /** One member of a scored consortium ("company_details" entry). */
  datatype Detail = Detail(
    role: string,
    name: string,
    share: real,
    data: Company,
    businessTotal: Option<real>,
    basis: string,
    creditStatus: Option<string>,
    creditScore: real)

  /** The outcome of a solo-bid check for one member. */
  datatype SoloBid = SoloBid(role: string, name: string, possible: bool, reason: string)

  /** The outcome of an individual or consortium capacity check. */
  datatype CapacityCheck = CapacityCheck(name: string, passed: bool, message: string)

  /** A consortium result as the scoring engine returns it, with the
      announcement number and title the view adds. */
  datatype ConsortiumResult = ConsortiumResult(
    gongoNo: string,
    gongoTitle: string,
    details: seq<Detail>,
    expectedScore: real,
    finalBusinessScore: real,
    finalPerformanceScore: real,
    performanceRatio: real,
    soloBids: seq<SoloBid>,
    individualCapacity: seq<CapacityCheck>,
    capacityLimit: Option<CapacityCheck>,
    performanceBaseKey: Option<string>,
    priceData: map<string, real>)
}

=== FILE: requirements.dfy ===
/** The minimal requirements export: from the lines of a full `pip freeze`
    listing it keeps, for each core package in turn, the first pinned line
    naming it, and writes those lines one per line. Reading and writing the
    files and running pip are outside the model. */
module Requirements {
  import opened Base
  import opened Text

  const CorePackages: seq<string> := ["pandas", "openpyxl", "PySide6", "cryptography", "requests"]

  /** A line pinning `pkg`: it starts with the package name and "==",
      ignoring ASCII case. */
  predicate Pins(line: string, pkg: string) {
    StartsWith(Lower(line), Lower(pkg) + "==")
  }

  /** The index of the first line pinning `pkg`. */
  function FirstPin(lines: seq<string>, pkg: string): (r: Option<nat>)
    ensures r.Some? ==> r.value < |lines| && Pins(lines[r.value], pkg)
    ensures r.Some? ==> forall k :: 0 <= k < r.value ==> !Pins(lines[k], pkg)
    ensures r.None? <==> forall k :: 0 <= k < |lines| ==> !Pins(lines[k], pkg)
  {
    if lines == [] then None
    else if Pins(lines[0], pkg) then Some(0)
    else
      assert forall k :: 1 <= k < |lines| ==> lines[1..][k - 1] == lines[k];
      match FirstPin(lines[1..], pkg)
      case None => None
      case Some(k) => Some(k + 1)
  }

  /** What one package contributes: its first pinned line, stripped, or
      nothing. */
  function Pinned(lines: seq<string>, pkg: string): (r: seq<string>)
    ensures |r| <= 1
    ensures FirstPin(lines, pkg).None? <==> r == []
    ensures FirstPin(lines, pkg).Some? ==> r == [Strip(lines[FirstPin(lines, pkg).value])]
  {
    match FirstPin(lines, pkg)
    case None => []
    case Some(k) => [Strip(lines[k])]
  }

  /** The kept lines for a list of packages, stripped, in package order;
      a package with no pinned line contributes nothing. */
  function Minimal(lines: seq<string>, packages: seq<string>): (kept: seq<string>)
    ensures |kept| <= |packages|
    ensures forall s :: s in kept ==>
              exists j, k :: 0 <= j < |packages| && 0 <= k < |lines| && Pins(lines[k], packages[j]) && Strip(lines[k]) == s
  {
    if packages == [] then []
    else
      var rest := Minimal(lines, packages[1..]);
      assert forall j :: 1 <= j < |packages| ==> packages[1..][j - 1] == packages[j];
      Pinned(lines, packages[0]) + rest
  }

  /** Every package that some line pins is represented, by its first
      pinning line. */
  lemma {:induction false} MinimalHasEachPinned(lines: seq<string>, packages: seq<string>, i: nat)
    requires i < |packages|
    ensures FirstPin(lines, packages[i]).Some? ==> Strip(lines[FirstPin(lines, packages[i]).value]) in Minimal(lines, packages)
    decreases i
  {
    var rest := Minimal(lines, packages[1..]);
    assert Minimal(lines, packages) == Pinned(lines, packages[0]) + rest;
    if i > 0 {
      MinimalHasEachPinned(lines, packages[1..], i - 1);
      assert packages[1..][i - 1] == packages[i];
    }
  }

  /** The packages are handled one after another: the kept lines of a
      longer list are those of its first part followed by those of the rest. */
  lemma {:induction false} MinimalAppend(lines: seq<string>, a: seq<string>, b: seq<string>)
    ensures Minimal(lines, a + b) == Minimal(lines, a) + Minimal(lines, b)
    decreases |a|
  {
    if a == [] {
      assert a + b == b;
    } else {
      assert (a + b)[0] == a[0] && (a + b)[1..] == a[1..] + b;
      MinimalAppend(lines, a[1..], b);
    }
  }

  /** The kept lines are one per package that has a pinned line. */
  lemma {:induction false} MinimalCount(lines: seq<string>, packages: seq<string>)
    ensures |Minimal(lines, packages)| == |Filter((pkg: string) => FirstPin(lines, pkg).Some?, packages)|
    decreases |packages|
  {
    if packages != [] {
      MinimalCount(lines, packages[1..]);
      var p := (pkg: string) => FirstPin(lines, pkg).Some?;
      assert Filter(p, packages) == (if p(packages[0]) then [packages[0]] else []) + Filter(p, packages[1..]);
    }
  }

  /** `export_minimal`'s file content: the kept lines joined by newlines,
      with a final newline. */
  function ExportMinimal(lines: seq<string>): (text: string)
    ensures EndsWith(text, "\n")
  {
    Join(Minimal(lines, CorePackages), "\n") + "\n"
  }

  /** Lines without newlines, joined and ended by a newline, split back
      into themselves and an empty last piece. */
  lemma NewlineTerminatedSplits(kept: seq<string>)
    requires kept != []
    requires forall k :: 0 <= k < |kept| ==> '\n' !in kept[k]
    ensures Split(Join(kept, "\n") + "\n", "\n") == kept + [""]
  {
    JoinAppend(kept, [""], "\n");
    assert Join([""], "\n") == "";
    assert Join(kept, "\n") + "\n" == Join(kept + [""], "\n");
    assert "\n" == ['\n'];
    assert forall k :: 0 <= k < |kept + [""]| ==> '\n' !in (kept + [""])[k];
    SplitJoin(kept + [""], '\n');
  }

  /** When the kept lines hold no newline, the file reads back as them and
      an empty last piece. */
  lemma ExportReadsBack(lines: seq<string>)
    requires Minimal(lines, CorePackages) != []
    requires forall k :: 0 <= k < |Minimal(lines, CorePackages)| ==> '\n' !in Minimal(lines, CorePackages)[k]
    ensures Split(ExportMinimal(lines), "\n") == Minimal(lines, CorePackages) + [""]
  {
    NewlineTerminatedSplits(Minimal(lines, CorePackages));
  }
}

=== FILE: result_list.dfy ===
/** The result-management dialog: the list of saved consortium results with
    move up, move down, duplicate and delete on the selected row, the list
    row shown for each result, and the bulk message in this dialog's
    layout. The selection is `None` when no row is selected. */
module ResultList {
  import opened Base
  import opened Text
  import opened Records
  import JodalView
  import ConsortiumEntry

  /** The selected row, when there is one, lies inside the list. */
  predicate ValidSelection<T>(s: seq<T>, sel: Option<nat>) {
    sel.Some? ==> sel.value < |s|
  }

  /** `move_consortium_up`: the selected result trades places with the one
      above it; at the top, or with nothing selected, nothing moves. */
  function MoveUp<T>(s: seq<T>, sel: Option<nat>): (r: seq<T>)
    requires ValidSelection(s, sel)
    ensures |r| == |s| && multiset(r) == multiset(s)
    ensures sel.None? || sel.value == 0 ==> r == s
    ensures sel.Some? && sel.value > 0 ==>
              r[sel.value - 1] == s[sel.value] && r[sel.value] == s[sel.value - 1]
              && forall i :: 0 <= i < |s| && i != sel.value && i != sel.value - 1 ==> r[i] == s[i]
  {
    match sel
    case None => s
    case Some(row) =>
      if row > 0 then
        SwapUp(s, row);
        Insert(RemoveAt(s, row), row - 1, s[row])
      else s
  }

  /** `move_consortium_down`: the selected result trades places with the one
      below it; at the bottom, or with nothing selected, nothing moves. */
  function MoveDown<T>(s: seq<T>, sel: Option<nat>): (r: seq<T>)
    requires ValidSelection(s, sel)
    ensures |r| == |s| && multiset(r) == multiset(s)
    ensures sel.None? || sel.value == |s| - 1 ==> r == s
    ensures sel.Some? && sel.value < |s| - 1 ==>
              r[sel.value + 1] == s[sel.value] && r[sel.value] == s[sel.value + 1]
              && forall i :: 0 <= i < |s| && i != sel.value && i != sel.value + 1 ==> r[i] == s[i]
  {
    match sel
    case None => s
    case Some(row) =>
      if row < |s| - 1 then
        SwapDown(s, row);
        Insert(RemoveAt(s, row), row + 1, s[row])
      else s
  }

  /** Taking a row out and putting it back one place higher swaps it with
      the row above. */
  lemma SwapUp<T>(s: seq<T>, row: nat)
    requires 0 < row < |s|
    ensures var r := Insert(RemoveAt(s, row), row - 1, s[row]);
            |r| == |s| && multiset(r) == multiset(s)
            && r[row - 1] == s[row] && r[row] == s[row - 1]
            && forall i :: 0 <= i < |s| && i != row && i != row - 1 ==> r[i] == s[i]
  {
    var rest := RemoveAt(s, row);
    var r := Insert(rest, row - 1, s[row]);
    assert r[row] == rest[row - 1] by {
      assert r[row..][0] == rest[row - 1..][0];
    }
    assert rest[row - 1] == s[row - 1] by {
      assert rest[..row][row - 1] == s[..row][row - 1];
    }
    forall i | 0 <= i < |s| && i != row && i != row - 1
      ensures r[i] == s[i]
    {
      if i < row - 1 {
        assert r[..row - 1][i] == rest[..row - 1][i];
        assert rest[..row][i] == s[..row][i];
      } else {
        assert r[row..][i - row] == rest[row - 1..][i - row];
        assert rest[row..][i - 1 - row] == s[row + 1..][i - 1 - row];
      }
    }
  }

  /** Taking a row out and putting it back one place lower swaps it with
      the row below. */
  lemma SwapDown<T>(s: seq<T>, row: nat)
    requires row + 1 < |s|
    ensures var r := Insert(RemoveAt(s, row), row + 1, s[row]);
            |r| == |s| && multiset(r) == multiset(s)
            && r[row + 1] == s[row] && r[row] == s[row + 1]
            && forall i :: 0 <= i < |s| && i != row && i != row + 1 ==> r[i] == s[i]
  {
    var rest := RemoveAt(s, row);
    var r := Insert(rest, row + 1, s[row]);
    assert r[row] == rest[row] by {
      assert r[..row + 1][row] == rest[..row + 1][row];
    }
    assert rest[row] == s[row + 1] by {
      assert rest[row..][0] == s[row + 1..][0];
    }
    forall i | 0 <= i < |s| && i != row && i != row + 1
      ensures r[i] == s[i]
    {
      if i < row {
        assert r[..row + 1][i] == rest[..row + 1][i];
        assert rest[..row][i] == s[..row][i];
      } else {
        assert r[row + 2..][i - row - 2] == rest[row + 1..][i - row - 2];
        assert rest[row..][i - 1 - row] == s[row + 1..][i - 1 - row];
      }
    }
  }

  /** Moving a result up and then moving it back down restores the list. */
  lemma MoveUpThenDown<T>(s: seq<T>, row: nat)
    requires 0 < row < |s|
    ensures MoveDown(MoveUp(s, Some(row)), Some(row - 1)) == s
  {
    var up := MoveUp(s, Some(row));
    var back := MoveDown(up, Some(row - 1));
    assert forall i :: 0 <= i < |s| ==> back[i] == s[i];
  }

  /** Moving a result down and then back up restores the list. */
  lemma MoveDownThenUp<T>(s: seq<T>, row: nat)
    requires row + 1 < |s|
    ensures MoveUp(MoveDown(s, Some(row)), Some(row + 1)) == s
  {
    var down := MoveDown(s, Some(row));
    var back := MoveUp(down, Some(row + 1));
    assert forall i :: 0 <= i < |s| ==> back[i] == s[i];
  }

  /** `duplicate_selected_consortium`: a copy of the selected result goes
      right after it. */
  function Duplicate<T>(s: seq<T>, sel: Option<nat>): (r: seq<T>)
    requires ValidSelection(s, sel)
    ensures sel.None? ==> r == s
    ensures sel.Some? ==> |r| == |s| + 1 && r[..sel.value + 1] == s[..sel.value + 1]
                          && r[sel.value + 1] == s[sel.value] && r[sel.value + 2..] == s[sel.value + 1..]
    ensures sel.Some? ==> multiset(r) == multiset(s) + multiset{s[sel.value]}
  {
    match sel
    case None => s
    case Some(row) => Insert(s, row + 1, s[row])
  }

  /** `delete_selected_consortium`: a confirmed deletion removes exactly the
      selected result. */
  function Delete<T>(s: seq<T>, sel: Option<nat>, reply: ConsortiumEntry.Reply): (r: seq<T>)
    requires ValidSelection(s, sel)
    ensures sel.None? || reply == ConsortiumEntry.No ==> r == s
    ensures sel.Some? && reply == ConsortiumEntry.Yes ==>
              |r| == |s| - 1 && r[..sel.value] == s[..sel.value] && r[sel.value..] == s[sel.value + 1..]
  {
    match sel
    case None => s
    case Some(row) => if reply == ConsortiumEntry.Yes then RemoveAt(s, row) else s
  }

  /** One row of the result list: number, lead company, member count and
      expected score. */
  datatype ListRow = ListRow(number: nat, lead: string, members: nat, score: real)

  /** `populate_consortium_list`: one row per result, numbered from 1; the
      lead is the first member's name, "N/A" for a result without members. */
  function ListRows(results: seq<ConsortiumResult>): (rows: seq<ListRow>)
    ensures |rows| == |results|
    ensures forall i :: 0 <= i < |results| ==>
              (rows[i].number == i + 1
               && rows[i].members == |results[i].details|
               && rows[i].score == results[i].expectedScore
               && (results[i].details != [] ==> rows[i].lead == results[i].details[0].name)
               && (results[i].details == [] ==> rows[i].lead == "N/A"))
  {
    seq(|results|, i requires 0 <= i < |results| =>
      var d := results[i].details;
      ListRow(i + 1, if d != [] then d[0].name else "N/A", |d|, results[i].expectedScore))
  }

  /** Reordering the results reorders the list rows' contents the same way:
      a move keeps each row's lead and member count with its result. */
  lemma ListRowsFollowMoveUp(results: seq<ConsortiumResult>, row: nat)
    requires 0 < row < |results|
    ensures ListRows(MoveUp(results, Some(row)))[row - 1].lead == ListRows(results)[row].lead
    ensures ListRows(MoveUp(results, Some(row)))[row - 1].members == ListRows(results)[row].members
  {
  }

  // ---------------------------------------------------------------------
  // messages

  /** The name and percentage that open a member line. */
  function SharePart(d: Detail, ext: Externals): string {
    d.name + " " + ext.showG(d.share * 100.0) + "%"
  }

  /** A member line of this dialog: name and percentage, a comma right
      after it for every member but the last, then the registration number
      for every member but the lead. */
  function MemberLine(d: Detail, last: bool, ext: Externals): (line: string)
    ensures StartsWith(line, SharePart(d, ext))
    ensures !last <==> |line| > |SharePart(d, ext)| && line[|SharePart(d, ext)|] == ','
    ensures d.role != ConsortiumEntry.Lead <==> |line| > |SharePart(d, ext)| + (if last then 0 else 1)
    ensures d.role != ConsortiumEntry.Lead ==> EndsWith(line, " [" + JodalView.BizNo(d, ext) + "]")
    ensures d.role != ConsortiumEntry.Lead ==>
              line == SharePart(d, ext) + (if last then "" else ",") + " [" + JodalView.BizNo(d, ext) + "]"
    ensures d.role == ConsortiumEntry.Lead ==> line == SharePart(d, ext) + (if last then "" else ",")
  {
    var base := SharePart(d, ext);
    var withComma := if last then base else base + ",";
    var line := if d.role != ConsortiumEntry.Lead then withComma + " [" + JodalView.BizNo(d, ext) + "]" else withComma;
    assert line[..|base|] == base;
    line
  }

  /** The lines of one result's message. */
  function MessageLines(res: ConsortiumResult, ext: Externals): (lines: seq<string>)
    ensures |lines| == |res.details| + 4
    ensures lines[0] == res.gongoNo + " " + res.gongoTitle && lines[1] == ""
    ensures forall k :: 0 <= k < |res.details| ==>
              lines[2 + k] == MemberLine(res.details[k], k == |res.details| - 1, ext)
    ensures lines[|lines| - 2] == "" && lines[|lines| - 1] == JodalView.Closing(|res.details|)
  {
    var ms := MemberLines(res.details, ext);
    var lines := [res.gongoNo + " " + res.gongoTitle, ""] + ms + ["", JodalView.Closing(|res.details|)];
    assert forall k :: 0 <= k < |ms| ==> lines[2 + k] == ms[k];
    lines
  }

  /** The member lines of one result, in order; only the last has no comma. */
  function MemberLines(details: seq<Detail>, ext: Externals): (ls: seq<string>)
    ensures |ls| == |details|
    ensures forall k :: 0 <= k < |details| ==> ls[k] == MemberLine(details[k], k == |details| - 1, ext)
  {
    seq(|details|, k requires 0 <= k < |details| => MemberLine(details[k], k == |details| - 1, ext))
  }

  /** `generate_consortium_messages` of this dialog; no results gives the
      warning instead (`None`). */
  function AllMessages(results: seq<ConsortiumResult>, ext: Externals): (r: Option<string>)
    ensures r.None? <==> results == []
    ensures |results| == 1 ==> r == Some(Message(results[0], ext))
  {
    if results == [] then None
    else Some(Join(Messages(results, ext), JodalView.Separator))
  }

  /** The message for one result. */
  function Message(res: ConsortiumResult, ext: Externals): string {
    Join(MessageLines(res, ext), "\n")
  }

  /** The message of every result, in order. */
  function Messages(results: seq<ConsortiumResult>, ext: Externals): (ms: seq<string>)
    ensures |ms| == |results|
    ensures forall i :: 0 <= i < |results| ==> ms[i] == Message(results[i], ext)
  {
    seq(|results|, i requires 0 <= i < |results| => Message(results[i], ext))
  }

  /** One more result adds the dashed separator and its message at the
      end of the text. */
  lemma AllMessagesAppend(results: seq<ConsortiumResult>, res: ConsortiumResult, ext: Externals)
    requires results != []
    ensures AllMessages(results + [res], ext)
            == Some(AllMessages(results, ext).value + JodalView.Separator + Message(res, ext))
  {
    assert Messages(results + [res], ext) == Messages(results, ext) + [Message(res, ext)];
    JoinSnoc(Messages(results, ext), Message(res, ext), JodalView.Separator);
  }

  /** Breaking a message at newlines gives back its lines, as long as no
      name, title or number holds a newline itself. */
  lemma MessageRoundTrip(res: ConsortiumResult, ext: Externals)
    requires forall k :: 0 <= k < |MessageLines(res, ext)| ==> '\n' !in MessageLines(res, ext)[k]
    ensures Split(Message(res, ext), "\n") == MessageLines(res, ext)
  {
    SplitJoin(MessageLines(res, ext), '\n');
  }
}

=== FILE: review.dfy ===
/** The review dialog of one consortium result: the per-company card flags
    (data freshness, credit status, colour of the final business score) and
    the report of the right-hand panel (share total, full-score checks,
    solo-bid summary, capacity checks, outdated data, the performance base
    amount, and the capacity sums). The result is the scoring engine's
    output and is taken as given. */
module Review {
  import opened Base
  import opened Records

  const ManagementFields: seq<string> := ["부채비율", "유동비율"]
  const PerformanceFields: seq<string> := ["시평", "3년 실적", "5년 실적"]

  function Abs(x: real): real {
    if x < 0.0 then -x else x
  }

  // ---------------------------------------------------------------------
  // freshness

  /** Python's `all(status.get(f, '미지정') == '최신' for f in fields)`. */
  function AllCurrent(c: Company, fields: seq<string>): (b: bool)
    ensures b <==> forall i :: 0 <= i < |fields| ==> StatusOf(c, fields[i]) == Current
  {
    if fields == [] then true
    else StatusOf(c, fields[0]) == Current && AllCurrent(c, fields[1..])
  }

  /** Python's `any(status.get(f, '미지정') != '최신' for f in fields)`, the
      form the report's outdated lists use. */
  function AnyStale(c: Company, fields: seq<string>): bool {
    if fields == [] then false
    else StatusOf(c, fields[0]) != Current || AnyStale(c, fields[1..])
  }

  /** The card's "not current" flag and the report's outdated test agree. */
  lemma {:induction false} StaleIsNotCurrent(c: Company, fields: seq<string>)
    ensures AnyStale(c, fields) <==> !AllCurrent(c, fields)
    decreases |fields|
  {
    if fields != [] {
      StaleIsNotCurrent(c, fields[1..]);
    }
  }

  /** The card shows "[재무 데이터 최신 아님]" when either ratio is not
      current; a ratio without a status counts as not current. */
  function ManagementWarning(c: Company): (w: bool)
    ensures w <==> StatusOf(c, "부채비율") != Current || StatusOf(c, "유동비율") != Current
  {
    assert AllCurrent(c, ManagementFields) <==>
      StatusOf(c, ManagementFields[0]) == Current && StatusOf(c, ManagementFields[1]) == Current;
    !AllCurrent(c, ManagementFields)
  }

  /** The card shows "[실적/시평 데이터 최신 아님]" when any of the capacity
      and performance figures is not current. */
  function PerformanceWarning(c: Company): (w: bool)
    ensures w <==> StatusOf(c, "시평") != Current || StatusOf(c, "3년 실적") != Current
                   || StatusOf(c, "5년 실적") != Current
  {
    assert AllCurrent(c, PerformanceFields) <==>
      StatusOf(c, PerformanceFields[0]) == Current && StatusOf(c, PerformanceFields[1]) == Current
      && StatusOf(c, PerformanceFields[2]) == Current;
    !AllCurrent(c, PerformanceFields)
  }

  /** A field without any recorded status is never current. */
  lemma MissingStatusWarns(c: Company)
    requires "부채비율" !in c.status
    ensures ManagementWarning(c)
  {
  }

  // ---------------------------------------------------------------------
  // company card

  /** What the credit line of a card shows. */
  datatype CreditDisplay = Score(points: real) | Expired | FormatError | NoData

  /** The credit line: the score for a valid rating, the status for an
      expired or malformed one, and "자료 없음" for anything else, including a
      missing status (which reads as "자료없음", written without a space). */
  function CreditLine(d: Detail): (r: CreditDisplay)
    ensures r.Score? <==> d.creditStatus == Some("유효")
    ensures r.Score? ==> r.points == d.creditScore
    ensures r.Expired? <==> d.creditStatus == Some("기간만료")
    ensures r.FormatError? <==> d.creditStatus == Some("형식오류")
    ensures d.creditStatus.None? ==> r == NoData
  {
    var status := d.creditStatus.GetOr("자료없음");
    if status == "유효" then Score(d.creditScore)
    else if status == "기간만료" then Expired
    else if status == "형식오류" then FormatError
    else NoData
  }

  /** The colour of a card's final business score. */
  datatype ScoreColour = Green | Blue | Plain

  /** Green when the score rests on a credit rating, otherwise blue for a
      full 15 points (a missing total reads as 0), otherwise plain. */
  function TotalColour(d: Detail): (c: ScoreColour)
    ensures c == Green <==> d.basis == "신용평가"
    ensures c == Blue <==> d.basis != "신용평가" && d.businessTotal.Some?
                           && Abs(d.businessTotal.value - 15.0) < 0.001
  {
    if d.basis == "신용평가" then Green
    else if Abs(d.businessTotal.GetOr(0.0) - 15.0) < 0.001 then Blue
    else Plain
  }

  // ---------------------------------------------------------------------
  // right panel

  /** The members' shares in percent, summed. */
  function ShareTotalPercent(details: seq<Detail>): real {
    SumOf((d: Detail) => d.share, details) * 100.0
  }

  /** The share total is reported as met within 0.01 percentage points. */
  function SharesOk(details: seq<Detail>): (ok: bool)
    ensures ok <==> 99.99 < ShareTotalPercent(details) < 100.01
  {
    Abs(ShareTotalPercent(details) - 100.0) < 0.01
  }

  /** The share verdict does not depend on the order of the members: the
      two parts of any split can be swapped. */
  lemma SharesOkOrderFree(a: seq<Detail>, b: seq<Detail>)
    ensures SharesOk(a + b) == SharesOk(b + a)
  {
    SumOfAppend((d: Detail) => d.share, a, b);
    SumOfAppend((d: Detail) => d.share, b, a);
  }

  /** The business-score verdict: full marks, or the deduction and the
      members whose own total (15 when missing) is below 15. */
  datatype ScoreReport = Full | Deducted(deduction: real, low: seq<Detail>)

  predicate BelowFull(d: Detail) {
    d.businessTotal.GetOr(15.0) < 15.0
  }

  function BusinessReport(finalScore: real, details: seq<Detail>): (r: ScoreReport)
    ensures r.Full? <==> Abs(finalScore - 15.0) < 0.001
    ensures r.Deducted? ==> r.deduction == 15.0 - finalScore && Subseq(r.low, details)
    ensures r.Deducted? ==> forall i :: 0 <= i < |r.low| ==>
              r.low[i].businessTotal.Some? && r.low[i].businessTotal.value < 15.0
    ensures r.Deducted? ==> forall i :: (0 <= i < |details| && details[i].businessTotal.Some?
              && details[i].businessTotal.value < 15.0) ==> details[i] in r.low
  {
    if Abs(finalScore - 15.0) < 0.001 then Full
    else
      FilterIsSubseq(BelowFull, details);
      Deducted(15.0 - finalScore, Filter(BelowFull, details))
  }

  /** The performance-score verdict: full marks, or the score with the
      performance ratio. */
  datatype PerformanceVerdict = PerfFull | PerfShort(score: real, ratio: real)

  function PerformanceReport(finalScore: real, ratio: real): (r: PerformanceVerdict)
    ensures r.PerfFull? <==> Abs(finalScore - 15.0) < 0.001
    ensures r.PerfShort? ==> r.score == finalScore && r.ratio == ratio
  {
    if Abs(finalScore - 15.0) < 0.001 then PerfFull else PerfShort(finalScore, ratio)
  }

  /** One line of the solo-bid summary. */
  datatype SoloLine = AllNeedConsortium | CanBidAlone(bid: SoloBid) | CannotBidAlone(bid: SoloBid) | NoParticipants

  function HasPossible(solo: seq<SoloBid>): (b: bool)
    ensures b <==> exists i :: 0 <= i < |solo| && solo[i].possible
  {
    if solo == [] then false
    else
      assert forall i :: 1 <= i < |solo| ==> solo[i] == solo[1..][i - 1];
      solo[0].possible || HasPossible(solo[1..])
  }

  function SoloLineOf(s: SoloBid): SoloLine {
    if s.possible then CanBidAlone(s) else CannotBidAlone(s)
  }

  /** One line per member, in order. */
  function SoloLines(solo: seq<SoloBid>): (r: seq<SoloLine>)
    ensures |r| == |solo|
    ensures forall i :: 0 <= i < |solo| ==> r[i] == (if solo[i].possible then CanBidAlone(solo[i]) else CannotBidAlone(solo[i]))
  {
    seq(|solo|, i requires 0 <= i < |solo| => SoloLineOf(solo[i]))
  }

  /** The solo-bid summary: one line per member in order; no members gives
      "참여 업체 없음", and when nobody can bid alone the green "정상" header
      comes first. */
  function SoloSummary(solo: seq<SoloBid>): (r: seq<SoloLine>)
    ensures |solo| <= |r| <= |solo| + 1 && |r| >= 1
    ensures solo == [] ==> r == [NoParticipants]
    ensures solo != [] ==> (r[0] == AllNeedConsortium <==> forall i :: 0 <= i < |solo| ==> !solo[i].possible)
    ensures solo != [] ==> r[|r| - |solo|..] == SoloLines(solo)
  {
    if solo == [] then [NoParticipants]
    else if !HasPossible(solo) then [AllNeedConsortium] + SoloLines(solo)
    else
      SoloLines(solo)
  }

  /** One line of the individual-capacity report. */
  datatype CapacityLine = CapacityHeader(allPassed: bool) | Verdict(name: string, passed: bool) | Note(message: string)

  function AllPassed(checks: seq<CapacityCheck>): (b: bool)
    ensures b <==> forall i :: 0 <= i < |checks| ==> checks[i].passed
  {
    if checks == [] then true
    else
      assert forall i :: 1 <= i < |checks| ==> checks[i] == checks[1..][i - 1];
      checks[0].passed && AllPassed(checks[1..])
  }

  function CheckLines(checks: seq<CapacityCheck>): (r: seq<CapacityLine>)
    ensures |r| == 2 * |checks|
    ensures forall i :: 0 <= i < |checks| ==>
              r[2 * i] == Verdict(checks[i].name, checks[i].passed) && r[2 * i + 1] == Note(checks[i].message)
  {
    if checks == [] then []
    else
      var rest := CheckLines(checks[1..]);
      var r := [Verdict(checks[0].name, checks[0].passed), Note(checks[0].message)] + rest;
      assert forall i :: 1 <= i < |checks| ==> checks[i] == checks[1..][i - 1] && r[2 * i] == rest[2 * (i - 1)];
      r
  }

  /** The individual-capacity report: nothing for no checks, otherwise a
      header saying whether all members passed, then a verdict and a note
      per member. */
  function CapacityReport(checks: seq<CapacityCheck>): (r: seq<CapacityLine>)
    ensures checks == [] ==> r == []
    ensures checks != [] ==> |r| == 1 + 2 * |checks|
    ensures checks != [] ==> r[0] == CapacityHeader(forall i :: 0 <= i < |checks| ==> checks[i].passed)
    ensures checks != [] ==> r[1..] == CheckLines(checks)
  {
    if checks == [] then [] else [CapacityHeader(AllPassed(checks))] + CheckLines(checks)
  }

  /** The consortium capacity-limit block, shown unless there is no result
      or its message says there is no limit. */
  function LimitBlock(limit: Option<CapacityCheck>): (r: Option<CapacityCheck>)
    ensures r.Some? <==> limit.Some? && limit.value.message != "시평액 제한 없음"
    ensures r.Some? ==> r == limit
  {
    if limit.Some? && limit.value.message != "시평액 제한 없음" then limit else None
  }

  predicate ManagementStale(d: Detail) {
    AnyStale(d.data, ManagementFields)
  }

  predicate PerformanceStale(d: Detail) {
    AnyStale(d.data, PerformanceFields)
  }

  /** The members listed under "재무 데이터 갱신 필요", in order: exactly
      those whose card carries the management warning. */
  function ManagementOutdated(details: seq<Detail>): (r: seq<Detail>)
    ensures Subseq(r, details)
    ensures forall i :: 0 <= i < |r| ==> ManagementWarning(r[i].data)
    ensures forall i :: 0 <= i < |details| && ManagementWarning(details[i].data) ==> details[i] in r
  {
    forall d: Detail ensures ManagementStale(d) <==> ManagementWarning(d.data) {
      StaleIsNotCurrent(d.data, ManagementFields);
    }
    FilterIsSubseq(ManagementStale, details);
    Filter(ManagementStale, details)
  }

  /** The members listed under "실적/시평 데이터 갱신 필요", in order:
      exactly those whose card carries the performance warning. */
  function PerformanceOutdated(details: seq<Detail>): (r: seq<Detail>)
    ensures Subseq(r, details)
    ensures forall i :: 0 <= i < |r| ==> PerformanceWarning(r[i].data)
    ensures forall i :: 0 <= i < |details| && PerformanceWarning(details[i].data) ==> details[i] in r
  {
    forall d: Detail ensures PerformanceStale(d) <==> PerformanceWarning(d.data) {
      StaleIsNotCurrent(d.data, PerformanceFields);
    }
    FilterIsSubseq(PerformanceStale, details);
    Filter(PerformanceStale, details)
  }

  /** The price key the performance figures rest on, and its label. */
  function BaseKey(key: Option<string>): string {
    key.GetOr("estimation_price")
  }

  function BaseKeyLabel(key: Option<string>): (name: string)
    ensures name == "기초금액" <==> key == Some("notice_base_amount")
    ensures name != "기초금액" ==> name == "추정가격"
  {
    if BaseKey(key) == "notice_base_amount" then "기초금액" else "추정가격"
  }

  /** The base amount shown: the price under the key, 0 when absent. */
  function BaseAmount(key: Option<string>, prices: map<string, real>): (a: real)
    ensures key.None? && "estimation_price" in prices ==> a == prices["estimation_price"]
    ensures BaseKey(key) !in prices ==> a == 0.0
  {
    if BaseKey(key) in prices then prices[BaseKey(key)] else 0.0
  }

  // ---------------------------------------------------------------------
  // capacity sums

  /** A member's construction capacity (시평), 0 when it does not parse. */
  function Capacity(d: Detail, ext: Externals): real {
    ext.parseAmount(VStr(Str(Get(d.data, "시평", VNum(0.0)), ext))).GetOr(0.0)
  }

  /** The capacity total shown in the panel. */
  function CapacitySum(details: seq<Detail>, ext: Externals): real {
    SumOf((d: Detail) => Capacity(d, ext), details)
  }

  /** Capacity sums add up over a split of the member list. */
  lemma {:induction false} CapacitySumAppend(a: seq<Detail>, b: seq<Detail>, ext: Externals)
    ensures CapacitySum(a + b, ext) == CapacitySum(a, ext) + CapacitySum(b, ext)
    decreases |a|
  {
    if a == [] {
      assert a + b == b;
    } else {
      assert (a + b)[1..] == a[1..] + b;
      CapacitySumAppend(a[1..], b, ext);
    }
  }

  /** The share-weighted capacity as the panel computes it: each capacity
      times the share divided by 100, although the share is already a
      decimal. */
  function CapacityRatioAsWritten(details: seq<Detail>, ext: Externals): real {
    SumOf((d: Detail) => Capacity(d, ext) * (d.share / 100.0), details)
  }

  /** The share-weighted capacity: each capacity times its decimal share. */
  function CapacityRatio(details: seq<Detail>, ext: Externals): real {
    SumOf((d: Detail) => Capacity(d, ext) * d.share, details)
  }

  /** The panel's figure is always a hundredth of the share-weighted
      capacity. */
  lemma {:induction false} AsWrittenIsHundredth(details: seq<Detail>, ext: Externals)
    ensures CapacityRatioAsWritten(details, ext) * 100.0 == CapacityRatio(details, ext)
    decreases |details|
  {
    if details != [] {
      AsWrittenIsHundredth(details[1..], ext);
    }
  }

  /** A sole member holding the whole share carries its full capacity. */
  lemma SoleMemberRatio(d: Detail, ext: Externals)
    requires d.share == 1.0
    ensures CapacityRatio([d], ext) == Capacity(d, ext)
  {
    var f := (x: Detail) => Capacity(x, ext) * x.share;
    assert [d][1..] == [];
    assert SumOf(f, [d]) == f(d) + SumOf(f, []);
  }

  /** For a sole member with a capacity of 1,000,000 won and the whole
      share, the panel shows 10,000 won. */
  lemma RatioCounterexample(d: Detail, ext: Externals)
    requires d.share == 1.0 && Capacity(d, ext) == 1000000.0
    ensures CapacityRatioAsWritten([d], ext) == 10000.0
    ensures CapacityRatio([d], ext) == 1000000.0
  {
    var f := (x: Detail) => Capacity(x, ext) * (x.share / 100.0);
    assert [d][1..] == [];
    assert SumOf(f, [d]) == f(d) + SumOf(f, []);
    SoleMemberRatio(d, ext);
  }
}

=== FILE: search_logic.dfy ===
/** The spreadsheet search: text cleaning, the freshness label of a cell's
    fill colour, the per-field extraction of each company column below a
    "회사명" header row, and the filter pipeline over the extracted records.
    The workbook is given as data; loading it from disk is not modelled. */
module SearchLogic {
  import opened Base
  import opened Text
  import opened Records

  // ---------------------------------------------------------------------
  // clean_text

  /** A character the cleaning regex `[\s\x00-\x1F\x7F]` matches. */
  predicate IsJunk(c: char) {
    IsSpace(c) || c <= '\U{1F}' || c == '\U{7F}'
  }

  /** Length of the run of junk characters at the start of `s`. */
  function JunkRun(s: string): (k: nat)
    ensures k <= |s|
    ensures s != [] && IsJunk(s[0]) ==> k > 0
    ensures k < |s| ==> !IsJunk(s[k])
    ensures forall i :: 0 <= i < k ==> IsJunk(s[i])
  {
    if s == [] || !IsJunk(s[0]) then 0 else 1 + JunkRun(s[1..])
  }

  /** The characters of `s` the cleaning regex does not match, in order:
      what any cleaning of `s` has to keep. */
  function Solid(s: string): string
    decreases |s|
  {
    if s == [] then [] else (if IsJunk(s[0]) then [] else [s[0]]) + Solid(s[1..])
  }

  lemma {:induction false} SolidAppend(a: string, b: string)
    ensures Solid(a + b) == Solid(a) + Solid(b)
    decreases |a|
  {
    if a != [] {
      var h: string := if IsJunk(a[0]) then [] else [a[0]];
      assert (a + b)[0] == a[0] && (a + b)[1..] == a[1..] + b;
      SolidAppend(a[1..], b);
      calc {
        Solid(a + b);
        h + Solid(a[1..] + b);
        h + (Solid(a[1..]) + Solid(b));
        (h + Solid(a[1..])) + Solid(b);
      }
    } else {
      assert a + b == b;
    }
  }

  lemma {:induction false} SolidOfJunk(s: string)
    requires forall i :: 0 <= i < |s| ==> IsJunk(s[i])
    ensures Solid(s) == []
    decreases |s|
  {
    if s != [] {
      SolidOfJunk(s[1..]);
    }
  }

  /** Collapsing runs of junk into spaces keeps the other characters. */
  lemma {:induction false} SolidCollapse(s: string)
    ensures Solid(Collapse(s)) == Solid(s)
    decreases |s|
  {
    if s != [] {
      if IsJunk(s[0]) {
        var k := JunkRun(s);
        SolidCollapse(s[k..]);
        SolidAppend(" ", Collapse(s[k..]));
        assert s == s[..k] + s[k..];
        SolidAppend(s[..k], s[k..]);
        SolidOfJunk(s[..k]);
      } else {
        SolidCollapse(s[1..]);
        SolidAppend([s[0]], Collapse(s[1..]));
      }
    }
  }

  /** Stripping keeps the characters that are not junk. */
  lemma SolidStrip(t: string)
    ensures Solid(Strip(t)) == Solid(t)
  {
    var u := t[LeadingSpaces(t)..];
    assert Strip(t) == u[..|u| - TrailingSpaces(u)];
    SolidDropPrefix(t, LeadingSpaces(t));
    SolidDropSuffix(u, |u| - TrailingSpaces(u));
  }

  /** Cutting junk off the front keeps the other characters. */
  lemma SolidDropPrefix(t: string, a: nat)
    requires a <= |t|
    requires forall i :: 0 <= i < a ==> IsJunk(t[i])
    ensures Solid(t[a..]) == Solid(t)
  {
    var x := t[..a];
    assert t == x + t[a..];
    SolidOfJunk(x);
    SolidAppend(x, t[a..]);
  }

  /** Cutting junk off the back keeps the other characters. */
  lemma SolidDropSuffix(t: string, b: nat)
    requires b <= |t|
    requires forall i :: b <= i < |t| ==> IsJunk(t[i])
    ensures Solid(t[..b]) == Solid(t)
  {
    var y, z := t[..b], t[b..];
    assert t == y + z;
    forall i | 0 <= i < |z| ensures IsJunk(z[i]) {
      assert z[i] == t[b + i];
    }
    SolidOfJunk(z);
    SolidAppend(y, z);
  }

  /** `re.sub(r'[\s\x00-\x1F\x7F]+', ' ', s)`: every maximal run of junk
      characters becomes one space. */
  function Collapse(s: string): (r: string)
    ensures forall i :: 0 <= i < |r| ==> r[i] == ' ' || !IsJunk(r[i])
    ensures forall i :: 0 <= i < |r| - 1 ==> !(r[i] == ' ' && r[i + 1] == ' ')
    ensures s != [] ==> r != [] && (r[0] == ' ' <==> IsJunk(s[0]))
    decreases |s|
  {
    if s == [] then []
    else if IsJunk(s[0]) then " " + Collapse(s[JunkRun(s)..])
    else [s[0]] + Collapse(s[1..])
  }

  /** The shape `clean_text` gives a string: no junk other than plain
      spaces, no two spaces in a row, no whitespace at either end. */
  predicate IsClean(t: string) {
    (forall i :: 0 <= i < |t| ==> t[i] == ' ' || !IsJunk(t[i]))
    && (forall i :: 0 <= i < |t| - 1 ==> !(t[i] == ' ' && t[i + 1] == ' '))
    && (t == [] || (!IsSpace(t[0]) && !IsSpace(t[|t| - 1])))
  }

  /** `clean_text` on a string: the junk-separated words of `s`, joined by
      single spaces. */
  function CleanText(s: string): (r: string)
    ensures r == Join(JunkWords(s), " ")
    ensures IsClean(r)
    ensures forall i :: 0 <= i < |r| ==> !(r[i] <= '\U{1F}' || r[i] == '\U{7F}')
    ensures Solid(r) == Solid(s)
  {
    var t := Collapse(s);
    StripCollapsed(t);
    SolidCollapse(s);
    SolidStrip(t);
    CollapseWords(s);
    StripFramed(Lead(s), JunkWords(s), Trail(s));
    Strip(t)
  }

  /** No character of `w` is junk. */
  predicate NoJunk(w: string) {
    forall i :: 0 <= i < |w| ==> !IsJunk(w[i])
  }

  /** Length of the run of characters that are not junk at the start of
      `s`. */
  function SolidRun(s: string): (k: nat)
    ensures k <= |s|
    ensures forall i :: 0 <= i < k ==> !IsJunk(s[i])
    ensures k < |s| ==> IsJunk(s[k])
    ensures s != [] && !IsJunk(s[0]) ==> k > 0
  {
    if s == [] || IsJunk(s[0]) then 0 else 1 + SolidRun(s[1..])
  }

  /** The junk-separated words of `s`: its maximal runs of characters the
      cleaning regex does not match, in order. */
  function JunkWords(s: string): (ws: seq<string>)
    ensures forall k :: 0 <= k < |ws| ==> ws[k] != [] && NoJunk(ws[k])
    ensures ws == [] ==> forall i :: 0 <= i < |s| ==> IsJunk(s[i])
    decreases |s|
  {
    if s == [] then []
    else if IsJunk(s[0]) then
      var k := JunkRun(s);
      var t := s[k..];
      assert forall i :: k <= i < |s| ==> s[i] == t[i - k];
      JunkWords(t)
    else
      var k := SolidRun(s);
      assert NoJunk(s[..k]);
      [s[..k]] + JunkWords(s[k..])
  }

  /** The space `Collapse` puts in front: one when `s` starts with junk. */
  function Lead(s: string): string {
    if s != [] && IsJunk(s[0]) then " " else ""
  }

  /** The space `Collapse` puts behind: one when `s` ends with junk that
      follows some word. */
  function Trail(s: string): string {
    if s != [] && JunkWords(s) != [] && IsJunk(s[|s| - 1]) then " " else ""
  }

  /** Characters that are not junk pass through collapsing unchanged. */
  lemma {:induction false} CollapseSolid(w: string, t: string)
    requires NoJunk(w)
    ensures Collapse(w + t) == w + Collapse(t)
    decreases |w|
  {
    if w == [] {
      assert w + t == t;
    } else {
      assert (w + t)[0] == w[0] && (w + t)[1..] == w[1..] + t;
      assert NoJunk(w[1..]) by {
        assert forall i :: 0 <= i < |w| - 1 ==> w[1..][i] == w[i + 1];
      }
      CollapseSolid(w[1..], t);
      assert w == [w[0]] + w[1..];
    }
  }

  /** Collapsing gives the junk-separated words joined by single spaces,
      framed by the leading and trailing space, if any. */
  lemma {:induction false} CollapseWords(s: string)
    ensures Collapse(s) == Lead(s) + Join(JunkWords(s), " ") + Trail(s)
    decreases |s|
  {
    if s == [] {
    } else if IsJunk(s[0]) {
      CollapseWords(s[JunkRun(s)..]);
      CollapseWordsJunk(s);
    } else {
      CollapseWords(s[SolidRun(s)..]);
      CollapseWordsSolid(s);
    }
  }

  /** The step of `CollapseWords` over a leading run of junk. */
  lemma {:induction false} CollapseWordsJunk(s: string)
    requires s != [] && IsJunk(s[0])
    requires var t := s[JunkRun(s)..]; Collapse(t) == Lead(t) + Join(JunkWords(t), " ") + Trail(t)
    ensures Collapse(s) == Lead(s) + Join(JunkWords(s), " ") + Trail(s)
  {
    var k := JunkRun(s);
    var t := s[k..];
    assert Collapse(s) == " " + Collapse(t);
    assert JunkWords(s) == JunkWords(t);
    assert Lead(s) == " ";
    assert Lead(t) == "" by {
      if t != [] {
        assert t[0] == s[k];
      }
    }
    assert Trail(t) == Trail(s) by {
      if t != [] {
        assert t[|t| - 1] == s[|s| - 1];
      }
    }
    Prefix(Collapse(s), Collapse(t), Join(JunkWords(t), " "), Trail(t));
  }

  /** The concatenation step of `CollapseWordsJunk`: a space in front of
      a collapsed rest that starts with a word or is empty. */
  lemma {:induction false} Prefix(cs: string, ct: string, j: string, trail: string)
    requires cs == " " + ct && ct == "" + j + trail
    ensures cs == " " + j + trail
  {
  }

  /** The step of `CollapseWords` over a leading word. */
  lemma {:induction false} CollapseWordsSolid(s: string)
    requires s != [] && !IsJunk(s[0])
    requires var t := s[SolidRun(s)..]; Collapse(t) == Lead(t) + Join(JunkWords(t), " ") + Trail(t)
    ensures Collapse(s) == Lead(s) + Join(JunkWords(s), " ") + Trail(s)
  {
    var k := SolidRun(s);
    var w, t := s[..k], s[k..];
    assert s == w + t;
    assert NoJunk(w);
    CollapseSolid(w, t);
    var ws := JunkWords(t);
    var j := Join(ws, " ");
    SolidWordsJoin(s);
    SolidTrail(s);
    assert Lead(s) == "";
    if t != [] {
      assert t[0] == s[k];
      assert Lead(t) == " ";
    }
    var whole := Join(JunkWords(s), " ");
    var tail := if t != [] && ws == [] then " " else Trail(t);
    assert Trail(s) == tail;
    Frame(Collapse(s), Collapse(t), w, if t == [] then "" else " ", j, Trail(t), whole, tail);
  }

  /** The concatenation step of `CollapseWordsSolid`: a word in front of
      a collapsed rest. */
  lemma {:induction false} Frame(cs: string, ct: string, w: string, lead: string, j: string,
                                  trail: string, whole: string, tail: string)
    requires cs == w + ct && ct == lead + j + trail
    requires lead == "" ==> ct == [] && whole == w && tail == ""
    requires lead != "" && j == [] ==> lead == " " && trail == "" && whole == w && tail == " "
    requires lead != "" && j != [] ==> lead == " " && whole == w + " " + j && tail == trail
    ensures cs == "" + whole + tail
  {
  }

  /** The words of a text that starts with a word: that word, then the
      words of the rest. */
  lemma {:induction false} SolidWordsJoin(s: string)
    requires s != [] && !IsJunk(s[0])
    ensures var k := SolidRun(s);
            var ws := JunkWords(s[k..]);
            Join(JunkWords(s), " ") == if ws == [] then s[..k] else s[..k] + " " + Join(ws, " ")
  {
    var k := SolidRun(s);
    var ws := JunkWords(s[k..]);
    assert JunkWords(s) == [s[..k]] + ws;
    if ws != [] {
      JoinCons(s[..k], ws, " ");
    }
  }

  /** The trailing space of a text that starts with a word: that of the
      rest, except when the rest is junk only. */
  lemma {:induction false} SolidTrail(s: string)
    requires s != [] && !IsJunk(s[0])
    ensures var t := s[SolidRun(s)..];
            Trail(s) == if t != [] && JunkWords(t) == [] then " " else Trail(t)
  {
    var k := SolidRun(s);
    var t := s[k..];
    assert JunkWords(s) == [s[..k]] + JunkWords(t);
    if t == [] {
      assert s[|s| - 1] == s[..k][k - 1];
    } else {
      assert t[|t| - 1] == s[|s| - 1];
    }
  }

  /** A single-space join of words without junk starts and ends with a
      character that is not junk. */
  lemma {:induction false} JoinedWordsEnds(ws: seq<string>)
    requires ws != []
    requires forall k :: 0 <= k < |ws| ==> ws[k] != [] && NoJunk(ws[k])
    ensures var j := Join(ws, " "); j != [] && !IsJunk(j[0]) && !IsJunk(j[|j| - 1])
    decreases |ws|
  {
    if |ws| > 1 {
      JoinedWordsEnds(ws[1..]);
      var rest := Join(ws[1..], " ");
      var j := Join(ws, " ");
      assert j == ws[0] + " " + rest;
      assert j[0] == ws[0][0];
      assert j[|j| - 1] == rest[|rest| - 1];
    }
  }

  /** Stripping the framing spaces off the joined words leaves the words. */
  lemma {:induction false} StripFramed(lead: string, ws: seq<string>, trail: string)
    requires lead == "" || lead == " "
    requires trail == "" || trail == " "
    requires ws == [] ==> trail == ""
    requires forall k :: 0 <= k < |ws| ==> ws[k] != [] && NoJunk(ws[k])
    ensures Strip(lead + Join(ws, " ") + trail) == Join(ws, " ")
  {
    if ws == [] {
      StripLone(lead);
      assert lead + Join(ws, " ") + trail == lead;
    } else {
      JoinedWordsEnds(ws);
      StripAround(lead, Join(ws, " "), trail);
    }
  }

  /** A lone space strips to nothing. */
  lemma {:induction false} StripLone(lead: string)
    requires lead == "" || lead == " "
    ensures Strip(lead) == ""
  {
    if lead != "" {
      assert LeadingSpaces(lead) == 1;
    }
  }

  /** Stripping at most one space off each end of a text that neither
      starts nor ends with whitespace gives the text. */
  lemma {:induction false} StripAround(lead: string, j: string, trail: string)
    requires lead == "" || lead == " "
    requires trail == "" || trail == " "
    requires j != [] && !IsSpace(j[0]) && !IsSpace(j[|j| - 1])
    ensures Strip(lead + j + trail) == j
  {
    var t := lead + j + trail;
    var u := j + trail;
    LeadingFramed(lead, u);
    assert t == lead + u;
    assert t[LeadingSpaces(t)..] == u;
    TrailingFramed(j, trail);
    assert Strip(t) == u[..|u| - TrailingSpaces(u)];
  }

  /** A leading space, if any, is all that `strip` finds in front of text
      that starts with a character that is not whitespace. */
  lemma {:induction false} LeadingFramed(lead: string, u: string)
    requires lead == "" || lead == " "
    requires u != [] && !IsSpace(u[0])
    ensures LeadingSpaces(lead + u) == |lead|
  {
    var t := lead + u;
    var a := LeadingSpaces(t);
    assert t[|lead|] == u[0];
    if lead != "" {
      assert t[0] == ' ';
    }
  }

  /** A trailing space, if any, is all that `strip` finds behind text that
      ends with a character that is not whitespace. */
  lemma {:induction false} TrailingFramed(j: string, trail: string)
    requires trail == "" || trail == " "
    requires j != [] && !IsSpace(j[|j| - 1])
    ensures var u := j + trail; TrailingSpaces(u) == |trail| && u[..|u| - |trail|] == j
  {
    var u := j + trail;
    var b := TrailingSpaces(u);
    assert u[|j| - 1] == j[|j| - 1];
    if trail != "" {
      assert u[|u| - 1] == ' ';
    }
  }

  /** Stripping a collapsed string leaves a clean one. */
  lemma StripCollapsed(t: string)
    requires forall i :: 0 <= i < |t| ==> t[i] == ' ' || !IsJunk(t[i])
    requires forall i :: 0 <= i < |t| - 1 ==> !(t[i] == ' ' && t[i + 1] == ' ')
    ensures IsClean(Strip(t))
    ensures forall i :: 0 <= i < |Strip(t)| ==> !(Strip(t)[i] <= '\U{1F}' || Strip(t)[i] == '\U{7F}')
  {
    var a := LeadingSpaces(t);
    var u := t[a..];
    var r := u[..|u| - TrailingSpaces(u)];
    assert r == Strip(t);
    assert forall i :: 0 <= i < |r| ==> r[i] == t[a + i];
  }

  /** `clean_text` on any cell value: only text is changed. */
  function CleanValue(v: Value): (r: Value)
    ensures !v.VStr? ==> r == v
    ensures v.VStr? ==> r == VStr(CleanText(v.s))
    ensures v.VStr? ==> r.VStr? && IsClean(r.s) && Solid(r.s) == Solid(v.s)
  {
    match v
    case VStr(s) => VStr(CleanText(s))
    case _ => v
  }

  /** A clean string is left alone by the collapsing step. */
  lemma {:induction false} CollapseFixed(t: string)
    requires forall i :: 0 <= i < |t| ==> t[i] == ' ' || !IsJunk(t[i])
    requires forall i :: 0 <= i < |t| - 1 ==> !(t[i] == ' ' && t[i + 1] == ' ')
    ensures Collapse(t) == t
    decreases |t|
  {
    if t != [] {
      CollapseFixed(t[1..]);
      if IsJunk(t[0]) {
        assert JunkRun(t) == 1;
      }
    }
  }

  /** Cleaning is idempotent: a cleaned string is a fixed point. */
  lemma CleanTextIdempotent(s: string)
    ensures CleanText(CleanText(s)) == CleanText(s)
  {
    CleanFixed(CleanText(s));
  }

  lemma CleanFixed(t: string)
    requires IsClean(t)
    ensures CleanText(t) == t
  {
    CollapseFixed(t);
    StripFixed(t);
    assert Strip(t) == t;
  }

  // ---------------------------------------------------------------------
  // get_status_from_color

  /** What the cell's fill colour object is: not an openpyxl `Color` at all,
      a theme colour, an RGB colour (its `rgb` value may be missing), or a
      colour of some other type (indexed, auto). */
  datatype ColorDesc = NotAColor | ThemeColor(theme: int) | RgbColor(rgb: Option<string>) | OtherColorType

  /** `get_status_from_color`. */
  function StatusFromColor(c: ColorDesc): (r: Freshness)
    ensures r != OutOfRange
    ensures c.NotAColor? || c.OtherColorType? ==> r == Unspecified
  {
    match c
    case ThemeColor(t) =>
      if t == 6 then Current
      else if t == 3 then OneYearOld
      else if t == 0 || t == 1 then OverOneYearOld
      else Unspecified
    case RgbColor(rgb) =>
      var hex := if rgb.Some? && rgb.value != "" then Upper(rgb.value) else "00000000";
      if hex == "FFE2EFDA" then Current
      else if hex == "FFDDEBF7" then OneYearOld
      else if hex == "FFFFFFFF" || hex == "00000000" || hex == "FFFDEDEC" then OverOneYearOld
      else Unspecified
    case _ => Unspecified
  }

  /** Upper-casing twice is upper-casing once. */
  lemma UpperIdempotent(s: string)
    ensures Upper(Upper(s)) == Upper(s)
  {
  }

  /** RGB colours are compared regardless of letter case, and a missing or
      empty rgb value reads as fully transparent black ("00000000"), which
      counts as more than a year old. */
  lemma RgbCaseAndDefault(rgb: string)
    ensures StatusFromColor(RgbColor(Some(rgb))) == StatusFromColor(RgbColor(Some(Upper(rgb))))
    ensures StatusFromColor(RgbColor(None)) == StatusFromColor(RgbColor(Some(""))) == OverOneYearOld
  {
    UpperIdempotent(rgb);
  }

  /** The RGB code table, compared in upper case: one code is current, one
      is a year old, three (and an empty code, read as "00000000") are more
      than a year old, and every other code is unspecified. */
  lemma {:induction false} RgbLabels(x: string)
    ensures StatusFromColor(RgbColor(Some(x))) == Current <==> Upper(x) == "FFE2EFDA"
    ensures StatusFromColor(RgbColor(Some(x))) == OneYearOld <==> Upper(x) == "FFDDEBF7"
    ensures StatusFromColor(RgbColor(Some(x))) == OverOneYearOld <==>
              x == "" || Upper(x) == "FFFFFFFF" || Upper(x) == "00000000" || Upper(x) == "FFFDEDEC"
    ensures StatusFromColor(RgbColor(Some(x))) == Unspecified <==>
              x != "" && Upper(x) != "FFE2EFDA" && Upper(x) != "FFDDEBF7"
              && Upper(x) != "FFFFFFFF" && Upper(x) != "00000000" && Upper(x) != "FFFDEDEC"
  {
    if x == "" {
      assert Upper(x) == "";
    }
  }

  /** Theme colours: 6 is current, 3 is a year old, 0 and 1 are older; every
      other theme number is unspecified. */
  lemma ThemeLabels(t: int)
    ensures StatusFromColor(ThemeColor(t)) == Current <==> t == 6
    ensures StatusFromColor(ThemeColor(t)) == OneYearOld <==> t == 3
    ensures StatusFromColor(ThemeColor(t)) == OverOneYearOld <==> t == 0 || t == 1
  {
  }

  // ---------------------------------------------------------------------
  // credit rating normalisation

  /** `" ".join(v.strip().split()).replace(' ', '\n', 1)`. */
  function NormalizeCredit(s: string): (r: string)
    ensures multiset(r)['\n'] <= 1
    ensures multiset(r)['\n'] == 1 <==> |SplitWords(Strip(s))| >= 2
    ensures forall i :: 0 <= i < |r| && IsSpace(r[i]) ==> r[i] == ' ' || r[i] == '\n'
    ensures |SplitWords(Strip(s))| >= 2 ==>
              StartsWith(r, SplitWords(Strip(s))[0] + "\n")
    ensures SplitWords(Strip(s)) == [] ==> r == ""
    ensures |SplitWords(Strip(s))| == 1 ==> r == SplitWords(Strip(s))[0]
    ensures |SplitWords(Strip(s))| >= 2 ==>
              r == SplitWords(Strip(s))[0] + "\n" + Join(SplitWords(Strip(s))[1..], " ")
  {
    var words := SplitWords(Strip(s));
    CreditShape(words);
    ReplaceFirstChar(Join(words, " "), ' ', '\n')
  }

  lemma NoSpaceExcludes(w: string, c: char)
    requires NoSpace(w) && IsSpace(c)
    ensures c !in w
  {
    assert forall i :: 0 <= i < |w| ==> w[i] != c;
  }

  /** Replacing the first separator of a single-space join of words by a
      newline leaves exactly one newline when there are two words or more,
      right after the first word, and none otherwise. */
  lemma CreditShape(words: seq<string>)
    requires forall k :: 0 <= k < |words| ==> NoSpace(words[k])
    ensures var r := ReplaceFirstChar(Join(words, " "), ' ', '\n');
            && multiset(r)['\n'] <= 1
            && (multiset(r)['\n'] == 1 <==> |words| >= 2)
            && (forall i :: 0 <= i < |r| && IsSpace(r[i]) ==> r[i] == ' ' || r[i] == '\n')
            && (|words| >= 2 ==> StartsWith(r, words[0] + "\n"))
            && (words == [] ==> r == "")
            && (|words| == 1 ==> r == words[0])
            && (|words| >= 2 ==> r == words[0] + "\n" + Join(words[1..], " "))
  {
    if |words| >= 2 {
      CreditShapeMany(words);
    } else {
      CreditShapeOne(words);
    }
  }

  lemma CreditShapeMany(words: seq<string>)
    requires forall k :: 0 <= k < |words| ==> NoSpace(words[k])
    requires |words| >= 2
    ensures var r := ReplaceFirstChar(Join(words, " "), ' ', '\n');
            && multiset(r)['\n'] == 1
            && (forall i :: 0 <= i < |r| && IsSpace(r[i]) ==> r[i] == ' ' || r[i] == '\n')
            && StartsWith(r, words[0] + "\n")
            && r == words[0] + "\n" + Join(words[1..], " ")
  {
    var tail := words[1..];
    forall k | 0 <= k < |tail| ensures '\n' !in tail[k] {
      NoSpaceExcludes(tail[k], '\n');
    }
    JoinExcludes(tail, " ", '\n');
    JoinSpaces(tail);
    JoinCons(words[0], tail, " ");
    NoSpaceExcludes(words[0], ' ');
    NoSpaceExcludes(words[0], '\n');
    FirstSeparator(words[0], Join(tail, " "));
  }

  lemma CreditShapeOne(words: seq<string>)
    requires forall k :: 0 <= k < |words| ==> NoSpace(words[k])
    requires |words| < 2
    ensures var r := ReplaceFirstChar(Join(words, " "), ' ', '\n');
            && multiset(r)['\n'] == 0
            && (forall i :: 0 <= i < |r| ==> !IsSpace(r[i]))
            && r == (if words == [] then "" else words[0])
  {
    if |words| == 1 {
      NoSpaceExcludes(words[0], ' ');
      NoSpaceExcludes(words[0], '\n');
      NoNewline(words[0]);
    }
  }

  lemma NoNewline(s: string)
    requires '\n' !in s
    ensures multiset(s)['\n'] == 0
  {
  }

  /** The first space of `w + " " + rest` is the one after `w`. */
  lemma FirstSeparator(w: string, rest: string)
    requires ' ' !in w && '\n' !in w && '\n' !in rest
    requires forall i :: 0 <= i < |rest| && IsSpace(rest[i]) ==> rest[i] == ' '
    requires forall i :: 0 <= i < |w| ==> !IsSpace(w[i])
    ensures var r := ReplaceFirstChar(w + " " + rest, ' ', '\n');
            && r == w + "\n" + rest
            && multiset(r)['\n'] == 1
            && (forall i :: 0 <= i < |r| && IsSpace(r[i]) ==> r[i] == ' ' || r[i] == '\n')
            && StartsWith(r, w + "\n")
  {
    var joined := w + " " + rest;
    assert joined[..|w|] == w;
    assert joined[|w|] == ' ';
    assert IndexOf(joined, ' ') == Some(|w|);
    var r := ReplaceFirstChar(joined, ' ', '\n');
    assert r == w + "\n" + rest;
    NoNewline(w);
    NoNewline(rest);
    assert multiset(r) == multiset(w) + multiset("\n") + multiset(rest);
    assert r[..|w| + 1] == w + "\n";
  }

  /** Whitespace in a single-space join of words is only the separators. */
  lemma {:induction false} JoinSpaces(words: seq<string>)
    requires forall k :: 0 <= k < |words| ==> NoSpace(words[k])
    ensures forall i :: 0 <= i < |Join(words, " ")| && IsSpace(Join(words, " ")[i]) ==>
              Join(words, " ")[i] == ' '
    decreases |words|
  {
    if |words| > 1 {
      JoinSpaces(words[1..]);
      var rest := Join(words[1..], " ");
      var j := Join(words, " ");
      assert j == words[0] + " " + rest;
      forall i | 0 <= i < |j| && IsSpace(j[i]) ensures j[i] == ' ' {
        if i > |words[0]| {
          assert j[i] == rest[i - |words[0]| - 1];
        }
      }
    }
  }

  // ---------------------------------------------------------------------
  // per-field extraction

  /** One worksheet cell: its value and its fill's foreground colour. */
  datatype Cell = Cell(value: Value, fill: ColorDesc)

  /** A worksheet: its used extent and the cell at each (row, column),
      both counted from 1 as in Excel. */
  datatype Sheet = Sheet(maxRow: nat, maxCol: nat, cell: (int, int) -> Cell)

  const DebtRatio: string := "부채비율"
  const CurrentRatio: string := "유동비율"
  const CreditRating: string := "신용평가"

  /** The value stored for one field, before `None` becomes `""`. */
  function ProcessValue(item: string, v: Value, ext: Externals): (r: Value)
    ensures r.VNone? <==> v.VNone?
    ensures item != DebtRatio && item != CurrentRatio && item != CreditRating ==> r == CleanValue(v)
    ensures item == CreditRating && v.VStr? ==> r.VStr? && multiset(r.s)['\n'] <= 1
    ensures (item == DebtRatio || item == CurrentRatio) && v.VNum? ==> r == VNum(v.x * 100.0)
  {
    if item == DebtRatio || item == CurrentRatio then
      match v
      case VNum(x) => VNum(x * 100.0)
      case VStr(s) =>
        (match ext.parseFloat(Strip(RemoveChar(s, '%')))
         case Some(x) => VNum(x)
         case None => VStr(CleanText(s)))
      case VNone => VNone
    else if item == CreditRating then
      match v
      case VStr(s) => VStr(NormalizeCredit(s))
      case _ => v
    else CleanValue(v)
  }

  /** `processed_value if processed_value is not None else ""`. */
  function Stored(v: Value): (r: Value)
    ensures r != VNone
    ensures v != VNone ==> r == v
  {
    if v.VNone? then VStr("") else v
  }

  /** The record of the company whose header cell is at (`row`, `col`):
      every configured field gets one value and one status, read `offset`
      rows below the header. */
  function ExtractCompany(sheet: Sheet, row: int, col: int, name: string,
                          offsets: map<string, int>, ext: Externals): (c: Company)
    ensures c.name == name
    ensures c.fields.Keys == offsets.Keys && c.status.Keys == offsets.Keys
    ensures forall item :: item in offsets && row + offsets[item] > sheet.maxRow ==>
              c.fields[item] == VStr("N/A") && c.status[item] == OutOfRange
    ensures forall item :: item in offsets && row + offsets[item] <= sheet.maxRow ==>
              c.fields[item] != VNone && c.status[item] != OutOfRange
    ensures forall item :: (item in offsets && row + offsets[item] <= sheet.maxRow
              && sheet.cell(row + offsets[item], col).value.VNone?) ==> c.fields[item] == VStr("")
    ensures forall item :: item in offsets && row + offsets[item] <= sheet.maxRow ==>
              c.fields[item] == Stored(ProcessValue(item, sheet.cell(row + offsets[item], col).value, ext))
              && c.status[item] == StatusFromColor(sheet.cell(row + offsets[item], col).fill)
  {
    var fields := map item | item in offsets ::
      if row + offsets[item] <= sheet.maxRow
      then Stored(ProcessValue(item, sheet.cell(row + offsets[item], col).value, ext))
      else VStr("N/A");
    var status := map item | item in offsets ::
      if row + offsets[item] <= sheet.maxRow
      then StatusFromColor(sheet.cell(row + offsets[item], col).fill)
      else OutOfRange;
    Company(name, fields, status)
  }

  /** A header row: its first cell is text containing "회사명". */
  predicate IsHeaderRow(sheet: Sheet, row: int) {
    var v := sheet.cell(row, 1).value;
    v.VStr? && Contains(Strip(v.s), "회사명")
  }

  /** A cell of a header row that names a company: it holds text that is
      not blank. */
  predicate IsNameCell(sheet: Sheet, row: int, col: int) {
    var v := sheet.cell(row, col).value;
    v.VStr? && Strip(v.s) != []
  }

  /** The columns after the first whose cell in `row` names a company,
      left to right. */
  function NameColumns(sheet: Sheet, row: int): seq<nat> {
    Positions((c: nat) => IsNameCell(sheet, row, c), 2, sheet.maxCol)
  }

  /** The text a cell holds, `""` when it holds none. */
  function CellText(sheet: Sheet, row: int, col: int): string {
    var v := sheet.cell(row, col).value;
    if v.VStr? then v.s else ""
  }

  /** The company named at (`row`, `col`): its name cleaned and every
      offset field read below it. */
  function NamedCompany(sheet: Sheet, row: int, col: int, offsets: map<string, int>,
                        ext: Externals): (c: Company)
    ensures WellFormed(c, offsets)
  {
    ExtractCompany(sheet, row, col, CleanText(CellText(sheet, row, col)), offsets, ext)
  }

  /** The companies of a header row: one per name column, in column order. */
  function RowCompanies(sheet: Sheet, row: int, offsets: map<string, int>,
                        ext: Externals): (cs: seq<Company>)
    ensures |cs| == |NameColumns(sheet, row)|
    ensures forall k :: 0 <= k < |cs| ==>
              cs[k] == NamedCompany(sheet, row, NameColumns(sheet, row)[k], offsets, ext)
    ensures forall k :: 0 <= k < |cs| ==> WellFormed(cs[k], offsets)
  {
    var make := (c: nat) => NamedCompany(sheet, row, c, offsets, ext);
    var cols := NameColumns(sheet, row);
    assert forall k :: 0 <= k < |cols| ==> Map(make, cols)[k] == make(cols[k]) by {
      forall k | 0 <= k < |cols| { MapAt(make, cols, k); }
    }
    Map(make, cols)
  }

  /** A cell made only of whitespace and control characters passes the
      `strip()` emptiness test when it holds a control character, yet cleans
      to the empty name. */
  lemma CleanAllJunk(s: string)
    requires forall i :: 0 <= i < |s| ==> IsJunk(s[i])
    ensures CleanText(s) == ""
  {
    if s != [] {
      assert JunkRun(s) == |s|;
      assert Collapse(s) == " ";
    }
  }

  /** For example, a lone NUL character. */
  lemma NulNameCleansEmpty()
    ensures Strip("\0") != [] && CleanText("\0") == ""
  {
    assert NoSpace("\0");
    CleanAllJunk("\0");
  }

  /** What every extracted record satisfies: a cleaned name and exactly one
      value and one status per configured field. */
  predicate WellFormed(c: Company, offsets: map<string, int>) {
    IsClean(c.name)
    && c.fields.Keys == offsets.Keys && c.status.Keys == offsets.Keys
  }

  /** The header rows of a sheet, top to bottom. */
  function HeaderRows(sheet: Sheet): seq<nat> {
    Positions((r: nat) => IsHeaderRow(sheet, r), 1, sheet.maxRow)
  }

  /** The companies of one sheet: those of each header row, top to bottom. */
  function SheetCompanies(sheet: Sheet, offsets: map<string, int>, ext: Externals): (cs: seq<Company>)
    ensures forall k :: 0 <= k < |cs| ==> WellFormed(cs[k], offsets)
  {
    var ofRow := (r: nat) => RowCompanies(sheet, r, offsets, ext);
    var rows := HeaderRows(sheet);
    assert forall k :: 0 <= k < |FlatMap(ofRow, rows)| ==> WellFormed(FlatMap(ofRow, rows)[k], offsets) by {
      forall k | 0 <= k < |FlatMap(ofRow, rows)|
        ensures WellFormed(FlatMap(ofRow, rows)[k], offsets)
      {
        var i := FlatMapFrom(ofRow, rows, FlatMap(ofRow, rows)[k]);
      }
    }
    FlatMap(ofRow, rows)
  }

  /** The companies of the whole workbook, sheet by sheet. */
  function BookCompanies(book: seq<Sheet>, offsets: map<string, int>, ext: Externals): (cs: seq<Company>)
    ensures forall k :: 0 <= k < |cs| ==> WellFormed(cs[k], offsets)
  {
    var ofSheet := (sh: Sheet) => SheetCompanies(sh, offsets, ext);
    assert forall k :: 0 <= k < |FlatMap(ofSheet, book)| ==> WellFormed(FlatMap(ofSheet, book)[k], offsets) by {
      forall k | 0 <= k < |FlatMap(ofSheet, book)|
        ensures WellFormed(FlatMap(ofSheet, book)[k], offsets)
      {
        var i := FlatMapFrom(ofSheet, book, FlatMap(ofSheet, book)[k]);
      }
    }
    FlatMap(ofSheet, book)
  }

  /** The workbook yields no company exactly when none of its sheets does. */
  lemma {:induction false} BookCompaniesNone(book: seq<Sheet>, offsets: map<string, int>, ext: Externals)
    ensures BookCompanies(book, offsets, ext) == [] <==>
            forall i :: 0 <= i < |book| ==> SheetCompanies(book[i], offsets, ext) == []
  {
    FlatMapEmpty((sh: Sheet) => SheetCompanies(sh, offsets, ext), book);
  }

  /** The workbook's companies are those of its first sheets followed by
      those of the rest. */
  lemma {:induction false} BookCompaniesAppend(a: seq<Sheet>, b: seq<Sheet>, offsets: map<string, int>, ext: Externals)
    ensures BookCompanies(a + b, offsets, ext) == BookCompanies(a, offsets, ext) + BookCompanies(b, offsets, ext)
  {
    FlatMapAppend((sh: Sheet) => SheetCompanies(sh, offsets, ext), a, b);
  }

  /** Every name column of every header row of every sheet yields its
      company. */
  lemma {:induction false} BookHasEveryNameColumn(book: seq<Sheet>, offsets: map<string, int>, ext: Externals,
                               i: nat, row: nat, col: nat)
    requires i < |book|
    requires 1 <= row <= book[i].maxRow && IsHeaderRow(book[i], row)
    requires 2 <= col <= book[i].maxCol && IsNameCell(book[i], row, col)
    ensures NamedCompany(book[i], row, col, offsets, ext) in BookCompanies(book, offsets, ext)
  {
    var sheet := book[i];
    var cols := NameColumns(sheet, row);
    assert col in cols;
    var k :| 0 <= k < |cols| && cols[k] == col;
    var here := RowCompanies(sheet, row, offsets, ext);
    assert here[k] in here;
    var rows := HeaderRows(sheet);
    assert row in rows;
    var m :| 0 <= m < |rows| && rows[m] == row;
    FlatMapIn((r: nat) => RowCompanies(sheet, r, offsets, ext), rows, m, here[k]);
    FlatMapIn((sh: Sheet) => SheetCompanies(sh, offsets, ext), book, i, here[k]);
  }

  /** And every company of the workbook comes from such a column. */
  lemma {:induction false} BookHasOnlyNameColumns(book: seq<Sheet>, offsets: map<string, int>, ext: Externals,
                                                  c: Company) returns (i: nat, row: nat, col: nat)
    requires c in BookCompanies(book, offsets, ext)
    ensures i < |book|
    ensures 1 <= row <= book[i].maxRow && IsHeaderRow(book[i], row)
    ensures 2 <= col <= book[i].maxCol && IsNameCell(book[i], row, col)
    ensures c == NamedCompany(book[i], row, col, offsets, ext)
  {
    i := FlatMapFrom((sh: Sheet) => SheetCompanies(sh, offsets, ext), book, c);
    row := SheetCompanyRow(book[i], offsets, ext, c);
    col := RowCompanyColumn(book[i], row, offsets, ext, c);
  }

  /** The header row a company of a sheet comes from. */
  lemma {:induction false} SheetCompanyRow(sheet: Sheet, offsets: map<string, int>, ext: Externals,
                                           c: Company) returns (row: nat)
    requires c in SheetCompanies(sheet, offsets, ext)
    ensures 1 <= row <= sheet.maxRow && IsHeaderRow(sheet, row)
    ensures c in RowCompanies(sheet, row, offsets, ext)
  {
    var rows := HeaderRows(sheet);
    var m := FlatMapFrom((r: nat) => RowCompanies(sheet, r, offsets, ext), rows, c);
    row := rows[m];
  }

  /** The name column a company of a header row comes from. */
  lemma {:induction false} RowCompanyColumn(sheet: Sheet, row: nat, offsets: map<string, int>, ext: Externals,
                                            c: Company) returns (col: nat)
    requires c in RowCompanies(sheet, row, offsets, ext)
    ensures 2 <= col <= sheet.maxCol && IsNameCell(sheet, row, col)
    ensures c == NamedCompany(sheet, row, col, offsets, ext)
  {
    var here := RowCompanies(sheet, row, offsets, ext);
    var k :| 0 <= k < |here| && here[k] == c;
    col := NameColumns(sheet, row)[k];
  }

  // ---------------------------------------------------------------------
  // filter pipeline

  /** Optional lower and upper bounds on an amount field. */
  datatype Range = Range(lo: Option<real>, hi: Option<real>)

  /** The search form: empty text means "no filter". */
  datatype Filters = Filters(name: string, manager: string, region: string,
                             capacity: Range, perf3y: Range, perf5y: Range)

  /** `parse_amount(str(comp.get(field)))`. */
  function Amount(c: Company, field: string, ext: Externals): Option<real> {
    ext.parseAmount(VStr(Str(Get(c, field, VNone), ext)))
  }

  /** Whether stage `k` of the nine successive comprehensions runs. */
  predicate StageOn(f: Filters, k: nat) {
    if k == 0 then f.name != ""
    else if k == 1 then f.manager != ""
    else if k == 2 then f.region != "" && f.region != "전체"
    else if k == 3 then f.capacity.lo.Some?
    else if k == 4 then f.capacity.hi.Some?
    else if k == 5 then f.perf3y.lo.Some?
    else if k == 6 then f.perf3y.hi.Some?
    else if k == 7 then f.perf5y.lo.Some?
    else if k == 8 then f.perf5y.hi.Some?
    else false
  }

  predicate AtLeast(a: Option<real>, bound: Option<real>) {
    a.Some? && bound.Some? && a.value >= bound.value
  }

  predicate AtMost(a: Option<real>, bound: Option<real>) {
    a.Some? && bound.Some? && a.value <= bound.value
  }

  /** The condition of stage `k`. */
  predicate StageKeeps(f: Filters, ext: Externals, k: nat, c: Company) {
    if k == 0 then Contains(Lower(c.name), Lower(f.name))
    else if k == 1 then Contains(Lower(Str(Get(c, "비고", VStr("")), ext)), Lower(f.manager))
    else if k == 2 then Contains(Lower(Str(Get(c, "지역", VStr("")), ext)), Lower(f.region))
    else if k == 3 then AtLeast(Amount(c, "시평", ext), f.capacity.lo)
    else if k == 4 then AtMost(Amount(c, "시평", ext), f.capacity.hi)
    else if k == 5 then AtLeast(Amount(c, "3년 실적", ext), f.perf3y.lo)
    else if k == 6 then AtMost(Amount(c, "3년 실적", ext), f.perf3y.hi)
    else if k == 7 then AtLeast(Amount(c, "5년 실적", ext), f.perf5y.lo)
    else if k == 8 then AtMost(Amount(c, "5년 실적", ext), f.perf5y.hi)
    else true
  }

  /** The first `n` stages applied in order, each a comprehension that runs
      only when its filter is set. */
  function Stages(f: Filters, ext: Externals, n: nat, all: seq<Company>): seq<Company> {
    if n == 0 then all
    else
      var before := Stages(f, ext, n - 1, all);
      if StageOn(f, n - 1) then Filter((c: Company) => StageKeeps(f, ext, n - 1, c), before)
      else before
  }

  /** Within a range: a set bound requires a parsed amount on its side. */
  predicate InRange(a: Option<real>, r: Range) {
    (r.lo.None? || (a.Some? && a.value >= r.lo.value))
    && (r.hi.None? || (a.Some? && a.value <= r.hi.value))
  }

  /** The reference condition: what a company must satisfy to be listed. */
  predicate Matches(f: Filters, ext: Externals, c: Company) {
    (f.name == "" || Contains(Lower(c.name), Lower(f.name)))
    && (f.manager == "" || Contains(Lower(Str(Get(c, "비고", VStr("")), ext)), Lower(f.manager)))
    && (f.region == "" || f.region == "전체"
        || Contains(Lower(Str(Get(c, "지역", VStr("")), ext)), Lower(f.region)))
    && InRange(Amount(c, "시평", ext), f.capacity)
    && InRange(Amount(c, "3년 실적", ext), f.perf3y)
    && InRange(Amount(c, "5년 실적", ext), f.perf5y)
  }

  /** A company passes the first `n` stages. */
  predicate PassesFirst(f: Filters, ext: Externals, n: nat, c: Company) {
    forall k: nat :: k < n ==> (StageOn(f, k) ==> StageKeeps(f, ext, k, c))
  }

  /** The first `n` stages keep exactly the companies that pass them, in
      their original order. */
  lemma {:induction false} StagesFilter(f: Filters, ext: Externals, n: nat, all: seq<Company>)
    ensures Stages(f, ext, n, all) == Filter((c: Company) => PassesFirst(f, ext, n, c), all)
  {
    if n == 0 {
      FilterCongruent((c: Company) => PassesFirst(f, ext, 0, c), (c: Company) => true, all);
      FilterAll(all);
    } else {
      StagesFilter(f, ext, n - 1, all);
      StageStep(f, ext, n, all);
    }
  }

  /** One more stage narrows the survivors of the earlier ones. */
  lemma StageStep(f: Filters, ext: Externals, n: nat, all: seq<Company>)
    requires n > 0
    ensures var before := Filter((c: Company) => PassesFirst(f, ext, n - 1, c), all);
            (if StageOn(f, n - 1) then Filter((c: Company) => StageKeeps(f, ext, n - 1, c), before) else before)
            == Filter((c: Company) => PassesFirst(f, ext, n, c), all)
  {
    var p := (c: Company) => PassesFirst(f, ext, n - 1, c);
    var q := (c: Company) => StageKeeps(f, ext, n - 1, c);
    var pn := (c: Company) => PassesFirst(f, ext, n, c);
    forall i | 0 <= i < |all| ensures pn(all[i]) == (p(all[i]) && (StageOn(f, n - 1) ==> q(all[i]))) {
      PassesStep(f, ext, n, all[i]);
    }
    if StageOn(f, n - 1) {
      FilterFilter(p, q, pn, all);
    } else {
      FilterCongruent(p, pn, all);
    }
  }

  lemma PassesStep(f: Filters, ext: Externals, n: nat, c: Company)
    requires n > 0
    ensures PassesFirst(f, ext, n, c) ==
            (PassesFirst(f, ext, n - 1, c) && (StageOn(f, n - 1) ==> StageKeeps(f, ext, n - 1, c)))
  {
    if PassesFirst(f, ext, n - 1, c) && (StageOn(f, n - 1) ==> StageKeeps(f, ext, n - 1, c)) {
      forall k: nat | k < n ensures StageOn(f, k) ==> StageKeeps(f, ext, k, c) {
        if k < n - 1 {
          assert PassesFirst(f, ext, n - 1, c);
        }
      }
    }
  }

  lemma {:induction false} FilterAll(s: seq<Company>)
    ensures Filter((c: Company) => true, s) == s
    decreases |s|
  {
    if s != [] {
      FilterAll(s[1..]);
    }
  }

  /** Passing all nine stages is the reference condition. */
  lemma PassesAllMatches(f: Filters, ext: Externals, c: Company)
    ensures PassesFirst(f, ext, 9, c) == Matches(f, ext, c)
  {
    if Matches(f, ext, c) {
      MatchesPasses(f, ext, c);
    }
    if PassesFirst(f, ext, 9, c) {
      PassesMatch(f, ext, c);
    }
  }

  /** A company meeting the reference condition passes every stage. */
  lemma MatchesPasses(f: Filters, ext: Externals, c: Company)
    requires Matches(f, ext, c)
    ensures PassesFirst(f, ext, 9, c)
  {
    forall k: nat | k < 9 ensures StageOn(f, k) ==> StageKeeps(f, ext, k, c) {
      MatchesStage(f, ext, c, k);
    }
  }

  /** Stage `k`'s condition is one conjunct of the reference condition. */
  lemma MatchesStage(f: Filters, ext: Externals, c: Company, k: nat)
    requires Matches(f, ext, c) && k < 9
    ensures StageOn(f, k) ==> StageKeeps(f, ext, k, c)
  {
    if k == 0 {
    } else if k == 1 {
    } else if k == 2 {
    } else if k < 5 {
      assert InRange(Amount(c, "시평", ext), f.capacity);
    } else if k < 7 {
      assert InRange(Amount(c, "3년 실적", ext), f.perf3y);
    } else {
      assert InRange(Amount(c, "5년 실적", ext), f.perf5y);
    }
  }

  /** A company passing every stage meets the reference condition. */
  lemma PassesMatch(f: Filters, ext: Externals, c: Company)
    requires PassesFirst(f, ext, 9, c)
    ensures Matches(f, ext, c)
  {
    assert StageOn(f, 0) ==> StageKeeps(f, ext, 0, c);
    assert StageOn(f, 1) ==> StageKeeps(f, ext, 1, c);
    assert StageOn(f, 2) ==> StageKeeps(f, ext, 2, c);
    assert InRange(Amount(c, "시평", ext), f.capacity) by {
      assert StageOn(f, 3) ==> StageKeeps(f, ext, 3, c);
      assert StageOn(f, 4) ==> StageKeeps(f, ext, 4, c);
    }
    assert InRange(Amount(c, "3년 실적", ext), f.perf3y) by {
      assert StageOn(f, 5) ==> StageKeeps(f, ext, 5, c);
      assert StageOn(f, 6) ==> StageKeeps(f, ext, 6, c);
    }
    assert InRange(Amount(c, "5년 실적", ext), f.perf5y) by {
      assert StageOn(f, 7) ==> StageKeeps(f, ext, 7, c);
      assert StageOn(f, 8) ==> StageKeeps(f, ext, 8, c);
    }
  }

  /** The nine stages keep exactly the companies that match the reference
      condition, in their original order. */
  lemma PipelineIsReference(f: Filters, ext: Externals, all: seq<Company>)
    ensures Stages(f, ext, 9, all) == Filter((c: Company) => Matches(f, ext, c), all)
  {
    StagesFilter(f, ext, 9, all);
    forall i | 0 <= i < |all|
      ensures PassesFirst(f, ext, 9, all[i]) == Matches(f, ext, all[i])
    {
      PassesAllMatches(f, ext, all[i]);
    }
    FilterCongruent((c: Company) => PassesFirst(f, ext, 9, c), (c: Company) => Matches(f, ext, c), all);
  }

  /** The answer of a search. */
  datatype SearchOutcome =
    | Found(companies: seq<Company>)
    | OpenError                 // the workbook could not be opened
    | NoCompanies               // no company column under any header row
    | NoMatch                   // companies exist but none passes the filters

  /** The text of the single error record a failed search returns. */
  function ErrorText(o: SearchOutcome): string
    requires !o.Found?
  {
    match o
    case OpenError => "파일 열기 오류"
    case NoCompanies => "엑셀 파일에서 업체 정보를 찾을 수 없습니다."
    case NoMatch => "주어진 조건에 맞는 업체를 찾을 수 없습니다."
  }

  /** `find_and_filter_companies`, with the opened workbook as input (`None`
      when opening failed). */
  function FindAndFilter(book: Option<seq<Sheet>>, offsets: map<string, int>, f: Filters,
                         ext: Externals): (r: SearchOutcome)
    ensures book.None? <==> r.OpenError?
    ensures book.Some? ==> (r.NoCompanies? <==> BookCompanies(book.value, offsets, ext) == [])
    ensures book.Some? ==>
              var all := BookCompanies(book.value, offsets, ext);
              (r.Found? <==> exists i :: 0 <= i < |all| && Matches(f, ext, all[i]))
    ensures r.Found? ==>
              var all := BookCompanies(book.value, offsets, ext);
              r.companies == Filter((c: Company) => Matches(f, ext, c), all)
              && r.companies != [] && Subseq(r.companies, all)
    ensures r.NoMatch? ==>
              var all := BookCompanies(book.value, offsets, ext);
              all != [] && forall i :: 0 <= i < |all| ==> !Matches(f, ext, all[i])
  {
    if book.None? then OpenError
    else
      var all := BookCompanies(book.value, offsets, ext);
      if all == [] then NoCompanies
      else
        var kept := Stages(f, ext, 9, all);
        PipelineIsReference(f, ext, all);
        FilterIsSubseq((c: Company) => Matches(f, ext, c), all);
        if kept == [] then NoMatch else Found(kept)
  }
}

=== FILE: search_view.dfy ===
/** The company search screen's detail panel: quoting a value for pasting
    into Excel, copying every value at once, the thousands grouping typed
    into a price box, the per-field freshness background and the red mark
    on a risky financial ratio. */
module SearchView {
  import opened Base
  import opened Text
  import opened Numbers
  import opened Records

  // ---------------------------------------------------------------------
  // Excel quoting

  /** Every double quote written twice. */
  function DoubleQuotes(s: string): (r: string)
    ensures '\n' in s <==> '\n' in r
    ensures '\r' in s <==> '\r' in r
    ensures '"' !in s ==> r == s
  {
    if s == [] then []
    else (if s[0] == '"' then "\"\"" else [s[0]]) + DoubleQuotes(s[1..])
  }

  /** Every doubled double quote read back as one. */
  function UndoubleQuotes(s: string): string
    decreases |s|
  {
    if s == [] then []
    else if |s| >= 2 && s[0] == '"' && s[1] == '"' then "\"" + UndoubleQuotes(s[2..])
    else [s[0]] + UndoubleQuotes(s[1..])
  }

  lemma {:induction false} UndoubleDouble(s: string)
    ensures UndoubleQuotes(DoubleQuotes(s)) == s
    decreases |s|
  {
    if s != [] {
      UndoubleDouble(s[1..]);
      var rest := DoubleQuotes(s[1..]);
      if s[0] == '"' {
        assert DoubleQuotes(s) == "\"\"" + rest;
        assert ("\"\"" + rest)[2..] == rest;
      } else {
        assert DoubleQuotes(s) == [s[0]] + rest;
        assert ([s[0]] + rest)[1..] == rest;
      }
      assert s == [s[0]] + s[1..];
    }
  }

  /** `format_text_for_excel`: a value holding a newline or a double quote
      is wrapped in double quotes with its own quotes doubled; any other
      value is pasted as it is. */
  function FormatForExcel(text: string): (r: string)
    ensures '\n' !in text && '"' !in text ==> r == text
    ensures '\n' in text || '"' in text ==>
              |r| >= 2 && r[0] == '"' && r[|r| - 1] == '"' && r[1..|r| - 1] == DoubleQuotes(text)
  {
    if '\n' in text || '"' in text then
      var r := "\"" + DoubleQuotes(text) + "\"";
      assert r[1..|r| - 1] == DoubleQuotes(text);
      r
    else text
  }

  /** How Excel reads a pasted cell back: a quoted cell loses its outer
      quotes and has its doubled quotes undone. */
  function ReadCell(s: string): string {
    if |s| >= 2 && s[0] == '"' && s[|s| - 1] == '"' then UndoubleQuotes(s[1..|s| - 1]) else s
  }

  /** Reading a formatted value back gives the value. */
  lemma FormatForExcelRoundTrip(text: string)
    ensures ReadCell(FormatForExcel(text)) == text
  {
    if '\n' in text || '"' in text {
      UndoubleDouble(text);
    } else if |text| >= 2 {
      assert text[0] in text;
    }
  }

  /** `copy_all_details`: nothing when the first value cell is missing or
      empty; otherwise every value cell, formatted for Excel, one per line
      with Windows line ends. A missing cell counts as empty. */
  function CopyAll(cells: seq<Option<string>>): (r: Option<string>)
    ensures r.None? <==> cells == [] || cells[0].GetOr("") == ""
    ensures r.Some? && (forall i :: 0 <= i < |cells| ==> '\r' !in cells[i].GetOr("")) ==>
              var pieces := Split(r.value, "\r\n");
              |pieces| == |cells|
              && forall i :: 0 <= i < |cells| ==> ReadCell(pieces[i]) == cells[i].GetOr("")
  {
    if cells == [] || cells[0].GetOr("") == "" then None
    else
      var lines := seq(|cells|, i requires 0 <= i < |cells| => FormatForExcel(cells[i].GetOr("")));
      CopyLinesReadBack(cells, lines);
      Some(Join(lines, "\r\n"))
  }

  /** When no value holds a carriage return, splitting the copied lines at
      CR LF gives one Excel cell per value, and each reads back as its
      value. */
  lemma CopyLinesReadBack(cells: seq<Option<string>>, lines: seq<string>)
    requires cells != [] && |lines| == |cells|
    requires forall i :: 0 <= i < |cells| ==> lines[i] == FormatForExcel(cells[i].GetOr(""))
    ensures (forall i :: 0 <= i < |cells| ==> '\r' !in cells[i].GetOr("")) ==>
              var pieces := Split(Join(lines, "\r\n"), "\r\n");
              |pieces| == |cells|
              && forall i :: 0 <= i < |cells| ==> ReadCell(pieces[i]) == cells[i].GetOr("")
  {
    if forall i :: 0 <= i < |cells| ==> '\r' !in cells[i].GetOr("") {
      forall i | 0 <= i < |cells| ensures '\r' !in lines[i] && ReadCell(lines[i]) == cells[i].GetOr("") {
        FormatKeepsCR(cells[i].GetOr(""));
        FormatForExcelRoundTrip(cells[i].GetOr(""));
      }
      SplitJoinSep(lines, "\r\n");
    }
  }

  /** Formatting for Excel adds no carriage return. */
  lemma FormatKeepsCR(text: string)
    requires '\r' !in text
    ensures '\r' !in FormatForExcel(text)
  {
    var r := FormatForExcel(text);
    if '\n' in text || '"' in text {
      assert r == [r[0]] + r[1..|r| - 1] + [r[|r| - 1]];
    }
  }

  /** A copy starts with the first value's formatted text. */
  lemma CopyAllStartsWithFirst(cells: seq<Option<string>>)
    requires cells != [] && cells[0].GetOr("") != ""
    ensures StartsWith(CopyAll(cells).value, FormatForExcel(cells[0].GetOr("")))
  {
    var lines := seq(|cells|, i requires 0 <= i < |cells| => FormatForExcel(cells[i].GetOr("")));
    if |lines| > 1 {
      JoinCons(lines[0], lines[1..], "\r\n");
      assert lines == [lines[0]] + lines[1..];
    }
  }

  // ---------------------------------------------------------------------
  // price entry

  /** The price box after an edit: its new text and cursor position. */
  datatype PriceEdit = PriceEdit(text: string, cursor: int)

  /** `format_price_in_entry`: the digits of the text, read as a number and
      written with comma grouping; `None` when the text has no digit or is
      already in that form. The cursor moves by the change in length, but
      not before the start. */
  function FormatPrice(original: string, cursor: int): (r: Option<PriceEdit>)
    ensures KeepDigits(original) == [] ==> r.None?
    ensures r.Some? ==> r.value.text != original
    ensures r.Some? ==> r.value.text == WithCommas(DigitsToNat(KeepDigits(original)))
    ensures r.Some? ==> r.value.cursor >= 0
                        && (cursor + |r.value.text| - |original| >= 0 ==> r.value.cursor == cursor + |r.value.text| - |original|)
    ensures r.Some? && cursor + |r.value.text| - |original| < 0 ==> r.value.cursor == 0
    ensures KeepDigits(original) != [] && r.None? ==> original == WithCommas(DigitsToNat(KeepDigits(original)))
  {
    var digits := KeepDigits(original);
    if digits == [] then None
    else
      var formatted := WithCommas(DigitsToNat(digits));
      if original != formatted then
        var moved := cursor + (|formatted| - |original|);
        Some(PriceEdit(formatted, if moved < 0 then 0 else moved))
      else None
  }

  /** A grouped number is left alone: formatting is idempotent. */
  lemma FormatPriceIdempotent(n: nat, cursor: int)
    ensures FormatPrice(WithCommas(n), cursor).None?
  {
    WithCommasDigits(n);
    assert DigitsToNat(NatToString(n)) == n;
  }

  /** Formatting keeps the number typed: the digits of the new text read
      as the same number as the digits of the old. */
  lemma FormatPriceKeepsNumber(original: string, cursor: int)
    requires FormatPrice(original, cursor).Some?
    ensures DigitsToNat(KeepDigits(FormatPrice(original, cursor).value.text)) == DigitsToNat(KeepDigits(original))
  {
    WithCommasDigits(DigitsToNat(KeepDigits(original)));
  }

  // ---------------------------------------------------------------------
  // detail cells

  /** The background of a value cell for its freshness label; a label
      outside the colour table is painted white like "미지정". */
  function StatusBackground(f: Freshness): (colour: string)
    ensures colour == "#FFFFFF" <==> f == Unspecified || f == OutOfRange
  {
    match f
    case Current => "#E2EFDA"
    case OneYearOld => "#DDEBF7"
    case OverOneYearOld => "#FDEDEC"
    case _ => "#FFFFFF"
  }

  /** The background of a field's value cell for a company. */
  function FieldBackground(c: Company, field: string): (colour: string)
    ensures field !in c.status ==> colour == "#FFFFFF"
  {
    StatusBackground(StatusOf(c, field))
  }

  /** Distinct freshness labels in the colour table get distinct colours. */
  lemma StatusBackgroundDistinct(f: Freshness, g: Freshness)
    requires f != g && f != Unspecified && f != OutOfRange
    ensures StatusBackground(f) != StatusBackground(g)
  {
  }

  /** The red mark on a ratio cell: a numeric debt ratio above the source's
      "부채비율_초과" threshold, or a numeric current ratio at or below its
      "유동비율_이하" threshold. A missing threshold (the source's
      infinities), a missing threshold table or a non-numeric value marks
      nothing. */
  function IsDanger(field: string, v: Value, thresholds: Option<map<string, real>>): (b: bool)
    ensures b ==> v.VNum? && thresholds.Some? && (field == "부채비율" || field == "유동비율")
    ensures v.VNum? && thresholds.Some? && field == "부채비율" ==>
              (b <==> "부채비율_초과" in thresholds.value && v.x > thresholds.value["부채비율_초과"])
    ensures v.VNum? && thresholds.Some? && field == "유동비율" ==>
              (b <==> "유동비율_이하" in thresholds.value && v.x <= thresholds.value["유동비율_이하"])
  {
    match (v, thresholds)
    case (VNum(x), Some(t)) =>
      (field == "부채비율" && "부채비율_초과" in t && x > t["부채비율_초과"])
      || (field == "유동비율" && "유동비율_이하" in t && x <= t["유동비율_이하"])
    case _ => false
  }

  /** A higher debt ratio or a lower current ratio is never less risky. */
  lemma DangerMonotone(x: real, y: real, t: map<string, real>)
    requires x <= y
    ensures IsDanger("부채비율", VNum(x), Some(t)) ==> IsDanger("부채비율", VNum(y), Some(t))
    ensures IsDanger("유동비율", VNum(y), Some(t)) ==> IsDanger("유동비율", VNum(x), Some(t))
  {
  }
}

=== FILE: text.dfy ===
/** Python string operations the tool relies on, on `seq<char>`:
    whitespace classification, `strip`, `split`, `join`, substring tests,
    first-occurrence replacement and ASCII case mapping. */
module Text {
  import opened Base

  /** Python's `str.isspace()` for one character. */
  predicate IsSpace(c: char) {
    c == ' ' || ('\t' <= c <= '\r') || ('\U{1C}' <= c <= '\U{1F}')
    || c == '\U{85}' || c == '\U{A0}' || c == '\U{1680}'
    || ('\U{2000}' <= c <= '\U{200A}') || c == '\U{2028}' || c == '\U{2029}'
    || c == '\U{202F}' || c == '\U{205F}' || c == '\U{3000}'
  }

  predicate NoSpace(s: string) {
    forall i :: 0 <= i < |s| ==> !IsSpace(s[i])
  }

  /** Number of whitespace characters at the start of `s`. */
  function LeadingSpaces(s: string): (k: nat)
    ensures k <= |s|
    ensures forall i :: 0 <= i < k ==> IsSpace(s[i])
    ensures k < |s| ==> !IsSpace(s[k])
  {
    if s == [] || !IsSpace(s[0]) then 0 else 1 + LeadingSpaces(s[1..])
  }

  /** Number of whitespace characters at the end of `s`. */
  function TrailingSpaces(s: string): (k: nat)
    ensures k <= |s|
    ensures forall i :: |s| - k <= i < |s| ==> IsSpace(s[i])
    ensures k < |s| ==> !IsSpace(s[|s| - k - 1])
  {
    if s == [] || !IsSpace(s[|s| - 1]) then 0 else 1 + TrailingSpaces(s[..|s| - 1])
  }

  /** Python's `str.strip()`. */
  function Strip(s: string): (r: string)
    ensures |r| <= |s|
    ensures r == [] || (!IsSpace(r[0]) && !IsSpace(r[|r| - 1]))
    ensures NoSpace(s) ==> r == s
  {
    var t := s[LeadingSpaces(s)..];
    t[..|t| - TrailingSpaces(t)]
  }

  /** Stripping a string that neither starts nor ends with whitespace
      leaves it alone, so `strip` is idempotent. */
  lemma StripFixed(s: string)
    requires s == [] || (!IsSpace(s[0]) && !IsSpace(s[|s| - 1]))
    ensures Strip(s) == s
  {
  }

  lemma StripIdempotent(s: string)
    ensures Strip(Strip(s)) == Strip(s)
  {
    StripFixed(Strip(s));
  }

  /** `sub` occurs in `s` starting at index `j`. */
  predicate OccursAt(s: string, sub: string, j: nat) {
    j + |sub| <= |s| && s[j..j + |sub|] == sub
  }

  /** Python's `needle in hay`; the empty string is in every string. */
  predicate Contains(hay: string, needle: string) {
    exists j: nat :: j <= |hay| && OccursAt(hay, needle, j)
  }

  predicate StartsWith(s: string, prefix: string) {
    |prefix| <= |s| && s[..|prefix|] == prefix
  }

  /** Python's `s.endswith(suffix)`. */
  predicate EndsWith(s: string, suffix: string) {
    |suffix| <= |s| && s[|s| - |suffix|..] == suffix
  }

  /** Python's `sep.join(parts)`. */
  function Join(parts: seq<string>, sep: string): string {
    if parts == [] then ""
    else if |parts| == 1 then parts[0]
    else parts[0] + sep + Join(parts[1..], sep)
  }

  /** First index at or after `from` where `sub` occurs. */
  function FindFrom(s: string, sub: string, from: nat): (r: Option<nat>)
    requires from <= |s|
    ensures r.Some? ==> from <= r.value && OccursAt(s, sub, r.value)
    ensures r.Some? ==> forall j: nat :: from <= j < r.value ==> !OccursAt(s, sub, j)
    ensures r.None? ==> forall j: nat :: from <= j <= |s| ==> !OccursAt(s, sub, j)
    decreases |s| - from
  {
    if OccursAt(s, sub, from) then Some(from)
    else if from == |s| then None
    else FindFrom(s, sub, from + 1)
  }

  /** Python's `str.find(sub)` as an option. */
  function Find(s: string, sub: string): (r: Option<nat>)
    ensures r.Some? <==> Contains(s, sub)
    ensures r.Some? ==> OccursAt(s, sub, r.value)
    ensures r.Some? ==> forall j: nat :: j < r.value ==> !OccursAt(s, sub, j)
  {
    FindFrom(s, sub, 0)
  }

  /** Python's `s.split(sep)` for a non-empty separator: the pieces between
      the leftmost non-overlapping occurrences of `sep`. */
  function Split(s: string, sep: string): (r: seq<string>)
    requires sep != []
    ensures |r| >= 1
    decreases |s|
  {
    match Find(s, sep)
    case None => [s]
    case Some(i) => [s[..i]] + Split(s[i + |sep|..], sep)
  }

  /** Joining the pieces of a split with its separator gives back the text. */
  lemma {:induction false} JoinSplit(s: string, sep: string)
    requires sep != []
    ensures Join(Split(s, sep), sep) == s
    decreases |s|
  {
    var f := Find(s, sep);
    if f.Some? {
      var i := f.value;
      var tail := s[i + |sep|..];
      var rest := Split(tail, sep);
      JoinSplit(tail, sep);
      assert Split(s, sep) == [s[..i]] + rest;
      JoinCons(s[..i], rest, sep);
      assert s == s[..i] + s[i..i + |sep|] + tail;
    }
  }

  lemma JoinCons(x: string, rest: seq<string>, sep: string)
    requires |rest| >= 1
    ensures Join([x] + rest, sep) == x + sep + Join(rest, sep)
  {
    assert ([x] + rest)[1..] == rest;
  }

  /** Joining two non-empty lists is joining each and putting the separator
      between them. */
  lemma {:induction false} JoinAppend(a: seq<string>, b: seq<string>, sep: string)
    requires |a| >= 1 && |b| >= 1
    ensures Join(a + b, sep) == Join(a, sep) + sep + Join(b, sep)
    decreases |a|
  {
    assert (a + b)[0] == a[0];
    if |a| == 1 {
      JoinCons(a[0], b, sep);
      assert a + b == [a[0]] + b;
    } else {
      JoinAppend(a[1..], b, sep);
      assert (a + b)[1..] == a[1..] + b;
    }
  }

  /** Joining with one more part at the end adds the separator and the
      part. */
  lemma JoinSnoc(parts: seq<string>, x: string, sep: string)
    requires parts != []
    ensures Join(parts + [x], sep) == Join(parts, sep) + sep + x
  {
    JoinAppend(parts, [x], sep);
  }

  /** Splitting on a single character undoes joining pieces that do not
      contain it. */
  lemma {:induction false} SplitJoin(parts: seq<string>, c: char)
    requires |parts| >= 1
    requires forall k :: 0 <= k < |parts| ==> c !in parts[k]
    ensures Split(Join(parts, [c]), [c]) == parts
    decreases |parts|
  {
    var s := Join(parts, [c]);
    if |parts| == 1 {
      NotContainsChar(s, c);
    } else {
      var rest := Join(parts[1..], [c]);
      JoinCons(parts[0], parts[1..], [c]);
      assert s == parts[0] + [c] + rest;
      var i := |parts[0]|;
      assert OccursAt(s, [c], i);
      forall j: nat | j < i ensures !OccursAt(s, [c], j) {
        assert s[j] == parts[0][j];
      }
      FindFirst(s, [c], i);
      assert s[..i] == parts[0];
      assert s[i + 1..] == rest;
      SplitJoin(parts[1..], c);
      assert Split(s, [c]) == [s[..i]] + Split(rest, [c]);
      assert parts == [parts[0]] + parts[1..];
    }
  }

  /** Splitting undoes joining pieces that do not contain the first
      character of the separator. */
  lemma {:induction false} SplitJoinSep(parts: seq<string>, sep: string)
    requires sep != [] && |parts| >= 1
    requires forall k :: 0 <= k < |parts| ==> sep[0] !in parts[k]
    ensures Split(Join(parts, sep), sep) == parts
    decreases |parts|
  {
    var s := Join(parts, sep);
    if |parts| == 1 {
      forall j: nat | j < |s| ensures s[j] != sep[0] {
        assert s[j] in parts[0];
      }
    } else {
      var rest := Join(parts[1..], sep);
      JoinCons(parts[0], parts[1..], sep);
      assert s == parts[0] + sep + rest;
      var i := |parts[0]|;
      assert s[i..i + |sep|] == sep;
      forall j: nat | j < i ensures !OccursAt(s, sep, j) {
        assert s[j] == parts[0][j];
      }
      FindFirst(s, sep, i);
      assert s[..i] == parts[0];
      assert s[i + |sep|..] == rest;
      SplitJoinSep(parts[1..], sep);
      assert Split(s, sep) == [s[..i]] + Split(rest, sep);
      assert parts == [parts[0]] + parts[1..];
    }
  }

  lemma NotContainsChar(s: string, c: char)
    requires c !in s
    ensures !Contains(s, [c])
  {
    forall j: nat | j <= |s| ensures !OccursAt(s, [c], j) {
      if j < |s| {
        assert s[j..j + 1] == [s[j]];
      }
    }
  }

  /** `Find` returns the first occurrence, whichever way it is located. */
  lemma FindFirst(s: string, sub: string, i: nat)
    requires OccursAt(s, sub, i)
    requires forall j: nat :: j < i ==> !OccursAt(s, sub, j)
    ensures Find(s, sub) == Some(i)
  {
    var r := Find(s, sub);
    assert r.Some?;
  }

  /** Length of the run of non-whitespace characters at the start of `s`. */
  function WordLength(s: string): (k: nat)
    ensures k <= |s|
    ensures forall i :: 0 <= i < k ==> !IsSpace(s[i])
    ensures k < |s| ==> IsSpace(s[k])
  {
    if s == [] || IsSpace(s[0]) then 0 else 1 + WordLength(s[1..])
  }

  /** Python's `s.split()` with no argument: the maximal runs of
      non-whitespace characters. */
  function SplitWords(s: string): (r: seq<string>)
    ensures forall k :: 0 <= k < |r| ==> r[k] != [] && NoSpace(r[k])
    decreases |s|
  {
    var u := s[LeadingSpaces(s)..];
    if u == [] then []
    else
      var k := WordLength(u);
      [u[..k]] + SplitWords(u[k..])
  }

  /** A single-space join of words is split back into the same words. */
  lemma {:induction false} SplitWordsJoin(words: seq<string>)
    requires forall k :: 0 <= k < |words| ==> words[k] != [] && NoSpace(words[k])
    ensures SplitWords(Join(words, " ")) == words
    decreases |words|
  {
    if |words| == 1 {
      SplitWordsCons(words[0], "");
      assert words[0] + "" == words[0];
      assert SplitWords("") == [];
    } else if |words| > 1 {
      var rest := Join(words[1..], " ");
      JoinCons(words[0], words[1..], " ");
      assert Join(words, " ") == words[0] + (" " + rest);
      SplitWordsCons(words[0], " " + rest);
      SplitWordsSpace(rest);
      assert forall k :: 0 <= k < |words| - 1 ==> words[1..][k] == words[k + 1];
      SplitWordsJoin(words[1..]);
      assert words == [words[0]] + words[1..];
    }
  }

  /** A word followed by nothing or by whitespace is the first word. */
  lemma SplitWordsCons(w: string, t: string)
    requires w != [] && NoSpace(w)
    requires t == [] || IsSpace(t[0])
    ensures SplitWords(w + t) == [w] + SplitWords(t)
  {
    var s := w + t;
    assert LeadingSpaces(s) == 0;
    assert s[0..] == s;
    WordLengthOf(w, t);
    assert s[..|w|] == w && s[|w|..] == t;
    if t != [] {
      assert LeadingSpaces(t) > 0;
    }
    assert SplitWords(t) == SplitWords(t[LeadingSpaces(t)..]) by {
      if t == [] {
      } else {
        LeadingIdempotent(t);
      }
    }
  }

  lemma LeadingIdempotent(t: string)
    ensures SplitWords(t[LeadingSpaces(t)..]) == SplitWords(t)
  {
    var a := LeadingSpaces(t);
    var u := t[a..];
    assert LeadingSpaces(u) == 0;
    assert u[0..] == u;
  }

  lemma WordLengthOf(w: string, t: string)
    requires NoSpace(w)
    requires t == [] || IsSpace(t[0])
    ensures WordLength(w + t) == |w|
    decreases |w|
  {
    if w != [] {
      assert (w + t)[1..] == w[1..] + t;
      WordLengthOf(w[1..], t);
    }
  }

  /** Leading whitespace does not change the words of a string. */
  lemma SplitWordsSpace(s: string)
    ensures SplitWords(" " + s) == SplitWords(s)
  {
    assert (" " + s)[1..] == s;
    assert (" " + s)[LeadingSpaces(" " + s)..] == s[LeadingSpaces(s)..];
  }

  /** Python's `s.replace(c, "")`. */
  function RemoveChar(s: string, c: char): (r: string)
    ensures c !in r
    ensures |r| <= |s|
    ensures c !in s ==> r == s
  {
    if s == [] then []
    else if s[0] == c then RemoveChar(s[1..], c)
    else [s[0]] + RemoveChar(s[1..], c)
  }

  /** Removing a character from a concatenation removes it from each part. */
  lemma {:induction false} RemoveCharAppend(a: string, b: string, c: char)
    ensures RemoveChar(a + b, c) == RemoveChar(a, c) + RemoveChar(b, c)
    decreases |a|
  {
    if a != [] {
      RemoveCharAppend(a[1..], b, c);
      assert (a + b)[1..] == a[1..] + b;
    } else {
      assert a + b == b;
    }
  }

  /** Python's `s.replace(a, b, 1)` for single characters. */
  function ReplaceFirstChar(s: string, a: char, b: char): (r: string)
    ensures |r| == |s|
    ensures a !in s ==> r == s
    ensures a in s ==> exists i :: 0 <= i < |s| && s[i] == a && a !in s[..i]
                                   && r == s[..i] + [b] + s[i + 1..]
  {
    match IndexOf(s, a)
    case None => s
    case Some(i) => s[..i] + [b] + s[i + 1..]
  }

  function LowerChar(c: char): char {
    if 'A' <= c <= 'Z' then (c as int + 32) as char else c
  }

  function UpperChar(c: char): char {
    if 'a' <= c <= 'z' then (c as int - 32) as char else c
  }

  /** Python's `str.lower()` on the ASCII letters. */
  function Lower(s: string): (r: string)
    ensures |r| == |s|
    ensures forall i :: 0 <= i < |s| ==> r[i] == LowerChar(s[i])
  {
    seq(|s|, i requires 0 <= i < |s| => LowerChar(s[i]))
  }

  /** Python's `str.upper()` on the ASCII letters. */
  function Upper(s: string): (r: string)
    ensures |r| == |s|
    ensures forall i :: 0 <= i < |s| ==> r[i] == UpperChar(s[i])
  {
    seq(|s|, i requires 0 <= i < |s| => UpperChar(s[i]))
  }

  /** A join contains a character only if a part or the separator does. */
  lemma {:induction false} JoinExcludes(parts: seq<string>, sep: string, c: char)
    requires c !in sep
    requires forall k :: 0 <= k < |parts| ==> c !in parts[k]
    ensures c !in Join(parts, sep)
    decreases |parts|
  {
    if |parts| > 1 {
      JoinExcludes(parts[1..], sep, c);
    }
  }
}
